=== FILE: README.md ===
# SVG creator: editor, generation and history, modelled in Dafny

The application turns a prompt, and optionally one or two reference images, into an SVG graphic.
A server endpoint asks a model for SVG code and extracts the document from the reply. A browser
hook sends the request, reads the streamed answer, shows a progress bar, cleans up the document and
files it in a newest-first history. That history is kept in memory and copied into the browser's
storage, capped at 50 entries. A page component lets the user browse the finished images in full
screen, resize the two panes and paste images or image URLs. An in-browser vector editor lets the
user select an element and move it, and drag the points of paths, the corners of rectangles, the
radii of circles and ellipses, and the vertices of lines and polygons.

This project models that logic as pure functions over immutable data and proves what it promises.
The modules follow the program's structure:

- **PathCodec** (`path_codec.dfy`): the path-data reader and writer of the editor.
- **PathGeometry** (`path_geometry.dfy`): the walk that resolves path commands into anchors and
  control handles.
- **PointDrag**, **ShapeEdit** and **Transform** (`point_drag.dfy`, `shape_edit.dfy`,
  `transform.dfy`): the value rewrites one drag makes.
- **Selection** (`selection.dfy`): the editor's own top-level selector and the standalone
  leaf-preferring selector, over the chain of a click target's ancestors.
- **Editor** (`editor.dfy`): zoom, clicks and keys.
- **SvgText** (`svg_text.dfy`): the server's and the browser's SVG extraction and the browser's
  overflow clean-up, with the regular expressions written out as scanners.
- **GenerateRoute** (`route.dfy`): the endpoint's validation and answer.
- **GenerationHook** (`hook.dfy`): the request life cycle, the progress arithmetic and the
  line buffering of the streamed body.
- **History** (`history.dfy`): the two generation lists.
- **Workspace** (`workspace.dfy`): the page's full-screen navigation, pane clamp, `canGenerate`,
  `currentSvgCode` and paste-slot choice.
- Support modules:
  - **JsNumber** (`jsnumber.dfy`): JavaScript numbers, `Number`, `parseFloat` and
    `Number::toString`, as exact decimals.
  - **Decimal** (`decimal.dfy`).
  - **Text** (`text.dfy`): whitespace class, `trim`, `join`.
  - **JsArray** (`js_array.dfy`): array writes with holes.
  - **Lists** (`lists.dfy`): `filter`, `slice`.
  - **Scan** (`scan.dfy`): leftmost and rightmost search.
  - **Wrappers** (`wrappers.dfy`).

Numbers are exact decimals: a `JsNum` is a number, `NaN` or `undefined`. The browser's geometry
calls (`getScreenCTM`, `matrixTransform`) are replaced by the document-space displacement
`(dx, dy)` a drag reports. Network, storage, timers and randomness become parameters.

A few facts about the code that a reader might not expect:

- The editor's click handler selects the top-level ancestor of the clicked element
  (components/image-combiner/svg-editor.tsx:231-245). The leaf-preferring selector in
  components/image-combiner/get-selectable-element.ts is not called by the editor; both are
  modelled in **Selection**.
- `serializePath` writes no space between a command letter and its first value
  (components/image-combiner/svg-editor.tsx:32-34).
- The streaming bar never passes 89%, although `PHASE2_MAX` is 95
  (components/image-combiner/hooks/use-image-generation.ts:140, 173-179). The estimate grows
  whenever the count passes 80% of it, so the fraction stays at or below 0.8
  (`GenerationHook.SoundProgress`).

Where the code has a bug (see "## Findings"), the model runs the code as written and states the
intended behaviour beside it. `GenerateRoute.Post` builds its prompts with the aspect-ratio lookup
as written, and `GenerateRoute.PromptsAgree` shows exactly when that differs from the intended
lookup. `GenerationHook.Settle` and `GenerationHook.Generate` take a `swallow` flag: `true` reads the
body as the code is written, dropping error events, and `false` reads it as intended.

The endpoint and the page disagree about the shape of a successful answer. The endpoint sends one
line of JSON (`GenerateRoute.JsonText`), while the page reads only the lines of a stream of
server-sent events. So, as written, every request the endpoint answers with an SVG ends with "No
valid SVG found in model response" (`GenerationHook.JsonAnswerFails`). `GenerateRoute.EventText`
is the stream the page expects, and `GenerationHook.EventAnswerSucceeds` shows that the page
files the SVG when it is sent that stream.

## Model

| member | source | states |
|---|---|---|
| PathCodec.Parse | components/image-combiner/svg-editor.tsx:17-30 | every command read carries a command letter and only numbers (NaN tokens are filtered out) |
| PathCodec.ParseKinds | components/image-combiner/svg-editor.tsx:19-27 | parsePath emits exactly one command per command letter of the text, in the order of the letters |
| PathCodec.LeadingTextIgnored | components/image-combiner/svg-editor.tsx:19-21 | text before the first command letter does not change what parsePath reads |
| PathCodec.LeadingCommaIsZero | components/image-combiner/svg-editor.tsx:23-25 | a separator at the start of a command's numbers yields an empty token, which `Number` reads as 0 and the NaN filter keeps |
| PathCodec.ValuesRoundTrip | components/image-combiner/svg-editor.tsx:23-33 | numbers written by `join(" ")` and read back by trim, split and `Number` come back unchanged, also with a trailing separator space |
| PathCodec.ParseSerialize | components/image-combiner/svg-editor.tsx:17-34 | parsePath(serializePath(cs)) == cs for commands with command letters and number values |
| PathCodec.ParseSerializeParse | components/image-combiner/svg-editor.tsx:17-34 | writing what was read and reading it again gives the same commands, for any path text |
| PathGeometry.GroupAt | components/image-combiner/svg-editor.tsx:65-147 | one value group: the anchor sits at the group's end-point values. C gives two handles, one tethered to the current point and one to the end point. S gives one handle tethered to the end point, Q one tethered to the current point |
| PathGeometry.CommandTrace | components/image-combiner/svg-editor.tsx:148-150 | Z puts the current point back at the subpath start and emits nothing; an unknown letter changes nothing |
| PathGeometry.GroupCounts | components/image-combiner/svg-editor.tsx:96-131 | a command emits one anchor per group, two handles per C group, one per S and Q group, none otherwise |
| PathGeometry.GroupAnchorsAt | components/image-combiner/svg-editor.tsx:66-146 | the k-th anchor of a command lies at value index j + k·stride + offset (offset 5 for A, 4 for C, 2 for S and Q, 0 otherwise) |
| PathGeometry.HorizontalKeepsY | components/image-combiner/svg-editor.tsx:82-88 | an H command keeps the current y for every anchor and for the point after it |
| PathGeometry.VerticalKeepsX | components/image-combiner/svg-editor.tsx:89-95 | a V command keeps the current x |
| PathGeometry.EndsAtLastAnchor | components/image-combiner/svg-editor.tsx:66-146 | after a command the current point is its last anchor, or unchanged when it had no group |
| PathGeometry.SubpathStart | components/image-combiner/svg-editor.tsx:71 | only the first pair of an M sets the subpath start |
| PathGeometry.AbsoluteIgnoresPen | components/image-combiner/svg-editor.tsx:62-68 | anchors of an absolute command other than H and V do not depend on the current point |
| PathGeometry.PointsOrdered | components/image-combiner/svg-editor.tsx:54-154 | getPointsAndHandles lists anchors in path order, each naming a command of the path |
| PointDrag.Start | components/image-combiner/svg-editor.tsx:674-692 | a point drag starts exactly when the path text is non-empty and names the command, and works on a snapshot of the parsed commands |
| PointDrag.Move | components/image-combiner/svg-editor.tsx:327-338 | a move keeps the drag session well formed |
| PointDrag.MoveIsolated | components/image-combiner/svg-editor.tsx:329-338 | a move rewrites only the dragged command. H gets start value + dx, V gets start value + dy, any other command gets the pair. Every other value reads as before |
| PointDrag.StartedDragWrites | components/image-combiner/svg-editor.tsx:686-691 | the value written is the value the point had at mousedown plus the displacement on its own axis |
| PointDrag.MoveTwice | components/image-combiner/svg-editor.tsx:329-337 | a later move of the same drag replaces what an earlier move wrote |
| PointDrag.LastMoveWins | components/image-combiner/svg-editor.tsx:316-339 | after any sequence of moves the path depends only on the last pointer position |
| PointDrag.MoveTextReadsBack | components/image-combiner/svg-editor.tsx:338 | the rewritten `d` text reads back as the rewritten commands: only the dragged point changed |
| PointDrag.AnchorFollowsDrag | components/image-combiner/svg-editor.tsx:330-337 | dragging a group's end point by (dx, dy) moves that anchor by (dx, dy) on the canvas, for absolute and relative commands |
| ShapeEdit.Captured | components/image-combiner/svg-editor.tsx:501-504 | `parseFloat(getAttribute(k) \|\| "0")` is a number or NaN |
| ShapeEdit.MissingIsZero | components/image-combiner/svg-editor.tsx:501 | a missing or empty attribute reads as 0 |
| ShapeEdit.ApplyReadsBack | components/image-combiner/svg-editor.tsx:527-544 | an attribute written with `String(v)` reads back as v; the others are untouched |
| ShapeEdit.EditWrites | components/image-combiner/svg-editor.tsx:526-614 | each handle writes exactly its own attributes; a width, height or radius written is at least 1 unless NaN |
| ShapeEdit.EditKeepsOthers | components/image-combiner/svg-editor.tsx:526-545 | a handle drag leaves every other attribute unchanged: br never moves x or y, tr never moves x, bl never moves y |
| ShapeEdit.RadiusAxes | components/image-combiner/svg-editor.tsx:567-594 | the circle radius and the ellipse rx follow dx only; ry follows dy only |
| ShapeEdit.LastEditWins | components/image-combiner/svg-editor.tsx:438-445 | every move writes from the numbers read when the handles were drawn, so only the last pointer position counts |
| ShapeEdit.CornerFollowsPointer | components/image-combiner/svg-editor.tsx:508-545 | a corner dragged with both sizes staying at 1 or more moves by (dx, dy) and the opposite corner stays put |
| ShapeEdit.VertexDragIsolated | components/image-combiner/svg-editor.tsx:479-491 | a vertex drag rewrites that vertex's text only; the number of vertices stays |
| ShapeEdit.VertexMoveTwice | components/image-combiner/svg-editor.tsx:481-486 | a later move of a vertex replaces an earlier one, since both start from the pair kept at drawing time |
| ShapeEdit.VertexLastMoveWins | components/image-combiner/svg-editor.tsx:481-491 | the polygon after a vertex drag depends only on the last pointer position |
| ShapeEdit.PointsRoundTrip | components/image-combiner/svg-editor.tsx:479-491 | a `points` text written from an even list of numbers reads back as that list |
| Transform.GetSetTranslate | components/image-combiner/svg-editor.tsx:205-219 | getTranslate reads back what setTranslateOnEl wrote, for numbers written without an exponent |
| Transform.NoTranslateReadsZero | components/image-combiner/svg-editor.tsx:206-208 | an attribute without `translate(` reads as (0, 0) |
| Transform.SetTranslateTwice | components/image-combiner/svg-editor.tsx:213-217 | a second setTranslateOnEl replaces the first one's translation and keeps the rest |
| Transform.Moved | components/image-combiner/svg-editor.tsx:296-300 | the new translation is the one at mousedown shifted by the pointer's travel (NaN stays NaN) |
| Transform.ElementFollowsPointer | components/image-combiner/svg-editor.tsx:296-300 | the translation read after a move is the one read at mousedown plus the pointer's travel |
| Transform.LastDragWins | components/image-combiner/svg-editor.tsx:286-300 | within one element drag only the last mousemove decides the transform |
| Selection.TopLevelFrom | components/image-combiner/svg-editor.tsx:235-240 | the walk up ends, when it succeeds, at an ancestor-or-self whose parent is the root |
| Selection.InlineSelectIs | components/image-combiner/svg-editor.tsx:231-245 | the editor selects exactly the ancestor-or-self of an SVG target that is a direct child of the root, reached through SVG elements, unless it is defs, style, metadata, title or desc |
| Selection.SelectLeafIs | components/image-combiner/get-selectable-element.ts:4-41 | the selector picks exactly the target or the first ancestor that is a shape or a top-level group, reached through elements that pass the walk on. The root, an overlay, a skipped tag and a non-SVG parent all yield null |
| Selection.OverlayIgnored | components/image-combiner/get-selectable-element.ts:12-16 | a click on a selection or point overlay selects nothing |
| Selection.ClipPathSkipped | components/image-combiner/get-selectable-element.ts:18-21 | tags are lower-cased first, so `clipPath` is skipped |
| Selection.ShapeTargetWins | components/image-combiner/get-selectable-element.ts:24 | a clicked shape is selected itself, whatever group contains it |
| Selection.WalkAvoidsRoot | components/image-combiner/get-selectable-element.ts:27-40 | the selected element is never the root |
| Selection.LeafWithinTopLevel | components/image-combiner/get-selectable-element.ts:27-40 | the leaf-preferring selector never climbs above the element the editor's own selector picks |
| Editor.ClampZoom | components/image-combiner/svg-editor.tsx:784-786 | the zoom lies in [25, 400], is unchanged inside that range, and goes to the nearest bound outside it |
| Editor.ZoomStaysOnGrid | components/image-combiner/svg-editor.tsx:797-810 | from any multiple of 25 between 25 and 400, the initial 100% among them, any sequence of button presses stays on that grid |
| Editor.ZoomInOut | components/image-combiner/svg-editor.tsx:797-804 | zooming in then out (below the maximum), or out then in (above the minimum), returns to the same level |
| Editor.ClickValid | components/image-combiner/svg-editor.tsx:248-254 | a click on an element of the document, or on the background, keeps the selection among the root's children |
| Editor.KeyDownValid | components/image-combiner/svg-editor.tsx:766-782 | key presses keep the editor state valid |
| Editor.DeleteRemovesSelected | components/image-combiner/svg-editor.tsx:771-777 | Delete or Backspace outside a text field removes the selected element and only it. Every other child is kept as often as it occurred, in order; the change is reported and the selection cleared |
| Editor.KeysOnlyDeselect | components/image-combiner/svg-editor.tsx:768-778 | keys never select; only Delete or Backspace with a selection, outside a text field, change the document |
| SvgText.LazyAtIs | app/api/generate-image/route.ts:318 | the lazy search succeeds at a position exactly where `<svg` opens with a `</svg>` after it, and ends at the nearest one |
| SvgText.GreedyAtIs | components/image-combiner/hooks/use-image-generation.ts:268 | the greedy search succeeds at the same positions and ends at the last `</svg>` |
| SvgText.LazyShape | app/api/generate-image/route.ts:318-320 | the server's match starts with `<svg` and ends with `</svg>`, case-insensitively |
| SvgText.ExtractIsLazy | app/api/generate-image/route.ts:315-334 | extractSvg answers exactly what its first search answers: the fenced-block fallback never finds anything the first search missed |
| SvgText.LazyPrefixOfGreedy | components/image-combiner/hooks/use-image-generation.ts:268 | the browser finds a document exactly when the server's pattern does, at the same place, and the server's match is a prefix of the browser's |
| SvgText.GreedyShape | components/image-combiner/hooks/use-image-generation.ts:268-269 | the browser's match starts with `<svg` and ends with `</svg>` |
| SvgText.ClientExtractIs | components/image-combiner/hooks/use-image-generation.ts:268-276 | whatever the browser extracts, directly or after stripping fences, is such a document. When the server's pattern finds one in a reply, the browser finds one starting with it |
| SvgText.DocumentFound | components/image-combiner/hooks/use-image-generation.ts:268-276 | given a whole SVG document, the browser's greedy match finds all of it |
| SvgText.StripFencesKeeps | components/image-combiner/hooks/use-image-generation.ts:273 | stripping fences only deletes characters: what remains appears in order in the original |
| SvgText.StripFencesNone | components/image-combiner/hooks/use-image-generation.ts:273 | text without a fence is left as it is |
| SvgText.ForceHiddenFirst | components/image-combiner/hooks/use-image-generation.ts:283-287 | when the document has an overflow attribute, `overflow="hidden"` takes the place of the first one and is the first overflow attribute afterwards |
| SvgText.ForceHiddenTwice | components/image-combiner/hooks/use-image-generation.ts:283-284 | when the document had an overflow attribute, rewriting again changes nothing |
| SvgText.ForceHiddenInserts | components/image-combiner/hooks/use-image-generation.ts:285-286 | without an overflow attribute, `overflow="hidden"` is inserted after the first `<svg` followed by whitespace, and the text around it is kept |
| SvgText.ForceHiddenKeeps | components/image-combiner/hooks/use-image-generation.ts:283-287 | the rewrite leaves the text unchanged exactly when there is nothing to rewrite or the first overflow attribute already reads `overflow="hidden"` |
| SvgText.StripStyleRemoves | components/image-combiner/hooks/use-image-generation.ts:289 | the style clean-up removes, from the first style value that holds an overflow declaration, the last such declaration, and keeps the text before and after it |
| SvgText.StripStyleKeeps | components/image-combiner/hooks/use-image-generation.ts:289 | the style clean-up changes the text exactly when some style value holds an overflow declaration |
| SvgText.StripStyleKeepsQuotes | components/image-combiner/hooks/use-image-generation.ts:289 | the style clean-up removes no quote, so attribute values keep their delimiters |
| SvgText.ClipOverflowIs | components/image-combiner/hooks/use-image-generation.ts:281-290 | the whole clean-up keeps the quotes; without a style overflow declaration it is the attribute rewrite alone |
| GenerateRoute.AspectKey | app/api/generate-image/route.ts:60 | a missing or empty aspect ratio becomes "square"; any other value is kept |
| GenerateRoute.Dimensions | app/api/generate-image/route.ts:24-38 | the intended lookup: a listed ratio gives its size, any other name gives the 800×800 square |
| GenerateRoute.LookupAgrees | app/api/generate-image/route.ts:62 | the lookup as written differs from the intended one exactly on the names objects inherit |
| GenerateRoute.InheritedNameLosesSize | app/api/generate-image/route.ts:60-62 | an aspect ratio of `constructor` reaches the model as `viewBox="0 0 undefined undefined"` |
| GenerateRoute.ViewBoxIsNumeric | app/api/generate-image/route.ts:24-44 | with the intended lookup, every viewBox sent is digits and spaces |
| GenerateRoute.Utf16Length | app/api/generate-image/route.ts:72 | `prompt.length` counts UTF-16 units: between one and two per character |
| GenerateRoute.ImageProblem | app/api/generate-image/route.ts:154-181 | an image field is rejected with a 400 exactly when it is attached and is not a file of at most 10 MiB of an allowed type |
| GenerateRoute.Check | app/api/generate-image/route.ts:64-299 | every rejection is a 400 carrying an error, and is "Invalid mode" or a plain bad request |
| GenerateRoute.CheckIs | app/api/generate-image/route.ts:64-299 | a request gets through exactly when it is acceptable field by field, tried in the endpoint's order: mode, blank prompt, length over 5000, images, unknown mode |
| GenerateRoute.InvalidModeIs | app/api/generate-image/route.ts:295-299 | "Invalid mode" answers exactly a request with a mode other than the two known ones and a prompt that passes its checks |
| GenerateRoute.RejectionIgnoresReply | app/api/generate-image/route.ts:64-182 | a rejected request never reaches the model: the answer does not depend on the reply |
| GenerateRoute.TextModeIgnoresImages | app/api/generate-image/route.ts:82-137 | in text mode the image fields play no part |
| GenerateRoute.PostSucceeds | app/api/generate-image/route.ts:55-313 | the endpoint answers 200 exactly when the request is acceptable, the model replied, and the lazy search finds a document, which is the answer |
| GenerateRoute.SuccessPrompt | app/api/generate-image/route.ts:230-294 | a success carries the user's prompt in text mode. In editing mode it carries the editing prompt, built with the lookup as written: the very prompt the model was sent, starting with the user's |
| GenerateRoute.SentIs | app/api/generate-image/route.ts:82-94 | the model is sent a prompt exactly for an acceptable request; in text mode it names the viewBox and ends with the user's description |
| GenerateRoute.EscapeChar | app/api/generate-image/route.ts:290-294 | a character of the answer's strings is written as itself exactly when it is not a quote, a backslash or a control character; those are escaped behind a backslash, and no control character is left |
| GenerateRoute.Escaped | app/api/generate-image/route.ts:290-294 | the escaped characters of a string hold no control character, and a string with nothing to escape is written as it is |
| GenerateRoute.Quote | app/api/generate-image/route.ts:290-294 | a string of the answer is written between double quotes with no control character inside |
| GenerateRoute.JsonText | app/api/generate-image/route.ts:290-294 | the answer's JSON text is one object, opening with `{` and closing with `}` |
| GenerateRoute.JsonTextOneLine | app/api/generate-image/route.ts:290-294 | every JSON answer, success or failure, holds no control character and so no line break |
| GenerateRoute.BoxAgrees | app/api/generate-image/route.ts:62 | the viewBox text built with the lookup as written is the intended one exactly for names that are not inherited |
| GenerateRoute.PromptsAgree | app/api/generate-image/route.ts:83-232 | the text-mode and editing prompts as written equal the intended ones exactly when the aspect-ratio name is not inherited; an inherited name changes both |
| GenerateRoute.InheritedNameAnswered | app/api/generate-image/route.ts:230-294 | a successful editing request with the aspect ratio `constructor` is answered with a prompt whose viewBox reads `0 0 undefined undefined` |
| GenerationHook.CancelIs | components/image-combiner/hooks/use-image-generation.ts:78-84 | cancelling turns only the loading entries with the id into errors at progress 0, keeping id and prompt; no entry with the id is left loading |
| GenerationHook.CancelTwice | components/image-combiner/hooks/use-image-generation.ts:78-84 | cancelling twice is cancelling once |
| GenerationHook.CeilHalfAgain | components/image-combiner/hooks/use-image-generation.ts:176 | the bumped estimate is 1.5 times the count, rounded up |
| GenerationHook.StreamProgress | components/image-combiner/hooks/use-image-generation.ts:178-179 | the streaming value lies in [65, 95] |
| GenerationHook.ReceiveIs | components/image-combiner/hooks/use-image-generation.ts:172-177 | the counters stay sound; the estimate never shrinks, and a bump strictly raises it and leaves the count at most two thirds of it |
| GenerationHook.SoundProgress | components/image-combiner/hooks/use-image-generation.ts:175-179 | in every reachable state the cap at 1 never applies and the streaming value stays at or below 89 |
| GenerationHook.RawProgressCanDrop | components/image-combiner/hooks/use-image-generation.ts:175-179 | the raw streaming value can go down after a bump, which is why the stored value takes the maximum |
| GenerationHook.ApplyProgressIs | components/image-combiner/hooks/use-image-generation.ts:181-187 | stored progress changes only for the loading entries with the id, to the larger of old and new, so it never decreases |
| GenerationHook.ProgressAfterCancel | components/image-combiner/hooks/use-image-generation.ts:181-187 | a progress tick after a cancel leaves the cancelled entry alone |
| GenerationHook.PreCheckIs | components/image-combiner/hooks/use-image-generation.ts:97-111 | a request is sent exactly when the prompt is not blank and, with images given, the first image (or first URL in URL mode) is among them |
| GenerationHook.FormMeetsRoute | components/image-combiner/hooks/use-image-generation.ts:192-211 | a request that passes the page's checks passes the endpoint's mode, prompt and image-presence checks |
| GenerationHook.RejectionText | components/image-combiner/hooks/use-image-generation.ts:226-229 | a rejection reaches the page as its error, followed by the details only for "Invalid mode" |
| GenerationHook.SplitJoin | components/image-combiner/hooks/use-image-generation.ts:244 | `split("\n")` yields pieces without breaks that join back into the text |
| GenerationHook.JoinSplit | components/image-combiner/hooks/use-image-generation.ts:244 | joining break-free lines and splitting again gives the lines back |
| GenerationHook.FeedIs | components/image-combiner/hooks/use-image-generation.ts:243-245 | a chunk releases whole lines, each followed in the text by its break, and keeps the unfinished rest |
| GenerationHook.BufferedIs | components/image-combiner/hooks/use-image-generation.ts:239-245 | the buffer never holds a break, and released lines with their breaks, then the buffer, are all the text decoded so far |
| GenerationHook.Lines | components/image-combiner/hooks/use-image-generation.ts:247-264 | reading a chunk's lines only appends text, counts it in UTF-16 units, and keeps the counters sound |
| GenerationHook.DoneEndsLines | components/image-combiner/hooks/use-image-generation.ts:251 | a `[DONE]` line ends its chunk's loop; later lines of that chunk are not read |
| GenerationHook.ErrorEvent | components/image-combiner/hooks/use-image-generation.ts:252-262 | an error event is dropped as written, and ends the reading with its message as intended |
| GenerationHook.Read | components/image-combiner/hooks/use-image-generation.ts:239-265 | after the read loop the character count equals the UTF-16 length of the text collected |
| GenerationHook.ReadBuffer | components/image-combiner/hooks/use-image-generation.ts:243-245 | while no error has ended it, the reading's buffer is the line buffer's |
| GenerationHook.UnbrokenBody | components/image-combiner/hooks/use-image-generation.ts:239-265 | a body without a line break yields no text and no progress, so a reply sent as one JSON document is never read |
| GenerationHook.Fail | components/image-combiner/hooks/use-image-generation.ts:320-333 | a failed generation leaves memory, storage is untouched, and the message starts with "Error generating image: " |
| GenerationHook.GenerateIs | components/image-combiner/hooks/use-image-generation.ts:88-340 | whether error events are dropped or not: a refused request changes nothing, and a cancelled one stays as the cancel left it. Otherwise the generation ends in one of two ways. On success there is one complete entry with its prompt, in front of every other memory entry, all kept, and saved in front of the stored list, with no message. On failure its entry is gone, every other memory entry is kept, storage is untouched and an error message is shown |
| GenerationHook.ErrorThenSvg | components/image-combiner/hooks/use-image-generation.ts:252-262 | as written, an error event followed by a data line holding an SVG ends in a complete entry for that SVG and no message; read as intended, the same body ends with the server's error |
| GenerationHook.SettleSucceeds | components/image-combiner/hooks/use-image-generation.ts:268-333 | read as intended, a generation settles without a message exactly when cancelled, or when its body has no error event and holds an SVG. The entry then carries that SVG with its overflow clipped; an error event's message is shown after the error prefix |
| GenerationHook.JsonAnswerFails | components/image-combiner/hooks/use-image-generation.ts:239-265 | as written, a success the endpoint answers as one line of JSON, cut into chunks in any way and read with or without error events dropped, ends with "No valid SVG found in model response" and its entry leaves memory |
| GenerationHook.EventAnswerSucceeds | components/image-combiner/hooks/use-image-generation.ts:239-306 | the same success sent as the events the page reads ends with no message and a complete entry for exactly the SVG the endpoint found, with its overflow clipped |
| GenerationHook.ReadEvent | components/image-combiner/hooks/use-image-generation.ts:239-265 | a data event holding the code as a JSON string, followed by the end marker, is read as exactly that code, with no error |
| GenerationHook.EventLines | components/image-combiner/hooks/use-image-generation.ts:247-258 | a data line with a string payload, then a blank line and `[DONE]`, collects exactly that string |
| GenerationHook.DataLine | components/image-combiner/hooks/use-image-generation.ts:248-250 | `data: ` followed by a quoted string is a data line whose payload is the quoted string |
| GenerationHook.DoneAfterBlank | components/image-combiner/hooks/use-image-generation.ts:248-251 | a blank line is skipped and a `[DONE]` line ends the chunk's loop, leaving the reading as it was |
| GenerationHook.NothingRead | components/image-combiner/hooks/use-image-generation.ts:268-276 | in no text the browser finds no SVG |
| History.SaveLocalIs | components/image-combiner/hooks/use-persistent-history.tsx:28-36 | the stored list holds at most 50 entries, starts with the new one and continues with a prefix of the old list |
| History.DeleteIs | components/image-combiner/hooks/use-persistent-history.tsx:38-46 | after a delete no entry has the id; every other entry stays, as often as it occurred, in order |
| History.DeleteTwice | components/image-combiner/hooks/use-persistent-history.tsx:41 | deleting twice is deleting once; deleting an absent id changes nothing |
| History.AddIs | components/image-combiner/hooks/use-persistent-history.tsx:86-96 | adding puts the entry in front in memory with nothing dropped, while storage stops at 50; equal lists stay equal exactly below 50 |
| History.RemoveKeepsEqual | components/image-combiner/hooks/use-persistent-history.tsx:110-113 | deleting keeps equal memory and storage lists equal |
| History.UpdateIs | components/image-combiner/hooks/use-persistent-history.tsx:98-103 | an update keeps the length and every other entry; entries with the id take the fields set and keep the rest |
| History.EmptyUpdate | components/image-combiner/hooks/use-persistent-history.tsx:98-103 | an update that sets no field changes nothing |
| Workspace.Selected | components/image-combiner/index.tsx:108 | some entry is selected exactly when the history is not empty |
| Workspace.SelectedIs | components/image-combiner/index.tsx:108 | the selection is the first entry with the id, or the newest entry when none has it |
| Workspace.CurrentSvgCode | components/image-combiner/index.tsx:110 | the edited code wins; otherwise the selected entry's code; an empty string counts as none |
| Workspace.AfterRender | components/image-combiner/index.tsx:163-169 | the edits survive a render exactly when there are none, or when neither the selected id nor the selected entry's image URL changed |
| Workspace.SelectDropsEdits | components/image-combiner/index.tsx:163-169 | selecting another generation shows its own code whatever was edited; an edit shows until then |
| Workspace.ReselectKeepsEdits | components/image-combiner/index.tsx:163-169 | selecting the generation already selected changes nothing, so the edits stay |
| Workspace.GeneratedImage | components/image-combiner/index.tsx:111-114 | an image is shown exactly when the selected entry is complete with a URL or code; it carries that entry's URL and prompt and the current code |
| Workspace.Finished | components/image-combiner/index.tsx:610 | the browsable images are exactly the complete entries with a URL, each as often as it occurs, in history order |
| Workspace.Wrap | components/image-combiner/index.tsx:615-619 | next goes to (i + 1) mod n, and previous is the index whose next is i |
| Workspace.WrapInverse | components/image-combiner/index.tsx:614-619 | a step back undoes a step forward, and the other way round |
| Workspace.PositionIs | components/image-combiner/index.tsx:611 | the position found is the first finished entry showing the URL |
| Workspace.Navigate | components/image-combiner/index.tsx:608-625 | navigation moves exactly when the image shown is among the finished ones |
| Workspace.NavigateIs | components/image-combiner/index.tsx:608-625 | navigation lands on a finished entry with its own URL; with distinct URLs, a step back after a step forward returns to the image shown |
| Workspace.SingleImage | components/image-combiner/index.tsx:408-409 | with one finished image the buttons stay on it and the arrow keys do nothing |
| Workspace.ClampSplit | components/image-combiner/index.tsx:642 | the left pane is clamped to [30, 70] and kept as it is inside |
| Workspace.ClampSplitIs | components/image-combiner/index.tsx:642 | the clamp is idempotent and monotone, and sends values beyond each end to that end |
| Workspace.PanesFit | components/image-combiner/index.tsx:652-654 | the two panes always sum to 100, the right one is in [30, 70], and a double-click gives 50 |
| Workspace.CanGenerateIs | components/image-combiner/index.tsx:116-118 | the Generate button is enabled exactly when the hook's own checks would send the request |
| Workspace.PasteSlot | components/image-combiner/index.tsx:451-460 | a paste goes to slot 2 exactly when slot 1 is taken and slot 2 free, else to slot 1 |
| Workspace.PasteSlotIs | components/image-combiner/index.tsx:481 | a free slot is always chosen when there is one, and slot 1 is replaced when both are taken |
| Workspace.PasteImageToastIs | components/image-combiner/index.tsx:451-460 | the message names the second slot exactly when the image goes there, and says "replaced" exactly when both were taken |
| Workspace.UrlAt | components/image-combiner/index.tsx:471 | a URL match starts with `http://` or `https://`, holds no whitespace, and runs to whitespace or the end |
| Workspace.FirstUrlIs | components/image-combiner/index.tsx:471-477 | the URL used is the leftmost match of the pattern |
| Workspace.PasteUrl | components/image-combiner/index.tsx:476-481 | a pasted URL goes to the slot the paste rule chooses |
| Workspace.PasteUrlIs | components/image-combiner/index.tsx:472-481 | a paste is taken as an image URL exactly when its first URL looks like an image, and then goes to a free slot whenever there is one |
| JsNumber.Plus | components/image-combiner/svg-editor.tsx:331 | the sum is a number exactly when both sides are, and then has their exact sum as its value |
| JsNumber.StringToNumber | components/image-combiner/svg-editor.tsx:25 | `Number(text)` is a number or NaN, never undefined |
| JsNumber.ParseFloat | components/image-combiner/svg-editor.tsx:208 | `parseFloat(text)` is a number or NaN |
| JsNumber.NumberTextRoundTrip | components/image-combiner/svg-editor.tsx:214 | `Number(String(x)) == x` and `parseFloat(String(x)) == x` for every number x |
| Lists.Take | components/image-combiner/hooks/use-persistent-history.tsx:31 | `slice(0, n)` has length min(n, length) and is the list's prefix of that length |
| Lists.FilterCount | components/image-combiner/hooks/use-persistent-history.tsx:111 | filtering keeps every copy of a kept value and drops every copy of the others |
| Lists.FilterSubsequence | components/image-combiner/hooks/use-persistent-history.tsx:111 | filtering keeps the order of what it keeps |

## Left out

- JsNumber.Plus, JsNumber.Minus: exact decimal sums stand in for IEEE-754 doubles. `0.1 + 0.2` is 0.3 here, where the browser gets 0.30000000000000004 and writes that text (components/image-combiner/svg-editor.tsx:329-338). No rounding, overflow or signed zero is modelled.
- JsNumber.StringToNumber, JsNumber.ParseFloat: "Infinity" and "-Infinity" read as NaN here, where JavaScript gives ±Infinity. A literal beyond the double range such as "1e400" reads as its exact value, where JavaScript gives Infinity. Literals are not rounded to the nearest double.
- PointDrag.Move: the written values are exact decimals, not doubles. The snapshot `JSON.parse(JSON.stringify(...))` (components/image-combiner/svg-editor.tsx:689) would turn an Infinity value into null; the model takes the snapshot to equal the parsed commands, which is exact only for finite values.
- ShapeEdit.Edit, ShapeEdit.MoveVertex, Transform.Moved: same exact-decimal arithmetic in place of doubles, so none of the browser's rounding is modelled.
- JsNumber.NumberTextRoundTrip: `Number::toString` is modelled on exact decimals with the digits of the decimal itself. It is not the shortest-round-trip choice for a double, so a value that is not a double prints differently.
- Browser geometry (`getScreenCTM`, `matrixTransform`, `getBBox`, `getCTM`): foreign browser calls. Each drag takes the document-space displacement (dx, dy) as an input instead.
- Overlay drawing and the DOM: the SVG document becomes a list of the root's children plus, per click, the target's ancestor chain. `DOMParser`, `XMLSerializer`, `serializeSvg` and the removal of overlay elements before serialising are left out as browser plumbing.
- React effects, event listener installation and removal, and `setOverlayKey` redraws: UI plumbing. A drag is modelled as its session and a sequence of moves.
- History.Clear: `clearHistory` empties both lists. It has no contract because there is nothing to state beyond its body.
- Browser storage: `localStorage` reads and writes, the JSON round trip (which drops the abort controller) and the fresh object URL given to each entry with code and with no URL or a `blob:` URL, which happens on every read of storage, including the reads inside saving and deleting (components/image-combiner/hooks/use-persistent-history.tsx:9-26, 30, 40), are I/O. `History.SaveLocal` and `History.Delete` therefore keep the URLs they are given. The stored list is given as the value last written.
- The phase-1 progress curve (`Math.pow(…, 2.5)` on a 200 ms interval, components/image-combiner/hooks/use-image-generation.ts:143-164): floating point and timers.
- The network and the stream reader (`fetch`, `getReader`, `AbortController`): I/O. The endpoint's answer is an input: a cancel, a rejection, or the chunks of the body as decoded text. UTF-8 decoding by `TextDecoder` is not modelled.
- `JSON.parse` of an SSE payload: foreign parser, given as a parameter mapping a payload to a string, an error event or anything else.
- GenerationHook.EventAnswerSucceeds: the parser is a parameter, so the lemma requires of it what `JSON.parse` does for strings, that it reads `JSON.stringify(v)` back as `v`.
- GenerateRoute.Quote: `JSON.stringify` also escapes lone UTF-16 surrogates; a string here is a sequence of Unicode characters and has none.
- Generation ids and times (`Date.now`, `Math.random`, `timestamp`, `createdAt`): randomness and clocks. The id is a parameter, and the time fields are not part of the entry.
- `Blob` and `URL.createObjectURL`: the object URL is a parameter.
- The success sound and `loadGeneratedAsInput` (components/image-combiner/hooks/use-image-generation.ts:33-53 and 342-382): audio and file I/O.
- The endpoint's model call (`streamText`), the image downloads, the base64 conversion, the SVG file reading and the logging: network and foreign libraries. The model's reply is an input, either text or a thrown error.
- GenerateRoute.Check: the `mode`, `prompt` and `aspectRatio` fields are taken to be text or absent. A file sent as the prompt makes `prompt?.trim()` throw a TypeError (app/api/generate-image/route.ts:68), and a body that is not form data makes `request.formData()` throw (:57); both end in the catch's 500 "Failed to generate SVG" with the error's message as details (:301-311). Neither path is modelled. A file sent as the mode or the aspect ratio is not modelled either.
- GenerateRoute.Post: the raw-response excerpt in the "No SVG generated" details is cut at 200 characters, where `substring(0, 200)` counts UTF-16 units. Text outside the Basic Multilingual Plane is therefore cut later here.
- Strings are sequences of Unicode characters. `String.prototype.length` is modelled by GenerateRoute.Utf16Length where the source compares it (the 5000-character prompt limit and the progress count). Case-insensitive matching lower-cases ASCII letters only, which is all the patterns need.
- components/image-combiner/types.ts is not part of this model: a generation carries the fields the modelled code reads and writes.
- Page concerns in index.tsx: sign-in gating of generation, seeding the default golden-gate generation, the mobile layout, clipboard copy, download, opening a new tab and HEIC conversion. These are authentication, network and browser I/O.
- The pointer-to-percentage division of the pane resize (components/image-combiner/index.tsx:636-639): floating point on screen sizes. Workspace.ClampSplit takes the percentage as an input.
- The paste handler's scan of clipboard items: only the choice of slot is modelled, for the first image item. The 150 ms delay before a pasted URL is applied is a timer and is left out.
- The auth routes, the balance route, `lib/ai-gateway.ts`, the auth context, the modals, the overlays, the full-screen viewer and the layout: network glue and UI outside the core.

## Findings

| source | as written | input that shows it | evidently intended | confidence | as-written member | corrected member |
|---|---|---|---|---|---|---|
| app/api/generate-image/route.ts:60-62 | `ASPECT_RATIO_DIMENSIONS[aspectRatio] \|\| ASPECT_RATIO_DIMENSIONS["square"]` (lines 38 and 62) indexes a plain object literal. A name the object inherits (`constructor`, `toString`, `__proto__`, …) gives a truthy non-size, so the fallback is skipped | form field `aspectRatio=constructor` sends `viewBox="0 0 undefined undefined"` to the model, and an editing request gets that prompt back in its answer | any name not in the table falls back to the 800×800 square | not executed | GenerateRoute.InheritedNameAnswered | GenerateRoute.ViewBoxIsNumeric |
| components/image-combiner/hooks/use-image-generation.ts:252-262 | an SSE payload `{"error": …}` throws inside the `try` whose bare `catch` is meant for malformed lines, so the error event is silently dropped | a body `data: {"error":"x"}` then `data: "<svg></svg>"` files a complete entry for `<svg></svg>`, and the server's error is never shown | the error event ends the reading and its message is shown | not executed | GenerationHook.ErrorThenSvg | GenerationHook.SettleSucceeds |
| components/image-combiner/hooks/use-image-generation.ts:239-265 | the page reads the body only as server-sent `data:` lines and drops what follows the last line break, while the endpoint answers a success with `NextResponse.json` (app/api/generate-image/route.ts:290-294), a single line of JSON | any request the endpoint answers with 200, for example a text-mode prompt whose reply holds `<svg></svg>`: the page reads no text and shows "Error generating image: No valid SVG found in model response" | the endpoint sends the events the page reads, or the page reads the JSON answer, so that a success files the SVG | not executed | GenerationHook.JsonAnswerFails | GenerationHook.EventAnswerSucceeds |

=== FILE: decimal.dfy ===
/** Exact decimal numbers. The editor's numbers are JavaScript doubles; this model keeps them as
    exact decimals m * 10^exp in a canonical form (no trailing zero in m), so that equal values
    have equal representations and printing is a function of the value. */
module Decimal {

  function Pow10(n: nat): (r: nat)
    ensures r >= 1
  {
    if n == 0 then 1 else 10 * Pow10(n - 1)
  }

  lemma {:induction false} Pow10Add(a: nat, b: nat)
    ensures Pow10(a + b) == Pow10(a) * Pow10(b)
  {
    if a > 0 {
      Pow10Add(a - 1, b);
      TimesTen(Pow10(b), Pow10(a - 1));
    }
  }

  lemma TimesTen(m: int, p: int)
    ensures m * (10 * p) == (m * p) * 10
  {
  }

  /** The real number m * 10^e, one power of ten at a time. */
  function ValueOf(m: int, e: int): real
    decreases if e < 0 then -e else e
  {
    if e == 0 then m as real
    else if e > 0 then ValueOf(m * 10, e - 1)
    else ValueOf(m, e + 1) / 10.0
  }

  /** A factor ten moves between the mantissa and the exponent. */
  lemma {:induction false} ValueTen(m: int, e: int)
    ensures ValueOf(m * 10, e) == ValueOf(m, e + 1)
    decreases if e < 0 then -e else e
  {
    if e < 0 {
      ValueTen(m, e + 1);
    }
  }

  /** Any power of ten moves between the mantissa and the exponent. */
  lemma {:induction false} ScaleValue(m: int, e: int, k: nat)
    ensures ValueOf(m * Pow10(k), e) == ValueOf(m, e + k)
    decreases k
  {
    if k > 0 {
      TimesTen(m, Pow10(k - 1));
      ValueTen(m * Pow10(k - 1), e);
      ScaleValue(m, e + 1, k - 1);
    }
  }

  lemma {:induction false} LinearValue(x: int, y: int, e: int)
    ensures ValueOf(x + y, e) == ValueOf(x, e) + ValueOf(y, e)
    decreases if e < 0 then -e else e
  {
    if e > 0 {
      LinearValue(x * 10, y * 10, e - 1);
    } else if e < 0 {
      LinearValue(x, y, e + 1);
    }
  }

  lemma {:induction false} NegValue(m: int, e: int)
    ensures ValueOf(-m, e) == -ValueOf(m, e)
    decreases if e < 0 then -e else e
  {
    if e > 0 {
      NegValue(m * 10, e - 1);
    } else if e < 0 {
      NegValue(m, e + 1);
    }
  }

  /** At one exponent, equal values have equal mantissas. */
  lemma {:induction false} SameExponentValue(x: int, y: int, e: int)
    requires ValueOf(x, e) == ValueOf(y, e)
    ensures x == y
    decreases if e < 0 then -e else e
  {
    if e > 0 {
      SameExponentValue(x * 10, y * 10, e - 1);
    } else if e < 0 {
      SameExponentValue(x, y, e + 1);
    }
  }

  /** m * 10^exp */
  datatype Decimal = Decimal(m: int, exp: int) {

    /** No trailing decimal zero is kept in the mantissa; zero is written 0 * 10^0. */
    predicate Canonical() {
      if m == 0 then exp == 0 else m % 10 != 0
    }

    function Value(): real {
      ValueOf(m, exp)
    }
  }

  type Dec = d: Decimal | d.Canonical() witness Decimal(0, 0)

  const Zero: Dec := Decimal(0, 0)
  const One: Dec := Decimal(1, 0)

  function Int(n: int): (r: Dec)
    ensures r.Value() == n as real
  {
    NormalizeValue(n, 0);
    Normalize(n, 0)
  }

  /** The canonical decimal with the value m * 10^e. */
  function Normalize(m: int, e: int): (r: Dec)
    decreases if m < 0 then -m else m
  {
    if m == 0 then Zero
    else if m % 10 == 0 then Normalize(m / 10, e + 1)
    else Decimal(m, e)
  }

  /** Normalizing keeps the value. */
  lemma {:induction false} NormalizeValue(m: int, e: int)
    ensures Normalize(m, e).Value() == ValueOf(m, e)
    decreases if m < 0 then -m else m
  {
    if m == 0 {
      LinearValue(0, 0, e);
    } else if m % 10 == 0 {
      assert (m / 10) * 10 == m;
      ValueTen(m / 10, e);
      NormalizeValue(m / 10, e + 1);
    }
  }

  /** A mantissa with trailing zeros normalizes to the same decimal as the one without them. */
  lemma {:induction false} NormalizeShift(m: int, e: int, z: nat)
    requires m != 0
    ensures Normalize(m * Pow10(z), e) == Normalize(m, e + z)
    decreases z
  {
    if z > 0 {
      var p := Pow10(z - 1);
      var t := m * p;
      TimesTen(m, p);
      NonZeroProduct(m, p);
      NormalizeTen(t, e);
      NormalizeShift(m, e + 1, z - 1);
    }
  }

  /** A mantissa 10 * t normalizes as t with the exponent one higher. */
  lemma NormalizeTen(t: int, e: int)
    requires t != 0
    ensures Normalize(t * 10, e) == Normalize(t, e + 1)
  {
    assert (t * 10) % 10 == 0 && (t * 10) / 10 == t;
  }

  lemma NonZeroProduct(a: int, b: int)
    requires a != 0 && b != 0
    ensures a * b != 0
  {
  }

  lemma NegCanonical(d: Dec)
    ensures Decimal(-d.m, d.exp).Canonical()
  {
    if d.m != 0 && (-d.m) % 10 == 0 {
      var k := (-d.m) / 10;
      assert d.m == (-k) * 10;
      TenDivides(-k);
    }
  }

  lemma TenDivides(t: int)
    ensures (t * 10) % 10 == 0
  {
  }

  function Neg(a: Dec): (r: Dec)
    ensures r.Value() == -a.Value()
  {
    NegCanonical(a);
    NegValue(a.m, a.exp);
    Decimal(-a.m, a.exp)
  }

  function Min(a: int, b: int): int {
    if a <= b then a else b
  }

  /** Exact sum. */
  function Add(a: Dec, b: Dec): (r: Dec)
    ensures r.Value() == a.Value() + b.Value()
  {
    var e := Min(a.exp, b.exp);
    var ka: nat := a.exp - e;
    var kb: nat := b.exp - e;
    ScaleValue(a.m, e, ka);
    ScaleValue(b.m, e, kb);
    LinearValue(a.m * Pow10(ka), b.m * Pow10(kb), e);
    NormalizeValue(a.m * Pow10(ka) + b.m * Pow10(kb), e);
    Normalize(a.m * Pow10(ka) + b.m * Pow10(kb), e)
  }

  function Sub(a: Dec, b: Dec): (r: Dec)
    ensures r.Value() == a.Value() - b.Value()
  {
    Add(a, Neg(b))
  }

  /** Two canonical decimals with the same value are the same decimal. */
  lemma {:induction false} ValueInjective(a: Dec, b: Dec)
    requires a.Value() == b.Value()
    ensures a == b
  {
    var e := Min(a.exp, b.exp);
    var ka: nat := a.exp - e;
    var kb: nat := b.exp - e;
    ScaleValue(a.m, e, ka);
    ScaleValue(b.m, e, kb);
    var x := a.m * Pow10(ka);
    var y := b.m * Pow10(kb);
    SameExponentValue(x, y, e);
    if x != 0 {
      NonZeroProduct(a.m, Pow10(ka));
      NonZeroProduct(b.m, Pow10(kb));
      NormalizeShift(a.m, e, ka);
      NormalizeShift(b.m, e, kb);
    } else {
      ZeroFactor(a.m, Pow10(ka));
      ZeroFactor(b.m, Pow10(kb));
    }
  }

  lemma ZeroFactor(a: int, b: int)
    requires b != 0
    ensures a * b == 0 ==> a == 0
  {
  }

  /** `Math.max(a, b)` on numbers. */
  function Max(a: Dec, b: Dec): (r: Dec)
    ensures r.Value() >= a.Value() && r.Value() >= b.Value()
    ensures r == a || r == b
  {
    if a.Value() >= b.Value() then a else b
  }

  /** `Math.min(a, b)` on numbers. */
  function MinDec(a: Dec, b: Dec): (r: Dec)
    ensures r.Value() <= a.Value() && r.Value() <= b.Value()
    ensures r == a || r == b
  {
    if a.Value() <= b.Value() then a else b
  }
}

=== FILE: editor.dfy ===
/** The editor's view state: the zoom level with its buttons, and the selected top-level element
    with the clicks and keys that change it. The document is seen as the list of the root's
    children, which is where every selection the editor makes lies. */
module Editor {
  import opened Wrappers
  import opened Lists
  import opened Selection

  const MinZoom := 25
  const MaxZoom := 400
  const ZoomStep := 25
  const DefaultZoom := 100

  /** `handleZoom`: `Math.max(25, Math.min(400, z))`. */
  function ClampZoom(z: int): (r: int)
    ensures MinZoom <= r <= MaxZoom
    ensures MinZoom <= z <= MaxZoom ==> r == z
    ensures z < MinZoom ==> r == MinZoom
    ensures z > MaxZoom ==> r == MaxZoom
  {
    var low := if z < MaxZoom then z else MaxZoom;
    if MinZoom > low then MinZoom else low
  }

  datatype ZoomButton = ZoomOut | ZoomIn | ZoomReset

  /** The three zoom buttons: `-` and `+` by 25, `reset` to 100. */
  function Press(zoom: int, b: ZoomButton): int {
    match b
    case ZoomOut => ClampZoom(zoom - ZoomStep)
    case ZoomIn => ClampZoom(zoom + ZoomStep)
    case ZoomReset => ClampZoom(DefaultZoom)
  }

  /** The zoom levels the buttons can reach: 25 to 400 in steps of 25. */
  predicate OnGrid(zoom: int) {
    MinZoom <= zoom <= MaxZoom && zoom % ZoomStep == 0
  }

  function PressAll(zoom: int, bs: seq<ZoomButton>): int
    decreases |bs|
  {
    if |bs| == 0 then zoom else PressAll(Press(zoom, bs[0]), bs[1..])
  }

  /** From any level on the grid, the initial 100% among them, any sequence of button presses
      stays on the grid. */
  lemma {:induction false} ZoomStaysOnGrid(zoom: int, bs: seq<ZoomButton>)
    requires OnGrid(zoom)
    ensures OnGrid(PressAll(zoom, bs))
    decreases |bs|
  {
    if |bs| > 0 {
      ZoomStaysOnGrid(Press(zoom, bs[0]), bs[1..]);
    }
  }

  /** Zooming in and back out returns to the same level below the maximum, and the other way round
      above the minimum. */
  lemma ZoomInOut(zoom: int)
    requires OnGrid(zoom)
    ensures zoom < MaxZoom ==> Press(Press(zoom, ZoomIn), ZoomOut) == zoom
    ensures zoom > MinZoom ==> Press(Press(zoom, ZoomOut), ZoomIn) == zoom
  {
  }

  // ---- selection ----

  datatype Key = Escape | Delete | Backspace | OtherKey

  /** The root's children (by element identity), the selected element and the zoom. */
  datatype Editor = Editor(children: seq<nat>, selected: Option<nat>, zoom: int)

  predicate Valid(e: Editor) {
    OnGrid(e.zoom) && (e.selected.Some? ==> e.selected.value in e.children)
  }

  /** A new SVG text is loaded: nothing is selected. */
  function Load(e: Editor, children: seq<nat>): (r: Editor)
    ensures Valid(e) ==> Valid(r)
  {
    Editor(children, None, e.zoom)
  }

  /** Where a click lands: on the editor's background (either of its two containers), or on an
      element given by its chain of ancestors. */
  datatype ClickTarget = Background | OnElement(path: Chain)

  /** `handleSvgClick` then `handleContainerClick`: a click on an element selects what the editor's
      selector picks (and stops there); a click on the background deselects. */
  function Click(e: Editor, target: ClickTarget, root: Option<nat>): Editor {
    match target
    case Background => e.(selected := None)
    case OnElement(path) =>
      match InlineSelect(path, root)
      case Some(k) => e.(selected := Some(path[k].id))
      case None => e
  }

  /** A chain lies in the document: an element whose parent is the root is one of its children. */
  predicate InDocument(path: Chain, root: Option<nat>, children: seq<nat>) {
    root.Some? ==> forall k :: 0 <= k < |path| && ParentIsRoot(path, root.value, k) ==> path[k].id in children
  }

  /** Clicks keep the selection within the document. */
  lemma ClickValid(e: Editor, target: ClickTarget, root: Option<nat>)
    requires Valid(e)
    requires target.OnElement? ==> InDocument(target.path, root, e.children)
    ensures Valid(Click(e, target, root))
  {
    if target.OnElement? {
      var r := InlineSelect(target.path, root);
      if r.Some? {
        InlineSelectIs(target.path, root, r.value);
      }
    }
  }

  /** The tag name of the focused element, if any. */
  predicate Typing(focus: Option<string>) {
    focus == Some("TEXTAREA") || focus == Some("INPUT")
  }

  /** The keyboard handler: the new state, and whether the changed SVG is reported. */
  function KeyDown(e: Editor, key: Key, focus: Option<string>): (Editor, bool) {
    if key == Escape then (e.(selected := None), false)
    else if (key == Delete || key == Backspace) && e.selected.Some? then
      if Typing(focus) then (e, false)
      else
        var id := e.selected.value;
        (e.(children := Filter(e.children, (c: nat) => c != id), selected := None), true)
    else (e, false)
  }

  /** Keys keep the state valid. */
  lemma KeyDownValid(e: Editor, key: Key, focus: Option<string>)
    requires Valid(e)
    ensures Valid(KeyDown(e, key, focus).0)
  {
  }

  /** Delete or Backspace outside a text field removes the selected element, and only it, keeping
      every other child, as often as it occurred, in order; the change is reported and nothing
      stays selected. */
  lemma DeleteRemovesSelected(e: Editor, key: Key, focus: Option<string>)
    requires key == Delete || key == Backspace
    requires e.selected.Some? && !Typing(focus)
    ensures var (e', reported) := KeyDown(e, key, focus);
            && reported && e'.selected == None && e'.zoom == e.zoom
            && e.selected.value !in e'.children
            && (forall c :: c in e.children && c != e.selected.value ==> c in e'.children)
            && (forall c :: multiset(e'.children)[c] == if c != e.selected.value then multiset(e.children)[c] else 0)
            && Subsequence(e'.children, e.children)
  {
    FilterSubsequence(e.children, (c: nat) => c != e.selected.value);
    FilterCount(e.children, (c: nat) => c != e.selected.value);
  }

  /** Keys never select anything, and only Delete or Backspace with a selection, outside a text
      field, touch the document. */
  lemma KeysOnlyDeselect(e: Editor, key: Key, focus: Option<string>)
    ensures var (e', reported) := KeyDown(e, key, focus);
            && (e'.selected == None || e'.selected == e.selected)
            && e'.zoom == e.zoom
            && (reported <==> (key == Delete || key == Backspace) && e.selected.Some? && !Typing(focus))
            && (!reported ==> e'.children == e.children)
  {
  }
}

=== FILE: history.dfy ===
/** The history of generations, newest first. The page keeps one list in memory and a second one
    in the browser's storage, capped at 50 entries; the storage reads and writes themselves are
    left out, and each stored list is given as the value last written. Every read of storage,
    including the ones inside saving and deleting, also gives each entry with code and with no URL
    or a `blob:` URL a fresh object URL; that rewrite of `imageUrl` is left out on purpose, so `SaveLocal` and `Delete` keep
    the URLs they are given. */
module History {
  import opened Wrappers
  import opened Lists

  const MaxStored := 50

  datatype Status = Loading | Complete | Error

  /** One generation. `cancellable` stands for the abort controller a generation in flight
      carries; `progress` is a percentage. */
  datatype Generation = Generation(
    id: string,
    status: Status,
    progress: real,
    imageUrl: Option<string>,
    svgCode: Option<string>,
    prompt: string,
    error: Option<string>,
    cancellable: bool,
    aspectRatio: Option<string>)

  // ---- the stored list ----

  /** `saveLocalGeneration`: the new generation in front of the stored ones, cut to 50. */
  function SaveLocal(stored: seq<Generation>, g: Generation): seq<Generation> {
    Take([g] + stored, MaxStored)
  }

  /** The saved list holds at most 50 entries, starts with the new generation, and continues with
      the stored ones from the newest, as many as fit. */
  lemma SaveLocalIs(stored: seq<Generation>, g: Generation)
    ensures var r := SaveLocal(stored, g);
            && |r| == (if |stored| < MaxStored then |stored| + 1 else MaxStored)
            && r[0] == g
            && r[1..] == stored[..|r| - 1]
  {
    var r := SaveLocal(stored, g);
    assert forall i :: 1 <= i < |r| ==> r[i] == ([g] + stored)[i] == stored[i - 1];
  }

  /** `deleteLocalGeneration` and the in-memory `deleteGeneration`: every entry with the id goes. */
  function Delete(gs: seq<Generation>, id: string): seq<Generation> {
    Filter(gs, (g: Generation) => g.id != id)
  }

  /** After a delete no entry carries the id; every other entry is kept, as often as it occurred,
      and the order stays. */
  lemma DeleteIs(gs: seq<Generation>, id: string)
    ensures forall i :: 0 <= i < |Delete(gs, id)| ==> Delete(gs, id)[i].id != id
    ensures forall g :: g in gs && g.id != id ==> g in Delete(gs, id)
    ensures forall g :: multiset(Delete(gs, id))[g] == if g.id != id then multiset(gs)[g] else 0
    ensures Subsequence(Delete(gs, id), gs)
  {
    FilterSubsequence(gs, (g: Generation) => g.id != id);
    FilterCount(gs, (g: Generation) => g.id != id);
  }

  /** Deleting an id twice deletes it once; deleting an id no entry carries changes nothing. */
  lemma DeleteTwice(gs: seq<Generation>, id: string)
    ensures Delete(Delete(gs, id), id) == Delete(gs, id)
    ensures (forall i :: 0 <= i < |gs| ==> gs[i].id != id) ==> Delete(gs, id) == gs
  {
    FilterTwice(gs, (g: Generation) => g.id != id);
    if forall i :: 0 <= i < |gs| ==> gs[i].id != id {
      FilterKeepsAll(gs, (g: Generation) => g.id != id);
    }
  }

  // ---- the two lists together ----

  /** The list in memory and the list last written to storage. */
  datatype Store = Store(memory: seq<Generation>, stored: seq<Generation>)

  /** `addGeneration`: saved to storage (cut to 50), and put in front in memory, uncut. */
  function Add(h: Store, g: Generation): Store {
    Store([g] + h.memory, SaveLocal(h.stored, g))
  }

  /** Adding grows the memory list by one with nothing dropped, while the stored list stops at 50:
      from equal lists, the two stay equal below 50 entries and part ways from there. */
  lemma AddIs(h: Store, g: Generation)
    ensures var h' := Add(h, g);
            && h'.memory[0] == g && h'.memory[1..] == h.memory
            && |h'.stored| <= MaxStored
            && (h.memory == h.stored ==> (h'.memory == h'.stored <==> |h.memory| < MaxStored))
  {
    var h' := Add(h, g);
    assert h'.memory[1..] == h.memory;
    SaveLocalIs(h.stored, g);
    if h.memory == h.stored && |h.memory| < MaxStored {
      assert h'.stored == [g] + h.stored;
    }
  }

  /** `deleteGeneration`: from memory and from storage. */
  function Remove(h: Store, id: string): Store {
    Store(Delete(h.memory, id), Delete(h.stored, id))
  }

  /** `clearHistory`: storage emptied, memory emptied. */
  function Clear(h: Store): Store {
    Store([], [])
  }

  /** A delete keeps equal lists equal. */
  lemma RemoveKeepsEqual(h: Store, id: string)
    requires h.memory == h.stored
    ensures Remove(h, id).memory == Remove(h, id).stored
  {
  }

  // ---- updates ----

  /** `Partial<Generation>`: the fields an update sets; an absent field keeps its value. */
  datatype Patch = Patch(
    status: Option<Status>,
    progress: Option<real>,
    imageUrl: Option<Option<string>>,
    svgCode: Option<Option<string>>,
    error: Option<Option<string>>)

  /** `{ ...g, ...updates }` */
  function Merge(g: Generation, p: Patch): Generation {
    g.(status := p.status.GetOr(g.status),
       progress := p.progress.GetOr(g.progress),
       imageUrl := p.imageUrl.GetOr(g.imageUrl),
       svgCode := p.svgCode.GetOr(g.svgCode),
       error := p.error.GetOr(g.error))
  }

  /** `updateGeneration`: the update goes into every in-memory entry with the id. */
  function Update(gs: seq<Generation>, id: string, p: Patch): seq<Generation> {
    seq(|gs|, i requires 0 <= i < |gs| => if gs[i].id == id then Merge(gs[i], p) else gs[i])
  }

  /** An update keeps the length and every entry with another id; an entry with the id keeps its
      id, prompt and the fields the update leaves out, and takes those it sets. */
  lemma UpdateIs(gs: seq<Generation>, id: string, p: Patch)
    ensures |Update(gs, id, p)| == |gs|
    ensures forall i :: 0 <= i < |gs| && gs[i].id != id ==> Update(gs, id, p)[i] == gs[i]
    ensures forall i :: 0 <= i < |gs| && gs[i].id == id ==>
              var g, g' := gs[i], Update(gs, id, p)[i];
              && g'.id == g.id && g'.prompt == g.prompt && g'.aspectRatio == g.aspectRatio
              && (p.status.Some? ==> g'.status == p.status.value)
              && (p.status.None? ==> g'.status == g.status)
              && (p.progress.Some? ==> g'.progress == p.progress.value)
              && (p.progress.None? ==> g'.progress == g.progress)
              && (p.imageUrl.Some? ==> g'.imageUrl == p.imageUrl.value)
              && (p.imageUrl.None? ==> g'.imageUrl == g.imageUrl)
              && (p.svgCode.Some? ==> g'.svgCode == p.svgCode.value)
              && (p.svgCode.None? ==> g'.svgCode == g.svgCode)
              && (p.error.Some? ==> g'.error == p.error.value)
              && (p.error.None? ==> g'.error == g.error)
  {
  }

  /** An update with no fields set changes nothing. */
  lemma EmptyUpdate(gs: seq<Generation>, id: string)
    ensures Update(gs, id, Patch(None, None, None, None, None)) == gs
  {
    var r := Update(gs, id, Patch(None, None, None, None, None));
    forall i | 0 <= i < |gs| ensures r[i] == gs[i] {
    }
  }
}

=== FILE: hook.dfy ===
/** The browser side of a generation: the checks before a request, the form it sends, the
    progress bar while the reply streams in, the reading of the reply as server-sent events, and
    what the history holds once the generation settles. Timers, the network, the abort signal and
    the sound are left out; what the server answers is a parameter. */
module GenerationHook {
  import opened Wrappers
  import opened Text
  import History
  import SvgText
  import GenerateRoute

  type Generation = History.Generation

  // ---- cancelling ----

  /** `cancelGeneration`: the loading entries with the id become errors at progress 0 and drop
      their abort controller. */
  function Cancel(gs: seq<Generation>, id: string): seq<Generation> {
    seq(|gs|, i requires 0 <= i < |gs| =>
      if gs[i].id == id && gs[i].status == History.Loading then
        gs[i].(status := History.Error, error := Some("Cancelled by user"), progress := 0.0, cancellable := false)
      else gs[i])
  }

  /** Cancelling touches only the loading entries with the id, each of which becomes a cancelled
      error keeping its id and prompt; afterwards no entry with the id is loading. */
  lemma CancelIs(gs: seq<Generation>, id: string)
    ensures |Cancel(gs, id)| == |gs|
    ensures forall i :: 0 <= i < |gs| && !(gs[i].id == id && gs[i].status == History.Loading) ==>
              Cancel(gs, id)[i] == gs[i]
    ensures forall i :: 0 <= i < |gs| && gs[i].id == id && gs[i].status == History.Loading ==>
              var c := Cancel(gs, id)[i];
              && c.id == id && c.prompt == gs[i].prompt
              && c.status == History.Error && c.error == Some("Cancelled by user")
              && c.progress == 0.0 && !c.cancellable
    ensures forall i :: 0 <= i < |gs| && Cancel(gs, id)[i].id == id ==> Cancel(gs, id)[i].status != History.Loading
  {
  }

  /** Cancelling twice is cancelling once. */
  lemma CancelTwice(gs: seq<Generation>, id: string)
    ensures Cancel(Cancel(gs, id), id) == Cancel(gs, id)
  {
    CancelIs(gs, id);
    CancelIs(Cancel(gs, id), id);
  }

  // ---- progress ----

  const Phase2Min := 65.0
  const Phase2Max := 95.0
  const EstimatedSvgSize := 6000

  /** The streaming counters: UTF-16 units received so far and the current size estimate. */
  datatype Stream = Stream(chars: nat, estimate: nat)

  const Initial := Stream(0, EstimatedSvgSize)

  /** The counters every reachable state keeps: the estimate never falls below its start, and the
      count stays at or below 80% of the estimate. */
  predicate Sound(s: Stream) {
    s.estimate >= EstimatedSvgSize && (s.chars as real) <= (s.estimate as real) * 0.8
  }

  /** `Math.ceil(c * 1.5)` for a whole number c. */
  function CeilHalfAgain(c: nat): (r: nat)
    ensures (r as real) >= (c as real) * 1.5 && (r as real) < (c as real) * 1.5 + 1.0
  {
    (3 * c + 1) / 2
  }

  /** The counters after `n` more units arrive: when the count passes 80% of the estimate, the
      estimate becomes one and a half times the count, rounded up. */
  function Receive(s: Stream, n: nat): Stream {
    var c := s.chars + n;
    Stream(c, if (c as real) > (s.estimate as real) * 0.8 then CeilHalfAgain(c) else s.estimate)
  }

  /** `PHASE2_MIN + min(chars / estimate, 1) * (PHASE2_MAX - PHASE2_MIN)` */
  function StreamProgress(s: Stream): (p: real)
    requires s.estimate > 0
    ensures Phase2Min <= p <= Phase2Max
  {
    var f := (s.chars as real) / (s.estimate as real);
    Phase2Min + (if f < 1.0 then f else 1.0) * (Phase2Max - Phase2Min)
  }

  lemma InitialSound()
    ensures Sound(Initial)
  {
  }

  /** Receiving keeps the counters sound; the estimate never shrinks, and when it is bumped it
      strictly grows and leaves the count at no more than two thirds of it. */
  lemma ReceiveIs(s: Stream, n: nat)
    requires Sound(s)
    ensures Sound(Receive(s, n))
    ensures Receive(s, n).chars == s.chars + n
    ensures Receive(s, n).estimate >= s.estimate
    ensures Receive(s, n).estimate != s.estimate ==>
              && Receive(s, n).estimate > s.estimate
              && (Receive(s, n).chars as real) <= (Receive(s, n).estimate as real) * (2.0 / 3.0)
  {
    var c := s.chars + n;
    if (c as real) > (s.estimate as real) * 0.8 {
      var e := CeilHalfAgain(c);
      assert (e as real) >= (c as real) * 1.5;
      assert (c as real) * 1.5 > (s.estimate as real) * 1.2;
    }
  }

  /** In a sound state the cap at 1 never applies: the streaming bar stays at or below 89%. */
  lemma SoundProgress(s: Stream)
    requires Sound(s)
    ensures StreamProgress(s) <= Phase2Min + 0.8 * (Phase2Max - Phase2Min)
  {
    var f := (s.chars as real) / (s.estimate as real);
    assert f * (s.estimate as real) == s.chars as real;
    assert f <= 0.8;
  }

  /** The streaming value alone can go down: a bump lowers the fraction. */
  lemma RawProgressCanDrop()
    ensures Sound(Stream(4700, 6000))
    ensures Receive(Stream(4700, 6000), 200) == Stream(4900, 7350)
    ensures StreamProgress(Stream(4900, 7350)) < StreamProgress(Stream(4700, 6000))
  {
    assert (4900 as real) / (7350 as real) == 2.0 / 3.0;
  }

  /** The stored update `{ ...gen, progress: Math.max(gen.progress, progress) }` for the loading
      entries with the id. */
  function ApplyProgress(gs: seq<Generation>, id: string, p: real): seq<Generation> {
    seq(|gs|, i requires 0 <= i < |gs| =>
      if gs[i].id == id && gs[i].status == History.Loading && p > gs[i].progress then
        gs[i].(progress := p)
      else gs[i])
  }

  /** Stored progress never goes down; it changes only for the loading entries with the id, to the
      larger of the old and the new value. */
  lemma ApplyProgressIs(gs: seq<Generation>, id: string, p: real)
    ensures |ApplyProgress(gs, id, p)| == |gs|
    ensures forall i :: 0 <= i < |gs| ==> ApplyProgress(gs, id, p)[i].progress >= gs[i].progress
    ensures forall i :: 0 <= i < |gs| && !(gs[i].id == id && gs[i].status == History.Loading) ==>
              ApplyProgress(gs, id, p)[i] == gs[i]
    ensures forall i :: 0 <= i < |gs| && gs[i].id == id && gs[i].status == History.Loading ==>
              && ApplyProgress(gs, id, p)[i] == gs[i].(progress := ApplyProgress(gs, id, p)[i].progress)
              && ApplyProgress(gs, id, p)[i].progress == (if p > gs[i].progress then p else gs[i].progress)
  {
  }

  /** A progress tick that arrives after a cancel leaves the cancelled entry alone. */
  lemma ProgressAfterCancel(gs: seq<Generation>, id: string, p: real)
    ensures ApplyProgress(Cancel(gs, id), id, p) == Cancel(gs, id)
  {
    CancelIs(gs, id);
  }

  // ---- before the request ----

  /** What the page passes in (after any per-call overrides). */
  datatype Inputs = Inputs(
    prompt: string,
    aspectRatio: string,
    image1: Option<GenerateRoute.File>,
    image2: Option<GenerateRoute.File>,
    image1Url: string,
    image2Url: string,
    useUrls: bool)

  /** `hasImages`: either URL in URL mode, either file otherwise. */
  predicate HasImages(inputs: Inputs) {
    if inputs.useUrls then inputs.image1Url != "" || inputs.image2Url != "" else inputs.image1.Some? || inputs.image2.Some?
  }

  function Mode(inputs: Inputs): string {
    if HasImages(inputs) then GenerateRoute.EditMode else GenerateRoute.TextMode
  }

  /** The message the page shows instead of sending a request, if any. */
  function PreCheck(inputs: Inputs): Option<string> {
    if Mode(inputs) == GenerateRoute.EditMode && !inputs.useUrls && inputs.image1.None? then
      Some("Please upload at least one image for editing mode")
    else if Mode(inputs) == GenerateRoute.EditMode && inputs.useUrls && inputs.image1Url == "" then
      Some("Please provide at least one image URL for editing mode")
    else if Trim(inputs.prompt) == "" then Some("Please enter a prompt")
    else None
  }

  /** A request is sent exactly when the prompt is not blank and, with images given, the first
      image (or first URL) is among them. */
  lemma PreCheckIs(inputs: Inputs)
    ensures PreCheck(inputs).None? <==>
              && Trim(inputs.prompt) != ""
              && (HasImages(inputs) ==> if inputs.useUrls then inputs.image1Url != "" else inputs.image1.Some?)
  {
  }

  /** The form the page posts. */
  function BuildForm(inputs: Inputs): GenerateRoute.Form {
    var editing := Mode(inputs) == GenerateRoute.EditMode;
    GenerateRoute.Form(
      Some(Mode(inputs)), Some(inputs.prompt), Some(inputs.aspectRatio),
      if editing && !inputs.useUrls && inputs.image1.Some? then Some(GenerateRoute.Upload(inputs.image1.value)) else None,
      if editing && !inputs.useUrls && inputs.image2.Some? then Some(GenerateRoute.Upload(inputs.image2.value)) else None,
      if editing && inputs.useUrls then Some(inputs.image1Url) else None,
      if editing && inputs.useUrls && inputs.image2Url != "" then Some(inputs.image2Url) else None)
  }

  /** A file the endpoint accepts. */
  predicate FileFits(f: Option<GenerateRoute.File>) {
    f.None? || (f.value.size <= GenerateRoute.MaxFileSize && f.value.mimeType in GenerateRoute.AllowedImageTypes)
  }

  /** A request that passes the page's checks passes the endpoint's mode, prompt and image-presence
      checks: the endpoint can turn it away only for its length or for an uploaded file. */
  lemma FormMeetsRoute(inputs: Inputs)
    requires PreCheck(inputs).None?
    ensures GenerateRoute.Check(BuildForm(inputs)).None? <==>
              && GenerateRoute.Utf16Length(inputs.prompt) <= GenerateRoute.MaxPromptLength
              && (Mode(inputs) == GenerateRoute.EditMode && !inputs.useUrls ==> FileFits(inputs.image1) && FileFits(inputs.image2))
  {
    PreCheckIs(inputs);
    var f := FormShape(inputs);
    GenerateRoute.CheckIs(f);
  }

  /** The fields of the posted form, as the endpoint's checks read them. */
  lemma FormShape(inputs: Inputs) returns (f: GenerateRoute.Form)
    requires PreCheck(inputs).None?
    ensures f == BuildForm(inputs)
    ensures f.mode == Some(Mode(inputs)) && GenerateRoute.Given(f.mode)
    ensures f.prompt == Some(inputs.prompt) && Trim(inputs.prompt) != ""
    ensures Mode(inputs) == GenerateRoute.TextMode || Mode(inputs) == GenerateRoute.EditMode
    ensures Mode(inputs) == GenerateRoute.EditMode ==>
              && Mode(inputs) != GenerateRoute.TextMode
              && (GenerateRoute.Attached(f.image1) || GenerateRoute.Given(f.image1Url))
              && (GenerateRoute.ImageAcceptable(f.image1) <==> inputs.useUrls || FileFits(inputs.image1))
              && (GenerateRoute.ImageAcceptable(f.image2) <==> inputs.useUrls || FileFits(inputs.image2))
  {
    PreCheckIs(inputs);
    GenerateRoute.ModesDiffer();
    f := BuildForm(inputs);
  }

  /** The message a rejected request ends in: the error, then the details when there are any. */
  function FailureText(r: GenerateRoute.Response): string {
    match r.body
    case Failure(error, details) =>
      if details.Some? && details.value != "" then error + ": " + details.value else error
    case Svg(_, _) => "undefined"
  }

  /** A rejection by the endpoint's checks reaches the page as its error alone, except "Invalid
      mode", which carries its details. */
  lemma RejectionText(form: GenerateRoute.Form)
    requires GenerateRoute.Check(form).Some?
    ensures GenerateRoute.Check(form) != Some(GenerateRoute.InvalidMode) ==>
              FailureText(GenerateRoute.Check(form).value) == GenerateRoute.Check(form).value.body.error
    ensures GenerateRoute.Check(form) == Some(GenerateRoute.InvalidMode) ==>
              FailureText(GenerateRoute.Check(form).value) == "Invalid mode: " + GenerateRoute.InvalidMode.body.details.value
  {
  }

  // ---- reading the reply ----

  /** No line break in s. */
  predicate NoBreak(s: string) {
    forall i :: 0 <= i < |s| ==> s[i] != '\n'
  }

  /** `s.split("\n")`: the pieces between line breaks; there is always at least one. */
  function Split(s: string): (parts: seq<string>)
    ensures |parts| >= 1
  {
    if |s| == 0 then [""]
    else
      var rest := Split(s[1..]);
      if s[0] == '\n' then [""] + rest else [[s[0]] + rest[0]] + rest[1..]
  }

  /** Every line followed by its line break. */
  function Terminated(lines: seq<string>): string {
    if |lines| == 0 then "" else lines[0] + "\n" + Terminated(lines[1..])
  }

  /** The pieces hold no line break, and joined with line breaks they give the text back. */
  lemma {:induction false} SplitJoin(s: string)
    ensures forall k :: 0 <= k < |Split(s)| ==> NoBreak(Split(s)[k])
    ensures Join(Split(s), "\n") == s
  {
    if |s| > 0 {
      var rest := Split(s[1..]);
      SplitJoin(s[1..]);
      if s[0] == '\n' {
        assert ([""] + rest)[1..] == rest;
        assert s == "\n" + s[1..];
      } else {
        var parts := [[s[0]] + rest[0]] + rest[1..];
        assert parts[1..] == rest[1..];
        assert NoBreak([s[0]] + rest[0]) by {
          forall i | 0 <= i < |[s[0]] + rest[0]| ensures ([s[0]] + rest[0])[i] != '\n' {
            if i > 0 {
              assert ([s[0]] + rest[0])[i] == rest[0][i - 1];
            }
          }
        }
        assert forall k :: 1 <= k < |parts| ==> parts[k] == rest[k];
        if |rest| > 1 {
          assert Join(rest, "\n") == rest[0] + "\n" + Join(rest[1..], "\n");
          assert Join(parts, "\n") == [s[0]] + rest[0] + "\n" + Join(rest[1..], "\n");
        }
        assert s == [s[0]] + s[1..];
      }
    }
  }

  /** Splitting a text that starts with a line without break. */
  lemma {:induction false} SplitPrefix(a: string, t: string)
    requires NoBreak(a)
    ensures Split(a + t) == [a + Split(t)[0]] + Split(t)[1..]
  {
    if |a| > 0 {
      assert (a + t)[1..] == a[1..] + t;
      SplitPrefix(a[1..], t);
      assert [a[0]] + (a[1..] + Split(t)[0]) == a + Split(t)[0];
    } else {
      assert a + t == t;
      assert a + Split(t)[0] == Split(t)[0];
      assert [Split(t)[0]] + Split(t)[1..] == Split(t);
    }
  }

  /** Joining lines without breaks and splitting again gives the lines back. */
  lemma {:induction false} JoinSplit(lines: seq<string>)
    requires |lines| >= 1
    requires forall k :: 0 <= k < |lines| ==> NoBreak(lines[k])
    ensures Split(Join(lines, "\n")) == lines
  {
    if |lines| == 1 {
      SplitPrefix(lines[0], "");
      assert lines[0] + "" == lines[0];
    } else {
      var t := Join(lines[1..], "\n");
      JoinSplit(lines[1..]);
      assert Join(lines, "\n") == lines[0] + ("\n" + t);
      SplitPrefix(lines[0], "\n" + t);
      assert ("\n" + t)[1..] == t;
      assert Split("\n" + t) == [""] + lines[1..];
      assert lines[0] + "" == lines[0];
    }
  }

  lemma {:induction false} JoinTerminated(parts: seq<string>)
    requires |parts| >= 1
    ensures Join(parts, "\n") == Terminated(parts[..|parts| - 1]) + parts[|parts| - 1]
  {
    if |parts| > 1 {
      JoinTerminated(parts[1..]);
      assert parts[1..][..|parts| - 2] == parts[1..|parts| - 1];
      assert parts[..|parts| - 1][1..] == parts[1..|parts| - 1];
    }
  }

  lemma {:induction false} TerminatedAppend(a: seq<string>, b: seq<string>)
    ensures Terminated(a + b) == Terminated(a) + Terminated(b)
  {
    if |a| > 0 {
      assert (a + b)[1..] == a[1..] + b;
      TerminatedAppend(a[1..], b);
    } else {
      assert a + b == b;
    }
  }

  /** The complete lines a chunk releases, and what stays buffered. */
  datatype Fed = Fed(lines: seq<string>, buffer: string)

  /** `buffer += chunk; lines = buffer.split("\n"); buffer = lines.pop() || ""` */
  function Feed(buffer: string, chunk: string): Fed {
    var parts := Split(buffer + chunk);
    Fed(parts[..|parts| - 1], parts[|parts| - 1])
  }

  /** A chunk releases whole lines, each followed in the text by its break, and keeps the
      unfinished rest. */
  lemma FeedIs(buffer: string, chunk: string)
    ensures var r := Feed(buffer, chunk);
            && Terminated(r.lines) + r.buffer == buffer + chunk
            && NoBreak(r.buffer)
            && forall k :: 0 <= k < |r.lines| ==> NoBreak(r.lines[k])
  {
    SplitJoin(buffer + chunk);
    JoinTerminated(Split(buffer + chunk));
  }

  /** All text received, chunk after chunk. */
  function Concat(chunks: seq<string>): string {
    if |chunks| == 0 then "" else Concat(chunks[..|chunks| - 1]) + chunks[|chunks| - 1]
  }

  /** The lines released over a run of chunks, and the final buffer. */
  function Buffered(chunks: seq<string>): Fed {
    if |chunks| == 0 then Fed([], "")
    else
      var before := Buffered(chunks[..|chunks| - 1]);
      var now := Feed(before.buffer, chunks[|chunks| - 1]);
      Fed(before.lines + now.lines, now.buffer)
  }

  /** After any run of chunks the buffer holds no line break, no released line holds one, and
      the released lines, each with its break, followed by the buffer, are all the text so far. */
  lemma {:induction false} BufferedIs(chunks: seq<string>)
    ensures var r := Buffered(chunks);
            && Terminated(r.lines) + r.buffer == Concat(chunks)
            && NoBreak(r.buffer)
            && forall k :: 0 <= k < |r.lines| ==> NoBreak(r.lines[k])
  {
    if |chunks| > 0 {
      var before := Buffered(chunks[..|chunks| - 1]);
      BufferedIs(chunks[..|chunks| - 1]);
      FeedIs(before.buffer, chunks[|chunks| - 1]);
      BufferText(before, chunks[|chunks| - 1], Concat(chunks[..|chunks| - 1]));
      BufferLines(before, chunks[|chunks| - 1]);
    }
  }

  lemma BufferText(before: Fed, chunk: string, text: string)
    requires Terminated(before.lines) + before.buffer == text
    ensures Terminated(before.lines + Feed(before.buffer, chunk).lines) + Feed(before.buffer, chunk).buffer == text + chunk
  {
    var now := Feed(before.buffer, chunk);
    FeedIs(before.buffer, chunk);
    TerminatedAppend(before.lines, now.lines);
    assert Terminated(before.lines + now.lines) + now.buffer
        == Terminated(before.lines) + (Terminated(now.lines) + now.buffer);
  }

  lemma BufferLines(before: Fed, chunk: string)
    requires forall k :: 0 <= k < |before.lines| ==> NoBreak(before.lines[k])
    ensures var ls := before.lines + Feed(before.buffer, chunk).lines;
            forall k :: 0 <= k < |ls| ==> NoBreak(ls[k])
  {
    FeedIs(before.buffer, chunk);
  }

  // ---- events ----

  /** What `JSON.parse` makes of a payload: a string, an object whose `error` is set (with that
      error as text), any other value, or a parse failure. */
  datatype Json = JsonString(value: string) | JsonError(message: string) | JsonOther | Malformed

  /** A line of the reply, once trimmed: the end marker, a data line with its payload, or
      anything else. */
  datatype Line = Done | Data(payload: string) | Other

  const DataPrefix := "data: "

  function Classify(line: string): Line {
    var t := Trim(line);
    if !At(t, 0, DataPrefix) then Other
    else if t[|DataPrefix|..] == "[DONE]" then Done
    else Data(t[|DataPrefix|..])
  }

  /** The reading state: the buffer, the text collected, the progress counters, and the error that
      ended the reading, if any. */
  datatype Reading = Reading(buffer: string, text: string, stream: Stream, failure: Option<string>)

  const Start := Reading("", "", Initial, None)

  /** The lines of one chunk, in order, up to a `[DONE]` line, which ends only this chunk's loop.
      A string payload is appended to the text and counted in UTF-16 units. With `swallow` set,
      an error event is dropped, as the code is written: the `throw` sits inside the `try` whose
      `catch` skips malformed lines. Without it, the error ends the reading. */
  function Lines(lines: seq<string>, parse: string -> Json, r: Reading, swallow: bool): (r': Reading)
    requires r.failure.None?
    ensures r'.buffer == r.buffer
    ensures |r.text| <= |r'.text| && r'.text[..|r.text|] == r.text
    ensures r'.stream.chars == r.stream.chars + GenerateRoute.Utf16Length(r'.text[|r.text|..])
    ensures Sound(r.stream) ==> Sound(r'.stream)
    ensures swallow ==> r'.failure.None?
    decreases |lines|
  {
    if |lines| == 0 then r
    else match Classify(lines[0])
      case Done => r
      case Other => Lines(lines[1..], parse, r, swallow)
      case Data(p) =>
        match parse(p)
        case JsonString(v) =>
          var next := r.(text := r.text + v, stream := Receive(r.stream, GenerateRoute.Utf16Length(v)));
          var r' := Lines(lines[1..], parse, next, swallow);
          GainedText(r.text, v, r'.text);
          ReceiveSound(r.stream, GenerateRoute.Utf16Length(v));
          r'
        case JsonError(m) => if swallow then Lines(lines[1..], parse, r, swallow) else r.(failure := Some(m))
        case _ => Lines(lines[1..], parse, r, swallow)
  }

  lemma ReceiveSound(s: Stream, n: nat)
    ensures Sound(s) ==> Sound(Receive(s, n))
  {
    if Sound(s) {
      ReceiveIs(s, n);
    }
  }

  /** Text gained in two steps counts as the sum of both. */
  lemma GainedText(t: string, v: string, t': string)
    requires |t + v| <= |t'| && t'[..|t + v|] == t + v
    ensures |t| <= |t'| && t'[..|t|] == t
    ensures GenerateRoute.Utf16Length(t'[|t|..]) == GenerateRoute.Utf16Length(v) + GenerateRoute.Utf16Length(t'[|t + v|..])
  {
    assert t'[..|t|] == (t + v)[..|t|] == t;
    assert t'[|t|..] == v + t'[|t + v|..];
    GenerateRoute.Utf16Append(v, t'[|t + v|..]);
  }

  /** A `[DONE]` line ends its chunk's loop: the lines after it are never looked at. */
  lemma {:induction false} DoneEndsLines(lines: seq<string>, k: nat, parse: string -> Json, r: Reading, swallow: bool)
    requires r.failure.None? && k < |lines| && Classify(lines[k]) == Done
    ensures Lines(lines, parse, r, swallow) == Lines(lines[..k], parse, r, swallow)
    decreases k
  {
    if k > 0 {
      assert lines[..k][1..] == lines[1..][..k - 1];
      assert lines[..k][0] == lines[0];
      match Classify(lines[0])
      case Done =>
      case Other => DoneEndsLines(lines[1..], k - 1, parse, r, swallow);
      case Data(p) =>
        match parse(p)
        case JsonString(v) =>
          DoneEndsLines(lines[1..], k - 1, parse, r.(text := r.text + v, stream := Receive(r.stream, GenerateRoute.Utf16Length(v))), swallow);
        case JsonError(m) =>
          if swallow { DoneEndsLines(lines[1..], k - 1, parse, r, swallow); }
        case JsonOther => DoneEndsLines(lines[1..], k - 1, parse, r, swallow);
        case Malformed => DoneEndsLines(lines[1..], k - 1, parse, r, swallow);
    }
  }

  /** An error event: dropped as written, ending the reading with its message as intended. */
  lemma ErrorEvent(line: string, parse: string -> Json, r: Reading)
    requires r.failure.None? && Classify(line).Data? && parse(Classify(line).payload).JsonError?
    ensures Lines([line], parse, r, true) == r
    ensures Lines([line], parse, r, false) == r.(failure := Some(parse(Classify(line).payload).message))
  {
    assert [line][1..] == [];
  }

  /** One chunk: buffered, then its complete lines read. */
  function Step(r: Reading, chunk: string, parse: string -> Json, swallow: bool): (r': Reading)
    requires r.failure.None?
    ensures Sound(r.stream) ==> Sound(r'.stream)
    ensures r.stream.chars == GenerateRoute.Utf16Length(r.text) ==> r'.stream.chars == GenerateRoute.Utf16Length(r'.text)
  {
    var fed := Feed(r.buffer, chunk);
    var r' := Lines(fed.lines, parse, r.(buffer := fed.buffer), swallow);
    CountFrom(r.text, r'.text);
    r'
  }

  /** The UTF-16 length of a text that extends t, counted as t and the rest. */
  lemma CountFrom(t: string, t': string)
    requires |t| <= |t'| && t'[..|t|] == t
    ensures GenerateRoute.Utf16Length(t') == GenerateRoute.Utf16Length(t) + GenerateRoute.Utf16Length(t'[|t|..])
  {
    GenerateRoute.Utf16Split(t', |t|);
  }

  /** The read loop over the chunks of the body, stopping at an error. */
  function Read(chunks: seq<string>, parse: string -> Json, swallow: bool): (r: Reading)
    ensures Sound(r.stream)
    ensures r.stream.chars == GenerateRoute.Utf16Length(r.text)
  {
    if |chunks| == 0 then InitialSound(); Start
    else
      var before := Read(chunks[..|chunks| - 1], parse, swallow);
      if before.failure.Some? then before else Step(before, chunks[|chunks| - 1], parse, swallow)
  }

  /** While no error has ended it, the reading's buffer is the buffering's. */
  lemma {:induction false} ReadBuffer(chunks: seq<string>, parse: string -> Json, swallow: bool)
    requires Read(chunks, parse, swallow).failure.None?
    ensures Read(chunks, parse, swallow).buffer == Buffered(chunks).buffer
  {
    if |chunks| > 0 {
      ReadBuffer(chunks[..|chunks| - 1], parse, swallow);
    }
  }

  /** A body with no line break is never read: it all stays in the buffer, no text is collected
      and the bar does not move. So a reply sent as one JSON document yields no text. */
  lemma {:induction false} UnbrokenBody(chunks: seq<string>, parse: string -> Json, swallow: bool)
    requires NoBreak(Concat(chunks))
    ensures Read(chunks, parse, swallow) == Reading(Concat(chunks), "", Initial, None)
  {
    if |chunks| > 0 {
      var prefix := chunks[..|chunks| - 1];
      assert Concat(chunks) == Concat(prefix) + chunks[|chunks| - 1];
      assert NoBreak(Concat(prefix)) by {
        forall i | 0 <= i < |Concat(prefix)| ensures Concat(prefix)[i] != '\n' {
          assert Concat(prefix)[i] == Concat(chunks)[i];
        }
      }
      UnbrokenBody(prefix, parse, swallow);
      SplitPrefix(Concat(chunks), "");
      assert Concat(chunks) + "" == Concat(chunks);
    }
  }

  // ---- settling ----

  /** What the server sent back: nothing, because the request was cancelled; a failure
      response; or a body, chunk by chunk. */
  datatype Answer = Aborted | Rejected(response: GenerateRoute.Response) | Body(chunks: seq<string>)

  /** The history and the message shown once the generation settles. */
  datatype Settled = Settled(store: History.Store, toast: Option<string>)

  const NoSvg := "No valid SVG found in model response"

  function Loading(id: string, prompt: string): Generation {
    History.Generation(id, History.Loading, 0.0, None, None, prompt, None, true, None)
  }

  /** The finished generation; `url` stands for the object URL made from the code. */
  function Completed(id: string, inputs: Inputs, svg: string, url: string): Generation {
    History.Generation(id, History.Complete, 100.0, Some(url), Some(svg), inputs.prompt, None, false,
                       Some(inputs.aspectRatio))
  }

  const ErrorPrefix := "Error generating image: "

  /** No entry with the id. */
  predicate Absent(gs: seq<Generation>, id: string) {
    forall i :: 0 <= i < |gs| ==> gs[i].id != id
  }

  /** The catch: the entry leaves memory, storage is not touched, and the error is shown. */
  function Fail(store: History.Store, id: string, message: string): (s: Settled)
    ensures s.toast.Some? && At(s.toast.value, 0, ErrorPrefix)
    ensures Absent(s.store.memory, id) && s.store.stored == store.stored
  {
    History.DeleteIs(store.memory, id);
    GenerateRoute.PrefixAt(ErrorPrefix, message);
    Settled(store.(memory := History.Delete(store.memory, id)), Some(ErrorPrefix + message))
  }

  /** After the request: the SVG the browser extracts from the text read, with its overflow
      clipped, replaces the loading entry; without one, the generation fails. With `swallow` set
      the body is read as the code is written, dropping error events; without it, as intended. */
  function Settle(store: History.Store, id: string, inputs: Inputs, answer: Answer,
                  parse: string -> Json, url: string, swallow: bool): Settled
  {
    match answer
    case Aborted => Settled(store, None)
    case Rejected(response) => Fail(store, id, FailureText(response))
    case Body(chunks) =>
      var r := Read(chunks, parse, swallow);
      if r.failure.Some? then Fail(store, id, r.failure.value)
      else match SvgText.ClientExtract(r.text)
        case None => Fail(store, id, NoSvg)
        case Some(svg) =>
          var rest := store.(memory := History.Delete(store.memory, id));
          Settled(History.Add(rest, Completed(id, inputs, SvgText.ClipOverflow(svg), url)), None)
  }

  /** `generateImage`: the page's checks, then a loading entry in front, then the settling. */
  function Generate(store: History.Store, id: string, inputs: Inputs, answer: Answer,
                    parse: string -> Json, url: string, swallow: bool): Settled
  {
    match PreCheck(inputs)
    case Some(message) => Settled(store, Some(message))
    case None =>
      var started := store.(memory := [Loading(id, inputs.prompt)] + store.memory);
      Settle(started, id, inputs, answer, parse, url, swallow)
  }

  /** The loading entry put in front is gone again once its id is deleted. */
  lemma DeleteLoading(gs: seq<Generation>, id: string, prompt: string)
    ensures History.Delete([Loading(id, prompt)] + gs, id) == History.Delete(gs, id)
  {
    assert ([Loading(id, prompt)] + gs)[1..] == gs;
  }

  /** How a generation ends, whether error events are dropped or not. A request the page refuses
      changes nothing. A cancelled one leaves its entry where the cancel put it. Otherwise, either
      it succeeds silently, with one complete entry for it in front of the other entries of
      memory, which all stay, and saved in front of the stored ones; or it fails with an error
      message, its entry gone from memory, every other entry kept, and storage untouched. */
  lemma GenerateIs(store: History.Store, id: string, inputs: Inputs, answer: Answer,
                   parse: string -> Json, url: string, swallow: bool)
    ensures var s := Generate(store, id, inputs, answer, parse, url, swallow);
            && (PreCheck(inputs).Some? ==> s == Settled(store, PreCheck(inputs)))
            && (PreCheck(inputs).None? && answer.Aborted? ==>
                  s.store.memory == [Loading(id, inputs.prompt)] + store.memory && s.store.stored == store.stored)
            && (PreCheck(inputs).None? && !answer.Aborted? ==>
                  || (&& s.toast.None?
                      && |s.store.memory| >= 1 && s.store.memory[0].id == id
                      && s.store.memory[0].status == History.Complete
                      && s.store.memory[0].prompt == inputs.prompt
                      && s.store.memory[1..] == History.Delete(store.memory, id)
                      && s.store.stored == History.SaveLocal(store.stored, s.store.memory[0]))
                  || (&& s.toast.Some? && At(s.toast.value, 0, ErrorPrefix)
                      && s.store.memory == History.Delete(store.memory, id)
                      && s.store.stored == store.stored))
  {
    if PreCheck(inputs).None? && !answer.Aborted? {
      var started := GenerateStarts(store, id, inputs, answer, parse, url, swallow);
      DeleteLoading(store.memory, id, inputs.prompt);
      var completed := SettleOutcome(started, id, inputs, answer, parse, url, swallow);
      if completed.Some? {
        var rest := started.(memory := History.Delete(started.memory, id));
        History.AddIs(rest, completed.value);
      }
    }
  }

  /** Settling a request that was not cancelled either adds a complete entry for it, from memory
      without its loading entry, or fails. */
  lemma SettleOutcome(store: History.Store, id: string, inputs: Inputs, answer: Answer,
                      parse: string -> Json, url: string, swallow: bool) returns (completed: Option<Generation>)
    requires !answer.Aborted?
    ensures var s := Settle(store, id, inputs, answer, parse, url, swallow);
            && (completed.Some? ==>
                  && s == Settled(History.Add(store.(memory := History.Delete(store.memory, id)), completed.value), None)
                  && completed.value.id == id && completed.value.status == History.Complete
                  && completed.value.prompt == inputs.prompt)
            && (completed.None? ==>
                  exists m :: s == Fail(store, id, m))
  {
    match answer
    case Rejected(response) =>
      completed := None;
      assert Settle(store, id, inputs, answer, parse, url, swallow) == Fail(store, id, FailureText(response));
    case Body(chunks) =>
      var r := Read(chunks, parse, swallow);
      if r.failure.Some? {
        completed := None;
        assert Settle(store, id, inputs, answer, parse, url, swallow) == Fail(store, id, r.failure.value);
      } else if SvgText.ClientExtract(r.text).None? {
        completed := None;
        assert Settle(store, id, inputs, answer, parse, url, swallow) == Fail(store, id, NoSvg);
      } else {
        completed := Some(Completed(id, inputs, SvgText.ClipOverflow(SvgText.ClientExtract(r.text).value), url));
      }
  }

  /** With error events dropped, as the code is written, an error event followed by a data line
      holding an SVG ends in a complete entry for that SVG and no message; read as intended, the
      same body ends the generation with the server's error. */
  lemma ErrorThenSvg(store: History.Store, id: string, inputs: Inputs, errorLine: string, dataLine: string,
                     parse: string -> Json, url: string)
    requires PreCheck(inputs).None?
    requires NoBreak(errorLine) && NoBreak(dataLine)
    requires Classify(errorLine).Data? && parse(Classify(errorLine).payload).JsonError?
    requires Classify(dataLine).Data? && parse(Classify(dataLine).payload).JsonString?
    requires SvgText.ClientExtract(parse(Classify(dataLine).payload).value).Some?
    ensures var body := Body([errorLine + "\n" + dataLine + "\n"]);
            var svg := SvgText.ClientExtract(parse(Classify(dataLine).payload).value).value;
            var s := Generate(store, id, inputs, body, parse, url, true);
            && s.toast.None? && |s.store.memory| >= 1
            && s.store.memory[0] == Completed(id, inputs, SvgText.ClipOverflow(svg), url)
    ensures var body := Body([errorLine + "\n" + dataLine + "\n"]);
            Generate(store, id, inputs, body, parse, url, false).toast
              == Some(ErrorPrefix + parse(Classify(errorLine).payload).message)
  {
    var chunk := errorLine + "\n" + dataLine + "\n";
    var m := parse(Classify(errorLine).payload).message;
    var v := parse(Classify(dataLine).payload).value;
    var started := GenerateStarts(store, id, inputs, Body([chunk]), parse, url, true);
    var _ := GenerateStarts(store, id, inputs, Body([chunk]), parse, url, false);
    ReadTwoLines(errorLine, dataLine, parse);
    BodySucceeds(started, id, inputs, [chunk], parse, url, true, SvgText.ClientExtract(v).value);
    BodyFails(started, id, inputs, [chunk], parse, url, false, m);
  }

  /** Past the page's checks, a generation settles from the store with its loading entry in front. */
  lemma GenerateStarts(store: History.Store, id: string, inputs: Inputs, answer: Answer,
                       parse: string -> Json, url: string, swallow: bool) returns (started: History.Store)
    requires PreCheck(inputs).None?
    ensures started == store.(memory := [Loading(id, inputs.prompt)] + store.memory)
    ensures Generate(store, id, inputs, answer, parse, url, swallow) == Settle(started, id, inputs, answer, parse, url, swallow)
  {
    started := store.(memory := [Loading(id, inputs.prompt)] + store.memory);
  }

  /** One chunk holding an error event and then a data line: as written, the data line's text is
      all the text read; as intended, the reading ends with the error. */
  lemma ReadTwoLines(errorLine: string, dataLine: string, parse: string -> Json)
    requires NoBreak(errorLine) && NoBreak(dataLine)
    requires Classify(errorLine).Data? && parse(Classify(errorLine).payload).JsonError?
    requires Classify(dataLine).Data? && parse(Classify(dataLine).payload).JsonString?
    ensures var chunks := [errorLine + "\n" + dataLine + "\n"];
            && Read(chunks, parse, true).failure.None?
            && Read(chunks, parse, true).text == parse(Classify(dataLine).payload).value
            && Read(chunks, parse, false).failure == Some(parse(Classify(errorLine).payload).message)
  {
    var chunk := errorLine + "\n" + dataLine + "\n";
    TwoLines(errorLine, dataLine);
    assert Feed("", chunk) == Fed([errorLine, dataLine], "");
    ReadOne(chunk, parse, true);
    ReadOne(chunk, parse, false);
    LinesErrorThenData(errorLine, dataLine, parse, Start);
  }

  /** The reading of a single chunk is one step from the start. */
  lemma ReadOne(chunk: string, parse: string -> Json, swallow: bool)
    ensures Read([chunk], parse, swallow) == Step(Start, chunk, parse, swallow)
  {
    assert [chunk][..0] == [];
  }

  lemma LinesErrorThenData(errorLine: string, dataLine: string, parse: string -> Json, r: Reading)
    requires r.failure.None?
    requires Classify(errorLine).Data? && parse(Classify(errorLine).payload).JsonError?
    requires Classify(dataLine).Data? && parse(Classify(dataLine).payload).JsonString?
    ensures Lines([errorLine, dataLine], parse, r, true).failure.None?
    ensures Lines([errorLine, dataLine], parse, r, true).text == r.text + parse(Classify(dataLine).payload).value
    ensures Lines([errorLine, dataLine], parse, r, false) == r.(failure := Some(parse(Classify(errorLine).payload).message))
  {
    LinesHead(errorLine, [dataLine], parse, r, true);
    LinesHead(errorLine, [dataLine], parse, r, false);
    LinesHead(dataLine, [], parse, r, true);
  }

  /** The first line of a chunk decides what happens before the rest is read. */
  lemma LinesHead(line: string, rest: seq<string>, parse: string -> Json, r: Reading, swallow: bool)
    requires r.failure.None? && Classify(line).Data?
    ensures var j := parse(Classify(line).payload);
            && (j.JsonError? ==>
                  Lines([line] + rest, parse, r, swallow)
                    == if swallow then Lines(rest, parse, r, swallow) else r.(failure := Some(j.message)))
            && (j.JsonString? ==>
                  Lines([line] + rest, parse, r, swallow)
                    == Lines(rest, parse, r.(text := r.text + j.value,
                                             stream := Receive(r.stream, GenerateRoute.Utf16Length(j.value))), swallow))
  {
    assert ([line] + rest)[0] == line;
    assert ([line] + rest)[1..] == rest;
  }

  /** A body read without an error, in whose text the browser finds an SVG, settles with a complete
      entry for that SVG in front and no message. */
  lemma BodySucceeds(store: History.Store, id: string, inputs: Inputs, chunks: seq<string>,
                     parse: string -> Json, url: string, swallow: bool, svg: string)
    requires Read(chunks, parse, swallow).failure.None?
    requires SvgText.ClientExtract(Read(chunks, parse, swallow).text) == Some(svg)
    ensures var s := Settle(store, id, inputs, Body(chunks), parse, url, swallow);
            && s.toast.None? && |s.store.memory| >= 1
            && s.store.memory[0] == Completed(id, inputs, SvgText.ClipOverflow(svg), url)
  {
  }

  /** A body whose reading ends with an error settles with that error. */
  lemma BodyFails(store: History.Store, id: string, inputs: Inputs, chunks: seq<string>,
                  parse: string -> Json, url: string, swallow: bool, m: string)
    requires Read(chunks, parse, swallow).failure == Some(m)
    ensures Settle(store, id, inputs, Body(chunks), parse, url, swallow).toast == Some(ErrorPrefix + m)
  {
  }

  /** Two lines, each with its break, split into the two lines and an empty rest. */
  lemma TwoLines(a: string, b: string)
    requires NoBreak(a) && NoBreak(b)
    ensures Split("" + (a + "\n" + b + "\n")) == [a, b, ""]
  {
    var lines := [a, b, ""];
    assert Join(lines, "\n") == a + "\n" + b + "\n" by {
      assert Join(lines[2..], "\n") == "";
      assert Join(lines[1..], "\n") == b + "\n" + "";
    }
    JoinSplit(lines);
    assert "" + (a + "\n" + b + "\n") == a + "\n" + b + "\n";
  }

  // ---- the endpoint's answer ----

  /** The endpoint answers a success with one line of JSON, but the page reads the body only as
      lines of server-sent events and never looks at what follows the last line break. However the
      answer arrives in chunks, and whether or not error events are dropped, a request the endpoint
      answers with an SVG therefore ends with "No valid SVG found in model response", and its entry
      leaves memory. */
  lemma JsonAnswerFails(store: History.Store, id: string, inputs: Inputs, reply: GenerateRoute.Reply,
                        chunks: seq<string>, parse: string -> Json, url: string, swallow: bool)
    requires PreCheck(inputs).None?
    requires GenerateRoute.Post(BuildForm(inputs), reply).status == 200
    requires Concat(chunks) == GenerateRoute.JsonText(GenerateRoute.Post(BuildForm(inputs), reply).body)
    ensures var s := Generate(store, id, inputs, Body(chunks), parse, url, swallow);
            && s.toast == Some(ErrorPrefix + NoSvg)
            && s.store.memory == History.Delete(store.memory, id)
  {
    GenerateRoute.JsonTextOneLine(GenerateRoute.Post(BuildForm(inputs), reply).body);
    assert NoBreak(Concat(chunks));
    UnbrokenBody(chunks, parse, swallow);
    NothingRead();
    var started := GenerateStarts(store, id, inputs, Body(chunks), parse, url, swallow);
    DeleteLoading(store.memory, id, inputs.prompt);
  }

  /** No text holds no SVG. */
  lemma NothingRead()
    ensures SvgText.ClientExtract("") == None
  {
    assert SvgText.Unfenced("") == "";
  }

  /** Sent instead as the events the page reads, and with a `JSON.parse` that reads a quoted string
      back, the same success ends with no message and a complete entry for exactly the SVG the
      endpoint found, with its overflow clipped. */
  lemma EventAnswerSucceeds(store: History.Store, id: string, inputs: Inputs, reply: GenerateRoute.Reply,
                            parse: string -> Json, url: string, swallow: bool)
    requires PreCheck(inputs).None?
    requires GenerateRoute.Post(BuildForm(inputs), reply).status == 200
    requires forall v :: parse(GenerateRoute.Quote(v)) == JsonString(v)
    ensures var body := GenerateRoute.Post(BuildForm(inputs), reply).body;
            && body.Svg?
            && var s := Generate(store, id, inputs, Body([GenerateRoute.EventText(body)]), parse, url, swallow);
               && s.toast.None? && |s.store.memory| >= 1
               && s.store.memory[0] == Completed(id, inputs, SvgText.ClipOverflow(body.svgCode), url)
  {
    var body := GenerateRoute.Post(BuildForm(inputs), reply).body;
    GenerateRoute.PostSucceeds(BuildForm(inputs), reply);
    var chunks := [GenerateRoute.EventText(body)];
    var started := GenerateStarts(store, id, inputs, Body(chunks), parse, url, swallow);
    ReadEvent(body, parse, swallow);
    SvgText.DocumentFound(body.svgCode);
    BodySucceeds(started, id, inputs, chunks, parse, url, swallow, body.svgCode);
  }

  /** The events of a success read as exactly its code, with no error. */
  lemma ReadEvent(b: GenerateRoute.Body, parse: string -> Json, swallow: bool)
    requires b.Svg? && parse(GenerateRoute.Quote(b.svgCode)) == JsonString(b.svgCode)
    ensures Read([GenerateRoute.EventText(b)], parse, swallow).failure.None?
    ensures Read([GenerateRoute.EventText(b)], parse, swallow).text == b.svgCode
  {
    var q := GenerateRoute.Quote(b.svgCode);
    var line := DataPrefix + q;
    var chunk := GenerateRoute.EventText(b);
    var lines := [line, "", "data: [DONE]", ""];
    assert GenerateRoute.Printable(DataPrefix);
    GenerateRoute.PrintableJoin(DataPrefix, q);
    EventSplit(line, chunk);
    assert Feed(Start.buffer, chunk) == Fed(lines, "") by {
      assert "" + chunk == chunk;
    }
    ReadOne(chunk, parse, swallow);
    assert Read([chunk], parse, swallow) == Lines(lines, parse, Start, swallow);
    DataLine(q);
    EventLines(line, parse, swallow);
  }

  /** The lines of a success event, read from the start: the payload's string is the text. */
  lemma EventLines(line: string, parse: string -> Json, swallow: bool)
    requires Classify(line).Data? && parse(Classify(line).payload).JsonString?
    ensures var r := Lines([line, "", "data: [DONE]", ""], parse, Start, swallow);
            r.failure.None? && r.text == parse(Classify(line).payload).value
  {
    var v := parse(Classify(line).payload).value;
    var rest := ["", "data: [DONE]", ""];
    assert [line, "", "data: [DONE]", ""] == [line] + rest;
    LinesHead(line, rest, parse, Start, swallow);
    var next := Start.(text := Start.text + v, stream := Receive(Start.stream, GenerateRoute.Utf16Length(v)));
    DoneAfterBlank(parse, next, swallow);
    assert next.text == v;
  }

  /** The event text splits into its data line, a blank line, the end marker, another blank line,
      and nothing after. */
  lemma EventSplit(line: string, chunk: string)
    requires GenerateRoute.Printable(line)
    requires chunk == line + "\n\ndata: [DONE]\n\n"
    ensures Split(chunk) == [line, "", "data: [DONE]", "", ""]
  {
    var parts := [line, "", "data: [DONE]", "", ""];
    var after := Join(parts[1..], "\n");
    assert after == "\ndata: [DONE]\n\n" by {
      assert Join(parts[4..], "\n") == "";
      assert Join(parts[3..], "\n") == "\n";
      assert Join(parts[2..], "\n") == "data: [DONE]\n\n";
    }
    assert Join(parts, "\n") == line + "\n" + after;
    assert line + "\n" + after == line + ("\n" + after);
    assert "\n" + after == "\n\ndata: [DONE]\n\n";
    JoinSplit(parts);
  }

  /** A data line whose payload is a quoted string is read as that payload. */
  lemma DataLine(q: string)
    requires |q| >= 2 && q[0] == '"' && q[|q| - 1] == '"'
    ensures Classify(DataPrefix + q) == Data(q)
  {
    var line := DataPrefix + q;
    TrimUnchanged(line);
    GenerateRoute.PrefixAt(DataPrefix, q);
    assert line[|DataPrefix|..] == q;
  }

  /** A blank line and the end marker end a chunk's loop where it stands. */
  lemma DoneAfterBlank(parse: string -> Json, r: Reading, swallow: bool)
    requires r.failure.None?
    ensures Lines(["", "data: [DONE]", ""], parse, r, swallow) == r
  {
    var rest := ["data: [DONE]", ""];
    assert ["", "data: [DONE]", ""][1..] == rest;
    assert Classify("") == Other by {
      TrimUnchanged("");
    }
    assert Lines(["", "data: [DONE]", ""], parse, r, swallow) == Lines(rest, parse, r, swallow);
    assert Classify(rest[0]) == Done by {
      TrimUnchanged("data: [DONE]");
    }
  }

  /** A generation settles without a message exactly when it was cancelled, or when its body read
      without an error event and holds an SVG the browser finds; the entry then carries that SVG
      with its overflow clipped, and the object URL. Read as intended, an error event ends the
      generation with the server's message. */
  lemma SettleSucceeds(store: History.Store, id: string, inputs: Inputs, answer: Answer,
                       parse: string -> Json, url: string)
    ensures var s := Settle(store, id, inputs, answer, parse, url, false);
            s.toast.None? <==>
              (|| answer.Aborted?
               || (&& answer.Body?
                   && Read(answer.chunks, parse, false).failure.None?
                   && SvgText.ClientExtract(Read(answer.chunks, parse, false).text).Some?))
    ensures answer.Body? && Read(answer.chunks, parse, false).failure.None? ==>
              var s := Settle(store, id, inputs, answer, parse, url, false);
              var found := SvgText.ClientExtract(Read(answer.chunks, parse, false).text);
              && (found.None? ==> s.toast == Some(ErrorPrefix + NoSvg))
              && (found.Some? ==>
                    && s.store.memory[0].svgCode == Some(SvgText.ClipOverflow(found.value))
                    && s.store.memory[0].imageUrl == Some(url))
    ensures answer.Body? && Read(answer.chunks, parse, false).failure.Some? ==>
              Settle(store, id, inputs, answer, parse, url, false).toast
                == Some(ErrorPrefix + Read(answer.chunks, parse, false).failure.value)
    ensures answer.Rejected? ==>
              Settle(store, id, inputs, answer, parse, url, false).toast == Some(ErrorPrefix + FailureText(answer.response))
  {
  }
}

=== FILE: js_array.dfy ===
/** JavaScript arrays of numeric values as the editor indexes them: a read past the end gives
    `undefined`, and a write past the end grows the array, leaving holes that read as `undefined`. */
module JsArray {
  import opened JsNumber

  /** `values[j]`: a read past the end is undefined. */
  function Arg(vs: seq<JsNum>, j: nat): JsNum {
    if j < |vs| then vs[j] else Undefined
  }

  /** `values[i] = v`: inside the array one element changes; past the end the array grows to
      length i + 1, the positions between the old end and i being holes. */
  function SetValue(vs: seq<JsNum>, i: nat, v: JsNum): (r: seq<JsNum>)
    ensures |r| == if i < |vs| then |vs| else i + 1
    ensures Arg(r, i) == v
    ensures forall k :: 0 <= k < |r| && k != i ==> r[k] == Arg(vs, k)
  {
    if i < |vs| then vs[i := v] else vs + seq(i - |vs|, _ => Undefined) + [v]
  }

  /** Only position i reads differently after a write to it. */
  lemma ReadAfterWrite(vs: seq<JsNum>, i: nat, v: JsNum, k: nat)
    ensures Arg(SetValue(vs, i, v), k) == if k == i then v else Arg(vs, k)
  {
  }

  /** A second write to the same position replaces the first. */
  lemma Overwrite(vs: seq<JsNum>, i: nat, v: JsNum, w: JsNum)
    ensures SetValue(SetValue(vs, i, v), i, w) == SetValue(vs, i, w)
  {
    var a := SetValue(SetValue(vs, i, v), i, w);
    var b := SetValue(vs, i, w);
    assert |a| == |b|;
    forall k | 0 <= k < |a| ensures a[k] == b[k] {
      ReadAfterWrite(SetValue(vs, i, v), i, w, k);
      ReadAfterWrite(vs, i, v, k);
      ReadAfterWrite(vs, i, w, k);
    }
  }

  /** `values[i] = x; values[i + 1] = y` */
  function SetPair(vs: seq<JsNum>, i: nat, x: JsNum, y: JsNum): seq<JsNum> {
    SetValue(SetValue(vs, i, x), i + 1, y)
  }

  /** Writing a pair changes positions i and i + 1 only, and grows the array to at least i + 2. */
  lemma PairWrite(vs: seq<JsNum>, i: nat, x: JsNum, y: JsNum)
    ensures |SetPair(vs, i, x, y)| == if i + 1 < |vs| then |vs| else i + 2
    ensures Arg(SetPair(vs, i, x, y), i) == x && Arg(SetPair(vs, i, x, y), i + 1) == y
    ensures forall k :: 0 <= k < |SetPair(vs, i, x, y)| && k != i && k != i + 1 ==>
              SetPair(vs, i, x, y)[k] == Arg(vs, k)
  {
  }

  /** A second pair written at the same position replaces the first. */
  lemma OverwritePair(vs: seq<JsNum>, i: nat, x: JsNum, y: JsNum, x': JsNum, y': JsNum)
    ensures SetPair(SetPair(vs, i, x, y), i, x', y') == SetPair(vs, i, x', y')
  {
    var a := SetPair(SetPair(vs, i, x, y), i, x', y');
    var b := SetPair(vs, i, x', y');
    PairWrite(vs, i, x, y);
    PairWrite(SetPair(vs, i, x, y), i, x', y');
    PairWrite(vs, i, x', y');
    assert |a| == |b|;
    forall k | 0 <= k < |a| ensures a[k] == b[k] {
      if k != i && k != i + 1 {
        assert a[k] == Arg(SetPair(vs, i, x, y), k);
      }
    }
  }
}

=== FILE: jsnumber.dfy ===
/** JavaScript number values and their text forms: `Number(text)`, `parseFloat(text)` and
    `String(x)` (Number::toString of ECMA-262 section 6.1.6.1.20), over exact decimals. */
module JsNumber {
  import opened Wrappers
  import opened Text
  import opened Decimal

  /** A JavaScript value in a numeric position: a number, NaN, or `undefined` (an array hole or a
      read past the end of an array). Infinities are not modelled. */
  datatype JsNum = Num(d: Dec) | NaN | Undefined

  /** The `+` operator on numbers: NaN as soon as either side is not a number. */
  function Plus(a: JsNum, b: JsNum): (r: JsNum)
    ensures r.Num? <==> a.Num? && b.Num?
    ensures r.Num? ==> r.d.Value() == a.d.Value() + b.d.Value()
  {
    if a.Num? && b.Num? then Num(Add(a.d, b.d)) else NaN
  }

  /** The `-` operator on numbers. */
  function Minus(a: JsNum, b: JsNum): (r: JsNum)
    ensures r.Num? <==> a.Num? && b.Num?
    ensures r.Num? ==> r.d.Value() == a.d.Value() - b.d.Value()
  {
    if a.Num? && b.Num? then Num(Sub(a.d, b.d)) else NaN
  }

  /** b is a shifted by `amount`: both numbers, `amount` apart, or neither a number. */
  predicate Shifted(a: JsNum, b: JsNum, amount: real) {
    (b.Num? <==> a.Num?) && (a.Num? ==> b.d.Value() == a.d.Value() + amount)
  }

  /** `Math.max(1, x)`: NaN stays NaN, a number is raised to at least 1. */
  function AtLeastOne(x: JsNum): (r: JsNum)
    ensures r.Num? <==> x.Num?
    ensures r.Num? ==> r.d.Value() >= 1.0 && (r.d == x.d || r.d == One)
    ensures r.Num? && x.d.Value() >= 1.0 ==> r.d == x.d
  {
    if x.Num? then Num(Max(x.d, One)) else NaN
  }

  // ---- decimal digits ----

  predicate AllDigits(s: string) {
    forall i :: 0 <= i < |s| ==> IsDigit(s[i])
  }

  /** The value of a decimal digit character (the scanner applies it to digits only). */
  function DigitValue(c: char): int {
    c as int - '0' as int
  }

  function DigitChar(d: nat): (c: char)
    requires d < 10
    ensures IsDigit(c) && DigitValue(c) == d
  {
    ('0' as int + d) as char
  }

  /** The number a string of decimal digits denotes (leading zeros allowed). */
  function DigitsValue(s: string): int {
    if |s| == 0 then 0 else 10 * DigitsValue(s[..|s| - 1]) + DigitValue(s[|s| - 1])
  }

  /** The decimal digits of n, without leading zeros. */
  function DigitString(n: nat): (r: string)
    ensures |r| >= 1 && AllDigits(r)
    ensures DigitsValue(r) == n
    ensures n > 0 ==> r[0] != '0'
  {
    if n < 10 then [DigitChar(n)]
    else
      var r := DigitString(n / 10) + [DigitChar(n % 10)];
      assert r[..|r| - 1] == DigitString(n / 10);
      r
  }

  function Zeros(n: nat): (r: string)
    ensures |r| == n && AllDigits(r)
    ensures forall i :: 0 <= i < n ==> r[i] == '0'
  {
    seq(n, _ => '0')
  }

  lemma AllDigitsAppend(a: string, b: string)
    requires AllDigits(a) && AllDigits(b)
    ensures AllDigits(a + b)
  {
    forall j | 0 <= j < |a + b| ensures IsDigit((a + b)[j]) {
      if j >= |a| { assert (a + b)[j] == b[j - |a|]; }
    }
  }

  lemma {:induction false} DigitsValueAppend(a: string, b: string)
    ensures DigitsValue(a + b) == DigitsValue(a) * Pow10(|b|) + DigitsValue(b)
    decreases |b|
  {
    if |b| > 0 {
      var b' := b[..|b| - 1];
      assert (a + b)[..|a + b| - 1] == a + b';
      DigitsValueAppend(a, b');
      var x := DigitsValue(a);
      var p := Pow10(|b'|);
      assert (a + b)[|a + b| - 1] == b[|b| - 1];
      assert DigitsValue(a + b) == 10 * (x * p + DigitsValue(b')) + DigitValue(b[|b| - 1]);
      assert DigitsValue(b) == 10 * DigitsValue(b') + DigitValue(b[|b| - 1]);
      assert Pow10(|b|) == 10 * p;
      TimesTen(x, p);
    } else {
      assert a + b == a;
    }
  }

  lemma {:induction false} ZerosValue(n: nat)
    ensures DigitsValue(Zeros(n)) == 0
  {
    if n > 0 {
      assert Zeros(n)[..n - 1] == Zeros(n - 1);
      ZerosValue(n - 1);
    }
  }

  /** Leading and trailing zeros: DigitsValue(0…0 ds 0…0) == DigitsValue(ds) * 10^b. */
  lemma PaddedValue(a: nat, ds: string, b: nat)
    ensures DigitsValue(Zeros(a) + ds + Zeros(b)) == DigitsValue(ds) * Pow10(b)
  {
    DigitsValueAppend(Zeros(a), ds);
    ZerosValue(a);
    ZerosValue(b);
    DigitsValueAppend(Zeros(a) + ds, Zeros(b));
  }

  // ---- Number::toString ----

  function Abs(n: int): nat {
    if n < 0 then -n else n
  }

  function SignText(neg: bool): string {
    if neg then "-" else ""
  }

  function Signed(neg: bool, n: int): int {
    if neg then -n else n
  }

  /** The text of a decimal literal: integer digits I, then a point and the fraction digits F when
      there are any, then the exponent part X (possibly empty). */
  function LiteralText(I: string, F: string, X: string): string {
    I + (if |F| > 0 then "." + F else "") + X
  }

  /** `String(x)` for a finite number x: the shortest digits, in plain notation when the decimal
      exponent n lies in (-6, 21], in exponent notation otherwise. */
  function NumberToString(d: Dec): string {
    if d.m == 0 then "0" else SignText(d.m < 0) + MagnitudeToString(Abs(d.m), d.exp)
  }

  /** The exponent part `e+x` / `e-x` of exponent notation. */
  function ExponentPart(x: int): string {
    "e" + (if x > 0 then "+" else "-") + DigitString(Abs(x))
  }

  /** Number::toString of the positive number s * 10^e: with k digits and n = k + e, the digits
      followed by n - k zeros when k <= n <= 21; the point after n digits when 0 < n <= 21; `0.`,
      -n zeros and the digits when -6 < n <= 0; otherwise one digit, the point and the remaining
      digits if any, and the exponent n - 1. */
  function MagnitudeToString(s: nat, e: int): string
    requires s > 0
  {
    var ds := DigitString(s);
    var k := |ds|;
    var n := k + e;
    if k <= n <= 21 then LiteralText(ds + Zeros(n - k), "", "")
    else if 0 < n <= 21 then LiteralText(ds[..n], ds[n..], "")
    else if -6 < n <= 0 then LiteralText("0", Zeros(-n) + ds, "")
    else LiteralText(ds[..1], ds[1..], ExponentPart(n - 1))
  }

  /** The decimal exponent n of Number::toString: the value is 0.ds * 10^n. */
  function PointPosition(d: Dec): int {
    |DigitString(Abs(d.m))| + d.exp
  }

  /** Numbers Number::toString writes without an exponent. */
  predicate ExponentFree(d: Dec) {
    d.m == 0 || -6 < PointPosition(d) <= 21
  }

  /** `String(x)` and template-literal interpolation of any numeric value. */
  function ValueText(v: JsNum): string {
    match v
    case Num(d) => NumberToString(d)
    case NaN => "NaN"
    case Undefined => "undefined"
  }

  /** How `Array.prototype.join` writes one element: `undefined` becomes the empty string. */
  function JoinText(v: JsNum): string {
    if v.Undefined? then "" else ValueText(v)
  }

  // ---- reading numbers ----

  /** Where the run of decimal digits that starts at position i of s ends. */
  function DigitEnd(s: string, i: nat): (j: nat)
    requires i <= |s|
    ensures i <= j <= |s|
    decreases |s| - i
  {
    if i < |s| && IsDigit(s[i]) then DigitEnd(s, i + 1) else i
  }

  /** An exponent part `e`/`E`, optional sign, digits, at position q of s: where it ends and its
      value, or (q, 0) when there is none at q. */
  function ExponentAt(s: string, q: nat): (r: (nat, int))
    requires q <= |s|
    ensures q <= r.0 <= |s|
  {
    if q + 2 <= |s| && (s[q] == 'e' || s[q] == 'E') then
      var j := if s[q + 1] == '+' || s[q + 1] == '-' then q + 2 else q + 1;
      var e := DigitEnd(s, j);
      if e == j then (q, 0)
      else
        var v := DigitsValue(s[j..e]);
        (e, if s[q + 1] == '-' then -v else v)
    else (q, 0)
  }

  /** 1 when s starts with a sign, else 0. */
  function SignLength(s: string): (i: nat)
    ensures i <= |s|
  {
    if |s| > 0 && (s[0] == '+' || s[0] == '-') then 1 else 0
  }

  /** A decimal literal found at the start of a text: how many characters it takes, its sign, the
      number its digits denote with the point removed, and the power of ten that number is scaled by. */
  datatype Scanned = Scanned(length: nat, negative: bool, mantissa: int, exp: int) {
    /** The number the literal denotes. */
    function Value(): Dec {
      Normalize(Signed(negative, mantissa), exp)
    }
  }

  /** Which digits of a literal the scan is in: those before the point or those after it. */
  datatype Part = Whole | Fraction

  /** The state of the scan inside the digits of a literal: the part, the sign, the number the
      digits so far denote, and how many digits each part has had. */
  datatype Reading = Reading(part: Part, negative: bool, mantissa: int, whole: nat, fraction: nat)

  /** The reading after n more digits of the current part, which bring the mantissa to m. */
  function Advance(r: Reading, m: int, n: nat): (r': Reading)
    ensures r'.whole + r'.fraction == r.whole + r.fraction + n
  {
    var w := if r.part == Whole then n else 0;
    Reading(r.part, r.negative, m, r.whole + w, r.fraction + (n - w))
  }

  /** The rest of the scan from position i: digits of the current part, a point after the whole
      digits, and, once neither follows, the exponent part; no literal without a digit. */
  function ScanFrom(s: string, i: nat, r: Reading): (o: Option<Scanned>)
    requires i <= |s|
    ensures o.Some? ==> i <= o.value.length <= |s|
    decreases |s| - i
  {
    if i < |s| && IsDigit(s[i]) then ScanFrom(s, i + 1, Advance(r, 10 * r.mantissa + DigitValue(s[i]), 1))
    else if i < |s| && s[i] == '.' && r.part == Whole then ScanFrom(s, i + 1, r.(part := Fraction))
    else if r.whole + r.fraction == 0 then None
    else
      var ex := ExponentAt(s, i);
      Some(Scanned(ex.0, r.negative, r.mantissa, ex.1 - r.fraction))
  }

  /** The longest prefix of s that is a StrDecimalLiteral without `Infinity`: optional sign, digits,
      optional point and digits (at least one digit in all), optional exponent. */
  function ScanDecimal(s: string): (r: Option<Scanned>)
    ensures r.Some? ==> r.value.length <= |s|
  {
    var i := SignLength(s);
    ScanFrom(s, i, Reading(Whole, i == 1 && s[0] == '-', 0, 0, 0))
  }

  /** The value of a digit in radix up to 36 (letters either case), or 36 for a non-digit. */
  function RadixDigit(c: char): nat {
    if IsDigit(c) then DigitValue(c)
    else if 'a' <= c <= 'z' then c as int - 'a' as int + 10
    else if 'A' <= c <= 'Z' then c as int - 'A' as int + 10
    else 36
  }

  function RadixValue(s: string, radix: nat): nat {
    if |s| == 0 then 0 else radix * RadixValue(s[..|s| - 1], radix) + RadixDigit(s[|s| - 1])
  }

  /** The digits after a `0x`, `0o` or `0b` prefix. */
  function RadixLiteral(s: string, radix: nat): (r: JsNum)
    ensures r.Num? || r.NaN?
  {
    if |s| > 0 && forall i :: 0 <= i < |s| ==> RadixDigit(s[i]) < radix then Num(Int(RadixValue(s, radix)))
    else NaN
  }

  /** `Number(text)`: whitespace is trimmed, the empty string is 0, `0x`/`0o`/`0b` literals are
      integers, and otherwise the whole text must be one decimal literal, else NaN. */
  function StringToNumber(text: string): (r: JsNum)
    ensures r.Num? || r.NaN?
  {
    var t := Trim(text);
    if |t| == 0 then Num(Zero)
    else if |t| >= 2 && t[0] == '0' && (t[1] == 'x' || t[1] == 'X') then RadixLiteral(t[2..], 16)
    else if |t| >= 2 && t[0] == '0' && (t[1] == 'o' || t[1] == 'O') then RadixLiteral(t[2..], 8)
    else if |t| >= 2 && t[0] == '0' && (t[1] == 'b' || t[1] == 'B') then RadixLiteral(t[2..], 2)
    else
      match ScanDecimal(t)
      case Some(sc) => if sc.length == |t| then Num(sc.Value()) else NaN
      case None => NaN
  }

  /** `parseFloat(text)`: leading whitespace skipped, then the longest decimal-literal prefix. */
  function ParseFloat(text: string): (r: JsNum)
    ensures r.Num? || r.NaN?
  {
    match ScanDecimal(TrimStart(text))
    case Some(sc) => Num(sc.Value())
    case None => NaN
  }

  // ---- round trip of the text forms ----

  /** The digit run at i is exactly the n digits there when a non-digit or the end follows them. */
  lemma {:induction false} DigitEndOf(s: string, i: nat, n: nat)
    requires i + n <= |s|
    requires forall k :: i <= k < i + n ==> IsDigit(s[k])
    requires i + n == |s| || !IsDigit(s[i + n])
    ensures DigitEnd(s, i) == i + n
    decreases n
  {
    if n > 0 {
      DigitEndOf(s, i + 1, n - 1);
    }
  }

  /** The exponent part written for x, or nothing. */
  function ExponentText(has: bool, x: int): string {
    if has then ExponentPart(x) else ""
  }

  /** An exponent part written after any text P is read back from where it starts. */
  lemma ExponentAtText(P: string, has: bool, x: int)
    ensures ExponentAt(P + ExponentText(has, x), |P|) ==
            (|P + ExponentText(has, x)|, if has then x else 0)
  {
    if has {
      var s := P + ExponentPart(x);
      var ds := DigitString(Abs(x));
      var q := |P|;
      assert s[q] == 'e' && s[q + 1] == (if x > 0 then '+' else '-');
      assert forall k :: q + 2 <= k < |s| ==> s[k] == ds[k - q - 2];
      DigitEndOf(s, q + 2, |ds|);
      assert s[q + 2..|s|] == ds;
    }
  }

  /** Reading the digits D at position i: the mantissa goes from the number P denotes to the number
      P + D denotes. */
  lemma {:induction false} DigitsRun(s: string, i: nat, D: string, P: string, r: Reading)
    requires i + |D| <= |s| && s[i..i + |D|] == D && AllDigits(D)
    requires r.mantissa == DigitsValue(P)
    ensures ScanFrom(s, i, r) == ScanFrom(s, i + |D|, Advance(r, DigitsValue(P + D), |D|))
    decreases |D|
  {
    if |D| == 0 {
      assert P + D == P;
    } else {
      var P', D' := P + [D[0]], D[1..];
      var m1, m := DigitsValue(P'), DigitsValue(P + D);
      var r' := Advance(r, m1, 1);
      SliceFirst(s, i, D);
      assert IsDigit(D[0]);
      DigitsValueSnoc(P, D[0]);
      DigitStep(s, i, r, m1);
      DigitsRun(s, i + 1, D', P', r');
      ShiftFirst(P, D);
      assert DigitsValue(P' + D') == m;
      AdvanceTwice(r, m1, m, |D'|);
      assert i + 1 + |D'| == i + |D| && |D'| + 1 == |D|;
    }
  }

  lemma SliceFirst(s: string, i: nat, D: string)
    requires i + |D| <= |s| && s[i..i + |D|] == D && |D| > 0
    ensures s[i] == D[0] && s[i + 1..i + |D|] == D[1..]
  {
    assert s[i..i + |D|][0] == s[i];
  }

  lemma ShiftFirst(P: string, D: string)
    requires |D| > 0
    ensures P + [D[0]] + D[1..] == P + D
  {
  }

  /** One digit read. */
  lemma DigitStep(s: string, i: nat, r: Reading, m: int)
    requires i < |s| && IsDigit(s[i]) && m == 10 * r.mantissa + DigitValue(s[i])
    ensures ScanFrom(s, i, r) == ScanFrom(s, i + 1, Advance(r, m, 1))
  {
  }

  lemma DigitsValueSnoc(P: string, c: char)
    ensures DigitsValue(P + [c]) == 10 * DigitsValue(P) + DigitValue(c)
  {
    assert (P + [c])[..|P|] == P;
  }

  lemma AdvanceTwice(r: Reading, m1: int, m: int, n: nat)
    ensures Advance(Advance(r, m1, 1), m, n) == Advance(r, m, n + 1)
  {
  }

  /** Where neither a digit nor a point can continue, the scan reads the exponent part and stops. */
  lemma ScanEnd(s: string, i: nat, r: Reading, e: nat, x: int)
    requires i <= |s| && (i == |s| || s[i] == 'e') && r.whole + r.fraction > 0
    requires ExponentAt(s, i) == (e, x)
    ensures ScanFrom(s, i, r) == Some(Scanned(e, r.negative, r.mantissa, x - r.fraction))
  {
  }

  /** Where the parts of A + I + X lie. */
  lemma IntegerParts(A: string, I: string, X: string)
    ensures var s := A + I + X;
            && s[..|A|] == A && s[|A|..|A| + |I|] == I
            && (|X| > 0 ==> s[|A| + |I|] == X[0])
  {
    var s := A + I + X;
    assert s[..|A|] == A;
    assert s[|A|..|A| + |I|] == I;
  }

  /** Where the parts of A + I + ("." + F) + X lie. */
  lemma FractionParts(A: string, I: string, F: string, X: string)
    ensures var s := A + I + ("." + F) + X;
            var a := |A| + |I|;
            && s[..|A|] == A && s[|A|..a] == I && s[a] == '.' && s[a + 1..a + 1 + |F|] == F
            && (|X| > 0 ==> s[a + 1 + |F|] == X[0])
  {
    var s := A + I + ("." + F) + X;
    var a := |A| + |I|;
    assert s[..|A|] == A;
    assert s[|A|..a] == I;
    assert s[a + 1..a + 1 + |F|] == F;
  }

  /** The scan of a literal starting with its sign and a digit begins with no digits read. */
  lemma ScanStart(s: string, neg: bool)
    requires |s| > |SignText(neg)| && s[..|SignText(neg)|] == SignText(neg) && IsDigit(s[|SignText(neg)|])
    ensures ScanDecimal(s) == ScanFrom(s, |SignText(neg)|, Reading(Whole, neg, 0, 0, 0))
  {
    if neg {
      assert s[0] == s[..1][0];
    }
  }

  lemma WholeDigits(s: string, i: nat, I: string, neg: bool)
    requires i + |I| <= |s| && s[i..i + |I|] == I && AllDigits(I)
    ensures ScanFrom(s, i, Reading(Whole, neg, 0, 0, 0)) ==
            ScanFrom(s, i + |I|, Reading(Whole, neg, DigitsValue(I), |I|, 0))
  {
    var r0 := Reading(Whole, neg, 0, 0, 0);
    DigitsRun(s, i, I, "", r0);
    assert "" + I == I;
    assert Advance(r0, DigitsValue(I), |I|) == Reading(Whole, neg, DigitsValue(I), |I|, 0);
  }

  /** A point at position a and the fraction digits F after it are read into the mantissa. */
  lemma FractionDigits(s: string, a: nat, I: string, F: string, neg: bool)
    requires a + 1 + |F| <= |s| && s[a] == '.' && s[a + 1..a + 1 + |F|] == F && AllDigits(F)
    ensures ScanFrom(s, a, Reading(Whole, neg, DigitsValue(I), |I|, 0)) ==
            ScanFrom(s, a + 1 + |F|, Reading(Fraction, neg, DigitsValue(I + F), |I|, |F|))
  {
    PointStep(s, a, neg, DigitsValue(I), |I|);
    var r := Reading(Fraction, neg, DigitsValue(I), |I|, 0);
    DigitsRun(s, a + 1, F, I, r);
    assert Advance(r, DigitsValue(I + F), |F|) == Reading(Fraction, neg, DigitsValue(I + F), |I|, |F|);
  }

  /** A point after whole digits moves the scan to the fraction digits. */
  lemma PointStep(s: string, a: nat, neg: bool, m: int, w: nat)
    requires a < |s| && s[a] == '.'
    ensures ScanFrom(s, a, Reading(Whole, neg, m, w, 0)) == ScanFrom(s, a + 1, Reading(Fraction, neg, m, w, 0))
  {
  }

  /** The scan of a text made of a sign, whole digits I and an exponent part ending the text. */
  lemma ScanIntegerAt(s: string, neg: bool, I: string, x: int)
    requires AllDigits(I) && |I| > 0
    requires |SignText(neg)| + |I| <= |s| && s[..|SignText(neg)|] == SignText(neg)
    requires s[|SignText(neg)|..|SignText(neg)| + |I|] == I
    requires |SignText(neg)| + |I| == |s| || s[|SignText(neg)| + |I|] == 'e'
    requires ExponentAt(s, |SignText(neg)| + |I|) == (|s|, x)
    ensures ScanDecimal(s) == Some(Scanned(|s|, neg, DigitsValue(I), x))
  {
    ScanToPoint(s, neg, I);
    ScanEnd(s, |SignText(neg)| + |I|, Reading(Whole, neg, DigitsValue(I), |I|, 0), |s|, x);
  }

  /** The scan of a text made of a sign, whole digits I, a point, fraction digits F and an exponent
      part ending the text. */
  lemma ScanFractionAt(s: string, neg: bool, I: string, F: string, x: int)
    requires AllDigits(I) && AllDigits(F) && |I| > 0
    requires |SignText(neg)| + |I| + 1 + |F| <= |s| && s[..|SignText(neg)|] == SignText(neg)
    requires var a := |SignText(neg)| + |I|; s[|SignText(neg)|..a] == I && s[a] == '.' && s[a + 1..a + 1 + |F|] == F
    requires var b := |SignText(neg)| + |I| + 1 + |F|; b == |s| || s[b] == 'e'
    requires ExponentAt(s, |SignText(neg)| + |I| + 1 + |F|) == (|s|, x)
    ensures ScanDecimal(s) == Some(Scanned(|s|, neg, DigitsValue(I + F), x - |F|))
  {
    var i := |SignText(neg)|;
    ScanToPoint(s, neg, I);
    FractionTail(s, i + |I|, I, F, neg, x);
  }

  /** Sign and whole digits bring the scan to the character after them. */
  lemma ScanToPoint(s: string, neg: bool, I: string)
    requires AllDigits(I) && |I| > 0
    requires |SignText(neg)| + |I| <= |s| && s[..|SignText(neg)|] == SignText(neg)
    requires s[|SignText(neg)|..|SignText(neg)| + |I|] == I
    ensures ScanDecimal(s) == ScanFrom(s, |SignText(neg)| + |I|, Reading(Whole, neg, DigitsValue(I), |I|, 0))
  {
    var i := |SignText(neg)|;
    assert IsDigit(I[0]) && s[i] == I[0];
    ScanStart(s, neg);
    WholeDigits(s, i, I, neg);
  }

  /** From the point on: fraction digits F and an exponent part ending the text. */
  lemma FractionTail(s: string, a: nat, I: string, F: string, neg: bool, x: int)
    requires |I| > 0 && AllDigits(F) && a + 1 + |F| <= |s| && s[a] == '.' && s[a + 1..a + 1 + |F|] == F
    requires a + 1 + |F| == |s| || s[a + 1 + |F|] == 'e'
    requires ExponentAt(s, a + 1 + |F|) == (|s|, x)
    ensures ScanFrom(s, a, Reading(Whole, neg, DigitsValue(I), |I|, 0)) == Some(Scanned(|s|, neg, DigitsValue(I + F), x - |F|))
  {
    FractionDigits(s, a, I, F, neg);
    ScanEnd(s, a + 1 + |F|, Reading(Fraction, neg, DigitsValue(I + F), |I|, |F|), |s|, x);
  }

  /** A literal sign? I X, with X an exponent part or nothing, scans completely. */
  lemma ScanInteger(neg: bool, I: string, has: bool, x: int)
    requires AllDigits(I) && |I| > 0
    ensures var s := SignText(neg) + I + ExponentText(has, x);
            ScanDecimal(s) == Some(Scanned(|s|, neg, DigitsValue(I), if has then x else 0))
  {
    var P := SignText(neg) + I;
    var X := ExponentText(has, x);
    IntegerParts(SignText(neg), I, X);
    ExponentAtText(P, has, x);
    ScanIntegerAt(P + X, neg, I, if has then x else 0);
  }

  /** A literal sign? I . F X, with F nonempty and X an exponent part or nothing, scans completely. */
  lemma ScanFraction(neg: bool, I: string, F: string, has: bool, x: int)
    requires AllDigits(I) && AllDigits(F) && |I| > 0 && |F| > 0
    ensures var s := SignText(neg) + I + ("." + F) + ExponentText(has, x);
            ScanDecimal(s) == Some(Scanned(|s|, neg, DigitsValue(I + F), (if has then x else 0) - |F|))
  {
    var P := SignText(neg) + I + ("." + F);
    var X := ExponentText(has, x);
    FractionParts(SignText(neg), I, F, X);
    ExponentAtText(P, has, x);
    ScanFractionAt(P + X, neg, I, F, if has then x else 0);
  }

  /** A literal sign? LiteralText(I, F, X), with X an exponent part or nothing, scans completely. */
  lemma ScanLiteralText(neg: bool, I: string, F: string, has: bool, x: int)
    requires AllDigits(I) && AllDigits(F) && |I| > 0
    ensures var s := SignText(neg) + LiteralText(I, F, ExponentText(has, x));
            ScanDecimal(s) == Some(Scanned(|s|, neg, DigitsValue(I + F), (if has then x else 0) - |F|))
  {
    LiteralShape(SignText(neg), I, F, ExponentText(has, x));
    if |F| > 0 {
      ScanFraction(neg, I, F, has, x);
    } else {
      assert I + F == I;
      ScanInteger(neg, I, has, x);
    }
  }

  /** The literal with and without a fraction part, as concatenations. */
  lemma LiteralShape(A: string, I: string, F: string, X: string)
    ensures |F| > 0 ==> A + LiteralText(I, F, X) == A + I + ("." + F) + X
    ensures |F| == 0 ==> A + LiteralText(I, F, X) == A + I + X
  {
    if |F| > 0 {
      assert A + LiteralText(I, F, X) == A + I + ("." + F) + X;
    } else {
      assert A + LiteralText(I, F, X) == A + I + X;
    }
  }

  /** The whole of t is one decimal literal, and it denotes d. */
  predicate ScansTo(t: string, d: Dec) {
    var r := ScanDecimal(t);
    r.Some? && r.value.length == |t| && r.value.Value() == d
  }

  /** The text of a nonzero d scans back to d when its digits denote |d.m| * 10^z and its exponent is
      d.exp - z. */
  lemma LiteralScansTo(d: Dec, I: string, F: string, has: bool, x: int, z: nat)
    requires d.m != 0 && AllDigits(I) && AllDigits(F) && |I| > 0
    requires DigitsValue(I + F) == Abs(d.m) * Pow10(z)
    requires (if has then x else 0) - |F| == d.exp - z
    ensures ScansTo(SignText(d.m < 0) + LiteralText(I, F, ExponentText(has, x)), d)
  {
    var s := SignText(d.m < 0) + LiteralText(I, F, ExponentText(has, x));
    ScanLiteralText(d.m < 0, I, F, has, x);
    var sc := Scanned(|s|, d.m < 0, DigitsValue(I + F), d.exp - z);
    assert ScanDecimal(s) == Some(sc);
    SignedAbs(d.m, Pow10(z));
    NormalizeShift(d.m, d.exp - z, z);
    assert Normalize(d.m, d.exp) == d;
    assert sc.Value() == d;
  }

  lemma SignedAbs(m: int, p: nat)
    ensures Signed(m < 0, Abs(m) * p) == m * p
  {
    if m < 0 {
      assert Abs(m) * p == -(m * p);
    }
  }

  /** The text of a nonzero number: its sign and Number::toString of its magnitude. */
  function SignedText(d: Dec): string
    requires d.m != 0
  {
    SignText(d.m < 0) + MagnitudeToString(Abs(d.m), d.exp)
  }

  lemma PlainIntegerRoundTrip(d: Dec)
    requires d.m != 0 && 0 <= d.exp && |DigitString(Abs(d.m))| + d.exp <= 21
    ensures ScansTo(SignedText(d), d)
  {
    var ds := DigitString(Abs(d.m));
    var z: nat := d.exp;
    assert SignedText(d) == SignText(d.m < 0) + LiteralText(ds + Zeros(z), "", "");
    PaddedValue(0, ds, z);
    assert Zeros(0) + ds + Zeros(z) == ds + Zeros(z) + "";
    LiteralScansTo(d, ds + Zeros(z), "", false, 0, z);
  }

  lemma PlainFractionRoundTrip(d: Dec)
    requires d.m != 0 && d.exp < 0 && 0 < |DigitString(Abs(d.m))| + d.exp <= 21
    ensures ScansTo(SignedText(d), d)
  {
    var ds := DigitString(Abs(d.m));
    var n := |ds| + d.exp;
    assert SignedText(d) == SignText(d.m < 0) + LiteralText(ds[..n], ds[n..], "");
    assert ds[..n] + ds[n..] == ds;
    assert Pow10(0) == 1;
    LiteralScansTo(d, ds[..n], ds[n..], false, 0, 0);
  }

  lemma SmallFractionRoundTrip(d: Dec)
    requires d.m != 0 && -6 < |DigitString(Abs(d.m))| + d.exp <= 0
    ensures ScansTo(SignedText(d), d)
  {
    var ds := DigitString(Abs(d.m));
    var n := |ds| + d.exp;
    assert SignedText(d) == SignText(d.m < 0) + LiteralText("0", Zeros(-n) + ds, "");
    PaddedValue(1 - n, ds, 0);
    LeadingZero(-n, ds);
    LiteralScansTo(d, "0", Zeros(-n) + ds, false, 0, 0);
  }

  lemma LeadingZero(a: nat, ds: string)
    ensures Zeros(a + 1) + ds + Zeros(0) == "0" + (Zeros(a) + ds)
  {
    assert Zeros(a + 1) == "0" + Zeros(a);
    assert Zeros(0) == "";
  }

  lemma ExponentRoundTrip(d: Dec)
    requires d.m != 0
    requires var n := |DigitString(Abs(d.m))| + d.exp; n <= -6 || 21 < n
    ensures ScansTo(SignedText(d), d)
  {
    var ds := DigitString(Abs(d.m));
    var n := |ds| + d.exp;
    assert SignedText(d) == SignText(d.m < 0) + LiteralText(ds[..1], ds[1..], ExponentText(true, n - 1));
    assert ds[..1] + ds[1..] == ds;
    assert Pow10(0) == 1;
    LiteralScansTo(d, ds[..1], ds[1..], true, n - 1, 0);
  }

  /** Writing a nonzero number and scanning the text back gives the same number. */
  lemma NonZeroRoundTrip(d: Dec)
    requires d.m != 0
    ensures ScansTo(NumberToString(d), d)
  {
    var n := |DigitString(Abs(d.m))| + d.exp;
    if 0 <= d.exp && n <= 21 {
      PlainIntegerRoundTrip(d);
    } else if 0 < n <= 21 {
      PlainFractionRoundTrip(d);
    } else if -6 < n <= 0 {
      SmallFractionRoundTrip(d);
    } else {
      ExponentRoundTrip(d);
    }
  }

  /** Number::toString and the decimal scanner are inverse: the text of a number scans back,
      completely, to that number. */
  lemma ScanNumberText(d: Dec)
    ensures ScansTo(NumberToString(d), d)
  {
    if d.m == 0 {
      ScanInteger(false, "0", false, 0);
      assert SignText(false) + "0" + "" == "0";
    } else {
      NonZeroRoundTrip(d);
    }
  }

  /** The characters Number::toString can write. */
  predicate NumberChar(c: char) {
    IsDigit(c) || c == '-' || c == '.' || c == 'e' || c == '+'
  }

  /** Every character of s is one Number::toString can write. */
  predicate NumberChars(s: string) {
    forall i :: 0 <= i < |s| ==> NumberChar(s[i])
  }

  lemma NumberCharsAppend(a: string, b: string)
    requires NumberChars(a) && NumberChars(b)
    ensures NumberChars(a + b)
  {
    forall i | 0 <= i < |a + b| ensures NumberChar((a + b)[i]) {
      if i >= |a| { assert (a + b)[i] == b[i - |a|]; }
    }
  }

  lemma LiteralTextChars(I: string, F: string, X: string)
    requires AllDigits(I) && AllDigits(F) && NumberChars(X)
    ensures NumberChars(LiteralText(I, F, X))
  {
    assert NumberChars(I) && NumberChars(F) && NumberChars(".");
    NumberCharsAppend(".", F);
    var P := if |F| > 0 then "." + F else "";
    NumberCharsAppend(I, P);
    NumberCharsAppend(I + P, X);
  }

  lemma ExponentPartChars(x: int)
    ensures NumberChars(ExponentPart(x))
  {
    var ds := DigitString(Abs(x));
    var sg := if x > 0 then "+" else "-";
    assert NumberChars("e") && NumberChars(sg) && NumberChars(ds);
    NumberCharsAppend("e", sg);
    NumberCharsAppend("e" + sg, ds);
  }

  /** Number::toString writes a nonempty text of digits, signs, a point and `e` only. */
  lemma NumberTextChars(d: Dec)
    ensures |NumberToString(d)| >= 1 && NumberChars(NumberToString(d))
  {
    if d.m != 0 {
      MagnitudeChars(Abs(d.m), d.exp);
      NumberCharsAppend(SignText(d.m < 0), MagnitudeToString(Abs(d.m), d.exp));
    }
  }

  lemma MagnitudeChars(s: nat, e: int)
    requires s > 0
    ensures |MagnitudeToString(s, e)| >= 1 && NumberChars(MagnitudeToString(s, e))
  {
    var ds := DigitString(s);
    var k := |ds|;
    var n := k + e;
    if k <= n <= 21 {
      AllDigitsAppend(ds, Zeros(n - k));
      LiteralTextChars(ds + Zeros(n - k), "", "");
    } else if 0 < n <= 21 {
      LiteralTextChars(ds[..n], ds[n..], "");
    } else if -6 < n <= 0 {
      AllDigitsAppend(Zeros(-n), ds);
      LiteralTextChars("0", Zeros(-n) + ds, "");
    } else {
      ExponentPartChars(n - 1);
      LiteralTextChars(ds[..1], ds[1..], ExponentPart(n - 1));
    }
  }

  /** A text of number characters that is one whole literal reads back as its number. */
  lemma ReadLiteral(t: string, d: Dec)
    requires |t| >= 1 && NumberChars(t) && ScansTo(t, d)
    ensures StringToNumber(t) == Num(d)
    ensures ParseFloat(t) == Num(d)
  {
    assert NumberChar(t[0]) && NumberChar(t[|t| - 1]);
    assert |t| >= 2 ==> NumberChar(t[1]);
    TrimUnchanged(t);
    assert TrimStart(t) == t;
  }

  /** `Number(String(x)) == x` and `parseFloat(String(x)) == x` for every finite x. */
  lemma NumberTextRoundTrip(d: Dec)
    ensures StringToNumber(NumberToString(d)) == Num(d)
    ensures ParseFloat(NumberToString(d)) == Num(d)
  {
    ScanNumberText(d);
    NumberTextChars(d);
    ReadLiteral(NumberToString(d), d);
  }
}

=== FILE: lists.dfy ===
/** List operations of JavaScript arrays used on the editor's element lists and the history:
    `filter` and `slice(0, n)`. */
module Lists {

  /** `xs.filter(keep)`. */
  function Filter<T(==)>(xs: seq<T>, keep: T -> bool): (r: seq<T>)
    ensures |r| <= |xs|
    ensures forall i :: 0 <= i < |r| ==> keep(r[i]) && r[i] in xs
    ensures forall i :: 0 <= i < |xs| && keep(xs[i]) ==> xs[i] in r
  {
    if |xs| == 0 then []
    else (if keep(xs[0]) then [xs[0]] else []) + Filter(xs[1..], keep)
  }

  /** Filtering keeps every copy of a kept value and none of the others. */
  lemma {:induction false} FilterCount<T>(xs: seq<T>, keep: T -> bool)
    ensures forall x :: multiset(Filter(xs, keep))[x] == if keep(x) then multiset(xs)[x] else 0
  {
    if |xs| > 0 {
      FilterCount(xs[1..], keep);
      assert xs == [xs[0]] + xs[1..];
      assert multiset(xs) == multiset([xs[0]]) + multiset(xs[1..]);
      var head := if keep(xs[0]) then [xs[0]] else [];
      assert multiset(Filter(xs, keep)) == multiset(head) + multiset(Filter(xs[1..], keep));
    }
  }

  /** The elements of a appear in b in the same order. */
  predicate Subsequence<T(==)>(a: seq<T>, b: seq<T>)
    decreases |b|
  {
    if |a| == 0 then true
    else if |b| == 0 then false
    else if a[0] == b[0] then Subsequence(a[1..], b[1..])
    else Subsequence(a, b[1..])
  }

  /** Filtering keeps the order of what it keeps. */
  lemma {:induction false} FilterSubsequence<T>(xs: seq<T>, keep: T -> bool)
    ensures Subsequence(Filter(xs, keep), xs)
  {
    if |xs| > 0 {
      FilterSubsequence(xs[1..], keep);
      if keep(xs[0]) {
        assert Filter(xs, keep) == [xs[0]] + Filter(xs[1..], keep);
        assert Filter(xs, keep)[1..] == Filter(xs[1..], keep);
      } else {
        assert Filter(xs, keep) == Filter(xs[1..], keep);
        SubsequenceDrop(Filter(xs[1..], keep), xs);
      }
    }
  }

  /** A subsequence of the tail is a subsequence of the whole. */
  lemma {:induction false} SubsequenceDrop<T>(a: seq<T>, b: seq<T>)
    requires |b| > 0 && Subsequence(a, b[1..])
    ensures Subsequence(a, b)
    decreases |b|, 0
  {
    if |a| > 0 && a[0] == b[0] {
      SubsequenceTail(a, b[1..]);
    }
  }

  /** Dropping the head of a subsequence leaves a subsequence. */
  lemma {:induction false} SubsequenceTail<T>(a: seq<T>, b: seq<T>)
    requires |a| > 0 && Subsequence(a, b)
    ensures Subsequence(a[1..], b)
    decreases |b|, 1
  {
    if a[0] != b[0] {
      SubsequenceTail(a, b[1..]);
    }
    SubsequenceDrop(a[1..], b);
  }

  /** A subsequence of a suffix is a subsequence of the whole. */
  lemma {:induction false} SubsequenceSuffix<T>(a: seq<T>, b: seq<T>, n: nat)
    requires n <= |b| && Subsequence(a, b[n..])
    ensures Subsequence(a, b)
    decreases n
  {
    if n > 0 {
      assert b[1..][n - 1..] == b[n..];
      SubsequenceSuffix(a, b[1..], n - 1);
      SubsequenceDrop(a, b);
    }
  }

  /** Filtering a list whose elements are all kept changes nothing. */
  lemma {:induction false} FilterKeepsAll<T>(xs: seq<T>, keep: T -> bool)
    requires forall i :: 0 <= i < |xs| ==> keep(xs[i])
    ensures Filter(xs, keep) == xs
  {
    if |xs| > 0 {
      FilterKeepsAll(xs[1..], keep);
      assert [xs[0]] + xs[1..] == xs;
    }
  }

  /** Filtering a concatenation filters each part. */
  lemma {:induction false} FilterConcat<T>(xs: seq<T>, ys: seq<T>, keep: T -> bool)
    ensures Filter(xs + ys, keep) == Filter(xs, keep) + Filter(ys, keep)
  {
    if |xs| > 0 {
      assert (xs + ys)[1..] == xs[1..] + ys;
      FilterConcat(xs[1..], ys, keep);
    } else {
      assert xs + ys == ys;
    }
  }

  /** Nothing is kept from a sequence none of whose elements is. */
  lemma {:induction false} FilterNone<T>(xs: seq<T>, keep: T -> bool)
    requires forall i :: 0 <= i < |xs| ==> !keep(xs[i])
    ensures Filter(xs, keep) == []
  {
    if |xs| > 0 {
      FilterNone(xs[1..], keep);
    }
  }

  /** Cutting out a part none of whose elements is kept does not change what is kept. */
  lemma FilterCut<T>(xs: seq<T>, j: nat, e: nat, keep: T -> bool)
    requires j <= e <= |xs|
    requires forall i :: j <= i < e ==> !keep(xs[i])
    ensures Filter(xs[..j] + xs[e..], keep) == Filter(xs, keep)
  {
    var b := xs[j..e];
    forall i | 0 <= i < |b| ensures !keep(b[i]) {
      assert b[i] == xs[j + i];
    }
    FilterNone(b, keep);
    SplitThree(xs, j, e);
    FilterDropMiddle(xs[..j], b, xs[e..], keep);
  }

  lemma SplitThree<T>(xs: seq<T>, j: nat, e: nat)
    requires j <= e <= |xs|
    ensures xs[..j] + xs[j..e] + xs[e..] == xs
  {
  }

  lemma FilterDropMiddle<T>(a: seq<T>, b: seq<T>, c: seq<T>, keep: T -> bool)
    requires Filter(b, keep) == []
    ensures Filter(a + b + c, keep) == Filter(a + c, keep)
  {
    FilterConcat(a + b, c, keep);
    FilterConcat(a, b, keep);
    assert Filter(a, keep) + [] == Filter(a, keep);
    FilterConcat(a, c, keep);
  }

  /** Filtering twice filters once. */
  lemma FilterTwice<T>(xs: seq<T>, keep: T -> bool)
    ensures Filter(Filter(xs, keep), keep) == Filter(xs, keep)
  {
    FilterKeepsAll(Filter(xs, keep), keep);
  }

  /** `xs.slice(0, n)`. */
  function Take<T>(xs: seq<T>, n: nat): (r: seq<T>)
    ensures |r| == if |xs| <= n then |xs| else n
    ensures |xs| <= n ==> r == xs
    ensures forall i :: 0 <= i < |r| ==> r[i] == xs[i]
  {
    if |xs| <= n then xs else xs[..n]
  }
}

=== FILE: path_codec.dfy ===
/** The path-data codec of the editor: reading a `d` attribute into commands and writing commands
    back. A command is a letter of the set MLHVCSQTAZ (either case) followed by the numbers up to the
    next such letter, as in section 8.3.9 of SVG 1.1 (the path data grammar); the reader is a scan for
    command letters, not a full grammar check. */
module PathCodec {
  import opened Text
  import opened Decimal
  import opened JsNumber

  /** One path command: its letter as written (upper case absolute, lower case relative) and its
      numbers. */
  datatype PathCmd = PathCmd(kind: char, values: seq<JsNum>)

  predicate IsCommandLetter(c: char) {
    c in "MmLlHhVvCcSsQqTtAaZz"
  }

  /** A character of the separator class `[\s,]`. */
  predicate IsSeparator(c: char) {
    IsSpace(c) || c == ','
  }

  predicate LetterFree(s: string) {
    forall i :: 0 <= i < |s| ==> !IsCommandLetter(s[i])
  }

  /** Every value is a number (neither NaN nor undefined). */
  predicate AllNumbers(vs: seq<JsNum>) {
    forall k :: 0 <= k < |vs| ==> vs[k].Num?
  }

  // ---- reading ----
  // The scans are stated for any character class p; the reader instantiates p with the command
  // letters and with the separators.

  /** The end of the run, from position i of s, of characters c with p(c) == b. */
  function RunEnd(s: string, i: nat, p: char -> bool, b: bool): (j: nat)
    requires i <= |s|
    ensures i <= j <= |s|
    ensures j < |s| ==> p(s[j]) != b
    ensures i < |s| && p(s[i]) == b ==> i < j
    decreases |s| - i
  {
    if i < |s| && p(s[i]) == b then RunEnd(s, i + 1, p, b) else i
  }

  /** Every character of the run is in it. */
  lemma {:induction false} RunEndAll(s: string, i: nat, p: char -> bool, b: bool)
    requires i <= |s|
    ensures forall k :: i <= k < RunEnd(s, i, p, b) ==> p(s[k]) == b
    decreases |s| - i
  {
    if i < |s| && p(s[i]) == b {
      RunEndAll(s, i + 1, p, b);
    }
  }

  /** A run of n characters that a character outside the run (or the end) follows. */
  lemma {:induction false} RunEndOf(s: string, i: nat, n: nat, p: char -> bool, b: bool)
    requires i + n <= |s|
    requires forall k :: i <= k < i + n ==> p(s[k]) == b
    requires i + n < |s| ==> p(s[i + n]) != b
    ensures RunEnd(s, i, p, b) == i + n
    decreases n
  {
    if n > 0 {
      RunEndOf(s, i + 1, n - 1, p, b);
    }
  }

  /** Starting inside a run ends it at the same place. */
  lemma {:induction false} RunEndSkip(s: string, i: nat, n: nat, p: char -> bool, b: bool)
    requires i + n <= |s|
    requires forall k :: i <= k < i + n ==> p(s[k]) == b
    ensures RunEnd(s, i, p, b) == RunEnd(s, i + n, p, b)
    decreases n
  {
    if n > 0 {
      RunEndSkip(s, i + 1, n - 1, p, b);
    }
  }

  /** Runs do not depend on text before them: s is the text of y from position o on. */
  lemma {:induction false} RunEndShift(y: string, o: nat, s: string, i: nat, p: char -> bool, b: bool)
    requires o <= |y| && y[o..] == s && i <= |s|
    ensures RunEnd(y, o + i, p, b) == o + RunEnd(s, i, p, b)
    decreases |s| - i
  {
    if i < |s| {
      assert y[o + i] == s[i];
      if p(s[i]) == b {
        RunEndShift(y, o, s, i + 1, p, b);
      }
    }
  }

  /** A run stops at the first character outside it. */
  lemma {:induction false} RunEndBefore(s: string, i: nat, p: char -> bool, b: bool, q: nat)
    requires i <= q < |s| && p(s[q]) != b
    ensures RunEnd(s, i, p, b) <= q
    decreases q - i
  {
    if p(s[i]) == b {
      RunEndBefore(s, i + 1, p, b, q);
    }
  }

  /** A run depends only on the characters up to the one that ends it. */
  lemma {:induction false} RunEndAgree(s: string, t: string, i: nat, m: nat, p: char -> bool, b: bool)
    requires i <= m < |s| && m < |t|
    requires forall x :: i <= x <= m ==> s[x] == t[x]
    requires RunEnd(s, i, p, b) <= m
    ensures RunEnd(t, i, p, b) == RunEnd(s, i, p, b)
    decreases m - i
  {
    if p(s[i]) == b {
      RunEndAgree(s, t, i + 1, m, p, b);
    }
  }

  /** Two texts that agree up to a character that ends the run have the same run. */
  lemma RunEndAgreeBefore(s: string, t: string, i: nat, m: nat, p: char -> bool, b: bool)
    requires i <= m < |s| && m < |t|
    requires forall x :: 0 <= x <= m ==> s[x] == t[x]
    requires p(s[m]) != b
    ensures RunEnd(s, i, p, b) <= m
    ensures RunEnd(t, i, p, b) == RunEnd(s, i, p, b)
  {
    RunEndBefore(s, i, p, b, m);
    RunEndAgree(s, t, i, m, p, b);
  }

  /** `s.split(/[\s,]+/)` from position i, for the separator class sep: the pieces between maximal
      runs of separators; a separator run at either end leaves an empty piece there. */
  function SplitFrom(s: string, i: nat, sep: char -> bool): (r: seq<string>)
    requires i <= |s|
    ensures |r| >= 1
    decreases |s| - i
  {
    var a := RunEnd(s, i, sep, false);
    if a == |s| then [s[i..]]
    else [s[i..a]] + SplitFrom(s, RunEnd(s, a, sep, true), sep)
  }

  function Split(s: string): (r: seq<string>)
    ensures |r| >= 1
  {
    SplitFrom(s, 0, IsSeparator)
  }

  /** One piece and the separator run after it. */
  lemma SplitStep(s: string, i: nat, sep: char -> bool, a: nat, b: nat)
    requires i <= |s| && a == RunEnd(s, i, sep, false) && a < |s| && b == RunEnd(s, a, sep, true)
    ensures SplitFrom(s, i, sep) == [s[i..a]] + SplitFrom(s, b, sep)
  {
  }

  /** A slice of a suffix. */
  lemma SliceShift(y: string, o: nat, s: string, i: nat, j: nat)
    requires o <= |y| && y[o..] == s && i <= j <= |s|
    ensures y[o + i..o + j] == s[i..j]
  {
    forall k | 0 <= k < j - i ensures y[o + i..o + j][k] == s[i..j][k] {
      assert y[o + i + k] == y[o..][i + k];
    }
  }

  /** A suffix of a suffix. */
  lemma SuffixShift(y: string, o: nat, s: string, i: nat)
    requires o <= |y| && y[o..] == s && i <= |s|
    ensures y[o + i..] == s[i..]
  {
    assert y[o + i..] == y[o..][i..];
  }

  /** Splitting does not depend on text before the starting position. */
  lemma {:induction false} SplitShift(y: string, o: nat, s: string, i: nat, sep: char -> bool)
    requires o <= |y| && y[o..] == s && i <= |s|
    ensures SplitFrom(y, o + i, sep) == SplitFrom(s, i, sep)
    decreases |s| - i
  {
    RunEndShift(y, o, s, i, sep, false);
    var a := RunEnd(s, i, sep, false);
    if a < |s| {
      var b := RunEnd(s, a, sep, true);
      RunEndShift(y, o, s, a, sep, true);
      SliceShift(y, o, s, i, a);
      SplitStep(y, o + i, sep, o + a, o + b);
      SplitStep(s, i, sep, a, b);
      SplitShift(y, o, s, b, sep);
      SameFirst(s[i..a], s[i..a], SplitFrom(y, o + b, sep), SplitFrom(s, b, sep),
                SplitFrom(y, o + i, sep), SplitFrom(s, i, sep));
    } else {
      assert y[o + i..] == s[i..];
    }
  }

  lemma SameFirst<T>(a: T, b: T, s: seq<T>, t: seq<T>, u: seq<T>, v: seq<T>)
    requires u == [a] + s
    requires v == [b] + t
    requires a == b
    requires s == t
    ensures u == v
  {
  }

  /** `.map(Number)` */
  function ToNumbers(tokens: seq<string>): (r: seq<JsNum>)
    ensures |r| == |tokens|
    ensures forall k :: 0 <= k < |r| ==> r[k] == StringToNumber(tokens[k])
  {
    seq(|tokens|, k requires 0 <= k < |tokens| => StringToNumber(tokens[k]))
  }

  /** `.filter((n) => !isNaN(n))`: the entries that are numbers, in order. */
  function Numbers(xs: seq<JsNum>): (r: seq<JsNum>)
    ensures |r| <= |xs| && AllNumbers(r)
    ensures forall v :: v in r <==> v in xs && v.Num?
  {
    if |xs| == 0 then []
    else if xs[0].Num? then [xs[0]] + Numbers(xs[1..])
    else Numbers(xs[1..])
  }

  /** The numbers of one command: the trimmed text split at separator runs, each token read with
      `Number`, and the tokens that are not numbers dropped. */
  function ReadValues(raw: string): (r: seq<JsNum>)
    ensures AllNumbers(r)
  {
    var t := Trim(raw);
    if |t| == 0 then [] else Numbers(ToNumbers(Split(t)))
  }

  /** One match of the scan `([MmLlHhVvCcSsQqTtAaZz])([^MmLlHhVvCcSsQqTtAaZz]*)`: a command
      letter and the text up to the next command letter. */
  datatype Chunk = Chunk(letter: char, raw: string)

  /** The successive matches over d of a letter of the class letter and the text up to the next
      such letter, scanning left to right; text before the first letter is skipped. */
  function ChunksOf(d: string, letter: char -> bool): seq<Chunk>
    decreases |d|
  {
    if |d| == 0 then []
    else if !letter(d[0]) then ChunksOf(d[1..], letter)
    else
      var e := RunEnd(d, 1, letter, false);
      [Chunk(d[0], d[1..e])] + ChunksOf(d[e..], letter)
  }

  /** The matches of the command scan over d. */
  function Chunks(d: string): seq<Chunk> {
    ChunksOf(d, IsCommandLetter)
  }

  /** Each match starts with a letter. */
  lemma {:induction false} ChunksMatch(d: string, letter: char -> bool)
    ensures forall k :: 0 <= k < |ChunksOf(d, letter)| ==> letter(ChunksOf(d, letter)[k].letter)
    decreases |d|
  {
    if |d| > 0 {
      if !letter(d[0]) {
        ChunksMatch(d[1..], letter);
      } else {
        ChunksMatch(d[RunEnd(d, 1, letter, false)..], letter);
      }
    }
  }

  /** The command one match stands for. */
  function ReadChunk(ch: Chunk): (c: PathCmd)
    ensures c.kind == ch.letter && AllNumbers(c.values)
  {
    PathCmd(ch.letter, ReadValues(ch.raw))
  }

  function ReadChunks(chs: seq<Chunk>): (r: seq<PathCmd>)
    ensures |r| == |chs|
    ensures forall k :: 0 <= k < |r| ==> r[k].kind == chs[k].letter && AllNumbers(r[k].values)
  {
    if |chs| == 0 then [] else [ReadChunk(chs[0])] + ReadChunks(chs[1..])
  }

  /** `parsePath`: one command for each match of the command scan, with the numbers read from the
      matched text. */
  function Parse(d: string): (r: seq<PathCmd>)
    ensures forall k :: 0 <= k < |r| ==> IsCommandLetter(r[k].kind) && AllNumbers(r[k].values)
  {
    ChunksMatch(d, IsCommandLetter);
    ReadChunks(Chunks(d))
  }

  // ---- writing ----

  function ValueTexts(vs: seq<JsNum>): (r: seq<string>)
    ensures |r| == |vs|
    ensures forall k :: 0 <= k < |r| ==> r[k] == JoinText(vs[k])
  {
    seq(|vs|, k requires 0 <= k < |vs| => JoinText(vs[k]))
  }

  /** `values.join(" ")` */
  function ValuesText(vs: seq<JsNum>): string {
    Join(ValueTexts(vs), " ")
  }

  /** A command's letter immediately followed by its values. */
  function CommandText(c: PathCmd): string {
    [c.kind] + ValuesText(c.values)
  }

  function CommandTexts(cs: seq<PathCmd>): (r: seq<string>)
    ensures |r| == |cs|
    ensures forall k :: 0 <= k < |r| ==> r[k] == CommandText(cs[k])
  {
    seq(|cs|, k requires 0 <= k < |cs| => CommandText(cs[k]))
  }

  /** `serializePath`: the commands' texts separated by single spaces. */
  function Serialize(cs: seq<PathCmd>): string {
    Join(CommandTexts(cs), " ")
  }

  // ---- properties of the reader ----

  /** The command letters of s, in order. */
  function Letters(s: string): (r: string)
    ensures forall i :: 0 <= i < |r| ==> IsCommandLetter(r[i])
  {
    if |s| == 0 then ""
    else (if IsCommandLetter(s[0]) then [s[0]] else "") + Letters(s[1..])
  }

  function Kinds(cs: seq<PathCmd>): (r: string)
    ensures |r| == |cs|
    ensures forall k :: 0 <= k < |r| ==> r[k] == cs[k].kind
  {
    if |cs| == 0 then "" else [cs[0].kind] + Kinds(cs[1..])
  }

  /** Characters that are not command letters add no letters. */
  lemma {:induction false} LettersSkip(s: string, i: nat, j: nat)
    requires i <= j <= |s|
    requires forall k :: i <= k < j ==> IsCommandLetter(s[k]) == false
    ensures Letters(s[i..]) == Letters(s[j..])
    decreases j - i
  {
    if i < j {
      assert s[i..][1..] == s[i + 1..];
      LettersSkip(s, i + 1, j);
    }
  }

  lemma LettersAt(s: string, j: nat)
    requires j < |s| && IsCommandLetter(s[j])
    ensures Letters(s[j..]) == [s[j]] + Letters(s[j + 1..])
  {
    assert s[j..][1..] == s[j + 1..];
  }

  function ScannedLetters(chs: seq<Chunk>): string {
    if |chs| == 0 then "" else [chs[0].letter] + ScannedLetters(chs[1..])
  }

  /** The command scan finds every command letter, in order. */
  lemma {:induction false} ChunkLetters(d: string)
    ensures ScannedLetters(Chunks(d)) == Letters(d)
    decreases |d|
  {
    if |d| > 0 {
      if !IsCommandLetter(d[0]) {
        ChunkLetters(d[1..]);
      } else {
        var e := RunEnd(d, 1, IsCommandLetter, false);
        RunEndAll(d, 1, IsCommandLetter, false);
        LettersSkip(d, 1, e);
        ChunkLetters(d[e..]);
        assert d[1..][0..] == d[1..];
      }
    }
  }

  lemma {:induction false} KindsOfChunks(chs: seq<Chunk>)
    ensures Kinds(ReadChunks(chs)) == ScannedLetters(chs)
  {
    if |chs| > 0 {
      assert chs == [chs[0]] + chs[1..];
      ReadChunksCons(chs[0], chs[1..]);
      KindsOfChunks(chs[1..]);
    }
  }

  /** parsePath emits exactly one command per command letter, in the order of the letters. */
  lemma ParseKinds(d: string)
    ensures Kinds(Parse(d)) == Letters(d)
  {
    ChunkLetters(d);
    KindsOfChunks(Chunks(d));
  }

  /** Text before the first command letter is ignored. */
  lemma {:induction false} LeadingTextIgnored(junk: string, d: string)
    requires LetterFree(junk)
    ensures Parse(junk + d) == Parse(d)
    decreases |junk|
  {
    if |junk| > 0 {
      var y := junk + d;
      assert y[0] == junk[0] && y[1..] == junk[1..] + d;
      LeadingTextIgnored(junk[1..], d);
    } else {
      assert junk + d == d;
    }
  }

  /** A separator at the start of the numbers gives an empty first token, which `Number` reads as 0
      and the filter keeps. */
  lemma LeadingCommaIsZero(raw: string)
    requires |Trim(raw)| > 0 && Trim(raw)[0] == ','
    ensures |ReadValues(raw)| >= 1 && ReadValues(raw)[0] == Num(Zero)
  {
    var t := Trim(raw);
    assert RunEnd(t, 0, IsSeparator, false) == 0;
    assert Split(t)[0] == "";
    TrimUnchanged("");
    assert StringToNumber("") == Num(Zero);
    assert ToNumbers(Split(t))[0] == Num(Zero);
  }

  /** The filter keeps a list of numbers as it is. */
  lemma {:induction false} NumbersKeepsNumbers(xs: seq<JsNum>)
    requires AllNumbers(xs)
    ensures Numbers(xs) == xs
  {
    if |xs| > 0 {
      NumbersKeepsNumbers(xs[1..]);
    }
  }

  // ---- round trip ----

  /** Splitting pieces joined by single spaces gives the pieces back, when each piece is nonempty
      and free of separators and the space is one. */
  lemma {:induction false} SplitJoin(parts: seq<string>, sep: char -> bool)
    requires |parts| >= 1 && sep(' ')
    requires forall k :: 0 <= k < |parts| ==> |parts[k]| >= 1
    requires forall k, i :: 0 <= k < |parts| && 0 <= i < |parts[k]| ==> !sep(parts[k][i])
    ensures SplitFrom(Join(parts, " "), 0, sep) == parts
  {
    var p := parts[0];
    if |parts| == 1 {
      RunEndOf(p, 0, |p|, sep, false);
      assert p[0..] == p;
    } else {
      var j := Join(parts[1..], " ");
      JoinFirst(parts[1..], " ");
      var s := p + " " + j;
      assert Join(parts, " ") == s;
      forall k | 0 <= k < |p| ensures sep(s[k]) == false {
        assert s[k] == p[k];
      }
      assert s[|p|] == ' ' && s[|p| + 1] == j[0];
      RunEndOf(s, 0, |p|, sep, false);
      RunEndOf(s, |p|, 1, sep, true);
      SplitStep(s, 0, sep, |p|, |p| + 1);
      assert s == (p + " ") + j;
      assert s[|p| + 1..] == j;
      SplitShift(s, |p| + 1, j, 0, sep);
      assert s[0..|p|] == p;
      SplitJoin(parts[1..], sep);
    }
  }

  /** The text of a number, every character of which is one Number::toString writes. */
  lemma ValueTextChars(v: JsNum)
    requires v.Num?
    ensures |JoinText(v)| >= 1 && NumberChars(JoinText(v))
  {
    NumberTextChars(v.d);
  }

  /** The characters of a written value list: number characters and spaces. */
  predicate ValueChar(c: char) {
    NumberChar(c) || c == ' '
  }

  lemma ValuesTextChars(vs: seq<JsNum>)
    requires AllNumbers(vs)
    ensures forall i :: 0 <= i < |ValuesText(vs)| ==> ValueChar(ValuesText(vs)[i])
  {
    var parts := ValueTexts(vs);
    forall k, i | 0 <= k < |parts| && 0 <= i < |parts[k]| ensures ValueChar(parts[k][i]) {
      ValueTextChars(vs[k]);
    }
    JoinChars(parts, " ", ValueChar);
  }

  /** Written values contain no command letter. */
  lemma ValuesTextLetterFree(vs: seq<JsNum>)
    requires AllNumbers(vs)
    ensures LetterFree(ValuesText(vs))
  {
    var t := ValuesText(vs);
    ValuesTextChars(vs);
    forall i | 0 <= i < |t| ensures !IsCommandLetter(t[i]) {
      ValueCharNotLetter(t[i]);
    }
  }

  lemma ValueCharNotLetter(c: char)
    requires ValueChar(c)
    ensures !IsCommandLetter(c)
  {
  }

  /** Number::toString and `Number` are inverse on one value. */
  lemma ReadValueText(v: JsNum)
    requires v.Num?
    ensures StringToNumber(JoinText(v)) == v
  {
    NumberTextRoundTrip(v.d);
  }

  lemma ReadNumberTexts(vs: seq<JsNum>)
    requires AllNumbers(vs)
    ensures ToNumbers(ValueTexts(vs)) == vs
  {
    var r := ToNumbers(ValueTexts(vs));
    forall k | 0 <= k < |vs| ensures r[k] == vs[k] {
      ReadValueText(vs[k]);
    }
  }

  /** Written numbers, trimmed and split, give back the texts of the numbers. */
  lemma SplitValuesText(vs: seq<JsNum>, pad: string)
    requires AllNumbers(vs) && |vs| > 0
    requires pad == "" || pad == " "
    ensures Trim(ValuesText(vs) + pad) == ValuesText(vs)
    ensures |ValuesText(vs)| > 0
    ensures Split(ValuesText(vs)) == ValueTexts(vs)
  {
    var parts := ValueTexts(vs);
    forall k | 0 <= k < |parts| ensures |parts[k]| >= 1 && NumberChars(parts[k]) {
      ValueTextChars(vs[k]);
    }
    TrimValuesText(parts, pad);
    SplitNumberTexts(parts);
  }

  lemma TrimValuesText(parts: seq<string>, pad: string)
    requires |parts| > 0 && (pad == "" || pad == " ")
    requires forall k :: 0 <= k < |parts| ==> |parts[k]| >= 1 && NumberChars(parts[k])
    ensures |Join(parts, " ")| > 0
    ensures Trim(Join(parts, " ") + pad) == Join(parts, " ")
  {
    var t := Join(parts, " ");
    JoinFirst(parts, " ");
    JoinLast(parts, " ");
    assert NumberChar(t[0]) && NumberChar(t[|t| - 1]);
    TrimTrailingSpace(t, pad);
  }

  lemma SplitNumberTexts(parts: seq<string>)
    requires |parts| > 0
    requires forall k :: 0 <= k < |parts| ==> |parts[k]| >= 1 && NumberChars(parts[k])
    ensures Split(Join(parts, " ")) == parts
  {
    forall k, i | 0 <= k < |parts| && 0 <= i < |parts[k]| ensures !IsSeparator(parts[k][i]) {
      assert NumberChar(parts[k][i]);
    }
    assert IsSeparator(' ');
    SplitJoin(parts, IsSeparator);
  }

  /** The numbers of a command read back from their written form, also with the space that
      separates the command from the next one. */
  lemma ValuesRoundTrip(vs: seq<JsNum>, pad: string)
    requires AllNumbers(vs)
    requires pad == "" || pad == " "
    ensures ReadValues(ValuesText(vs) + pad) == vs
  {
    if |vs| == 0 {
      assert ValuesText(vs) + pad == pad;
      TrimAllSpace(pad);
    } else {
      SplitValuesText(vs, pad);
      ReadNumberTexts(vs);
      NumbersKeepsNumbers(vs);
    }
  }

  /** Commands a writer can produce text for that reads back the same: a command letter and
      numbers only. */
  predicate WellFormed(cs: seq<PathCmd>) {
    forall k :: 0 <= k < |cs| ==> IsCommandLetter(cs[k].kind) && AllNumbers(cs[k].values)
  }

  /** The scan over a letter, letter-free text and more text that starts with a letter. */
  lemma ChunksOfCommand(k: char, v: string, rest: string, letter: char -> bool)
    requires letter(k) && forall t :: 0 <= t < |v| ==> !letter(v[t])
    requires |rest| == 0 || letter(rest[0])
    ensures ChunksOf([k] + v + rest, letter) == [Chunk(k, v)] + ChunksOf(rest, letter)
  {
    var d := [k] + v + rest;
    assert d[0] == k;
    assert RunEnd(d, 1, letter, false) == 1 + |v| by {
      forall t | 1 <= t < 1 + |v| ensures letter(d[t]) == false {
        assert d[t] == v[t - 1];
      }
      assert 1 + |v| < |d| ==> d[1 + |v|] == rest[0];
      RunEndOf(d, 1, |v|, letter, false);
    }
    assert ChunksOf(d, letter) == [Chunk(d[0], d[1..1 + |v|])] + ChunksOf(d[1 + |v|..], letter);
    assert d[1..1 + |v|] == v;
    assert d[1 + |v|..] == rest;
  }

  /** Reading a command's text followed by more path text. */
  lemma ParseCommand(c: PathCmd, pad: string, rest: string)
    requires IsCommandLetter(c.kind) && AllNumbers(c.values)
    requires pad == "" || pad == " "
    requires |rest| == 0 || IsCommandLetter(rest[0])
    ensures Parse(CommandText(c) + pad + rest) == [c] + Parse(rest)
  {
    var v := ValuesText(c.values) + pad;
    CommandShape(c, pad, rest);
    ChunksOfCommand(c.kind, v, rest, IsCommandLetter);
    ReadChunksCons(Chunk(c.kind, v), Chunks(rest));
    ValuesRoundTrip(c.values, pad);
    assert PathCmd(c.kind, ReadValues(v)) == c;
  }

  lemma CommandShape(c: PathCmd, pad: string, rest: string)
    requires AllNumbers(c.values)
    requires pad == "" || pad == " "
    ensures CommandText(c) + pad + rest == [c.kind] + (ValuesText(c.values) + pad) + rest
    ensures forall t :: 0 <= t < |ValuesText(c.values) + pad| ==>
              !IsCommandLetter((ValuesText(c.values) + pad)[t])
  {
    var v := ValuesText(c.values);
    assert CommandText(c) + pad + rest == [c.kind] + (v + pad) + rest;
    ValuesTextLetterFree(c.values);
    forall t | 0 <= t < |v + pad| ensures !IsCommandLetter((v + pad)[t]) {
      if t < |v| {
        assert (v + pad)[t] == v[t];
      } else {
        assert (v + pad)[t] == ' ';
      }
    }
  }

  lemma ReadChunksCons(c: Chunk, rest: seq<Chunk>)
    ensures ReadChunks([c] + rest) == [PathCmd(c.letter, ReadValues(c.raw))] + ReadChunks(rest)
  {
    assert ([c] + rest)[0] == c;
    assert ([c] + rest)[1..] == rest;
  }

  /** `parsePath(serializePath(cs)) == cs` for commands with command letters and numbers. */
  lemma {:induction false} ParseSerialize(cs: seq<PathCmd>)
    requires WellFormed(cs)
    ensures Parse(Serialize(cs)) == cs
  {
    if |cs| == 0 {
      assert Serialize(cs) == "";
      ParseEmpty();
    } else if |cs| == 1 {
      ParseSerializeOne(cs);
    } else {
      ParseSerializeStep(cs);
      ParseSerialize(cs[1..]);
      assert [cs[0]] + cs[1..] == cs;
    }
  }

  lemma ParseEmpty()
    ensures Parse("") == []
  {
  }

  lemma ParseSerializeOne(cs: seq<PathCmd>)
    requires WellFormed(cs) && |cs| == 1
    ensures Parse(Serialize(cs)) == cs
  {
    assert Serialize(cs) == CommandText(cs[0]) + "" + "";
    ParseCommand(cs[0], "", "");
    ParseEmpty();
    assert [cs[0]] + [] == cs;
  }

  /** The first command of a longer list is read back, and reading goes on after it. */
  lemma ParseSerializeStep(cs: seq<PathCmd>)
    requires WellFormed(cs) && |cs| > 1
    ensures WellFormed(cs[1..])
    ensures Parse(Serialize(cs)) == [cs[0]] + Parse(Serialize(cs[1..]))
  {
    var rest := Serialize(cs[1..]);
    assert CommandTexts(cs)[1..] == CommandTexts(cs[1..]);
    assert Serialize(cs) == CommandText(cs[0]) + " " + rest;
    JoinFirst(CommandTexts(cs[1..]), " ");
    ParseCommand(cs[0], " ", rest);
  }

  /** Writing what was read and reading it again gives the same commands. */
  lemma ParseSerializeParse(d: string)
    ensures Parse(Serialize(Parse(d))) == Parse(d)
  {
    ParseSerialize(Parse(d));
  }
}

=== FILE: path_geometry.dfy ===
/** The geometry the editor draws over a path: walking the commands with a current point and the
    start of the current subpath, it finds the anchor points (segment end points) and the control
    handles (Bézier control points, each tethered to a point it is drawn from). */
module PathGeometry {
  import opened Decimal
  import opened Text
  import opened JsNumber
  import opened PathCodec
  import opened JsArray

  datatype Point = Point(x: JsNum, y: JsNum)

  const Origin: Point := Point(Num(Zero), Num(Zero))

  /** An end point: the command it belongs to, the index of its x value in that command's values,
      where it is, and whether the command is absolute. */
  datatype Anchor = Anchor(cmd: nat, at: nat, p: Point, absolute: bool)

  /** A control point and the point its tether line is drawn from. */
  datatype Handle = Handle(cmd: nat, at: nat, p: Point, tether: Point, absolute: bool)

  /** The current point and the start of the current subpath. */
  datatype Pen = Pen(cur: Point, start: Point)

  datatype Marks = Marks(anchors: seq<Anchor>, handles: seq<Handle>)

  const NoMarks: Marks := Marks([], [])

  /** The pen after some commands and what they drew. */
  datatype Trace = Trace(pen: Pen, marks: Marks)

  /** One value group of a command: the new current point, the anchor and the handles. */
  datatype Segment = Segment(end: Point, anchor: Anchor, handles: seq<Handle>)

  /** A coordinate: as given for an absolute command, added to the current one for a relative one. */
  function Coord(abs: bool, base: JsNum, v: JsNum): JsNum {
    if abs then v else Plus(base, v)
  }

  function PointAt(abs: bool, cur: Point, vs: seq<JsNum>, j: nat): Point {
    Point(Coord(abs, cur.x, Arg(vs, j)), Coord(abs, cur.y, Arg(vs, j + 1)))
  }

  /** The coordinate r is the value v resolved against base: v itself when absolute, base + v
      (NaN unless both are numbers) when relative. */
  predicate Resolved(abs: bool, base: JsNum, v: JsNum, r: JsNum) {
    && (abs ==> r == v)
    && (!abs ==> (r.Num? <==> base.Num? && v.Num?))
    && (!abs && r.Num? ==> r.d.Value() == base.d.Value() + v.d.Value())
  }

  /** h is a control point of command i whose position resolves the values at h.at. */
  predicate HandleFrom(h: Handle, i: nat, abs: bool, cur: Point, vs: seq<JsNum>) {
    && h.cmd == i && h.absolute == abs
    && Resolved(abs, cur.x, Arg(vs, h.at), h.p.x) && Resolved(abs, cur.y, Arg(vs, h.at + 1), h.p.y)
  }

  /** e is the end point of a group of command u whose values lie at k: H keeps y, V keeps x. */
  predicate EndFrom(u: char, abs: bool, cur: Point, vs: seq<JsNum>, k: nat, e: Point) {
    && (if u == 'V' then e.x == cur.x else Resolved(abs, cur.x, Arg(vs, k), e.x))
    && (if u == 'H' then e.y == cur.y
        else if u == 'V' then Resolved(abs, cur.y, Arg(vs, k), e.y)
        else Resolved(abs, cur.y, Arg(vs, k + 1), e.y))
  }

  /** How many values one group of the (upper-case) command takes; 0 for Z and for a letter the
      walk does not know. */
  function Stride(u: char): nat {
    if u == 'M' || u == 'L' || u == 'T' then 2
    else if u == 'H' || u == 'V' then 1
    else if u == 'C' then 6
    else if u == 'S' || u == 'Q' then 4
    else if u == 'A' then 7
    else 0
  }

  /** Where in its group the end point's values lie. */
  function AnchorOffset(u: char): nat {
    if u == 'C' then 4
    else if u == 'S' || u == 'Q' then 2
    else if u == 'A' then 5
    else 0
  }

  /** How many handles one group draws. */
  function HandleCount(u: char): nat {
    if u == 'C' then 2
    else if u == 'S' || u == 'Q' then 1
    else 0
  }

  /** One group of command i (upper-case letter u) starting at value j, from current point cur. */
  function GroupAt(i: nat, u: char, abs: bool, vs: seq<JsNum>, j: nat, cur: Point): (g: Segment)
    requires Stride(u) > 0
    ensures g.anchor == Anchor(i, j + AnchorOffset(u), g.end, abs)
    ensures |g.handles| == HandleCount(u)
    ensures HandleCount(u) > 0 ==> HandleFrom(g.handles[0], i, abs, cur, vs)
    ensures HandleCount(u) > 1 ==> HandleFrom(g.handles[1], i, abs, cur, vs)
    ensures EndFrom(u, abs, cur, vs, g.anchor.at, g.end)
    ensures u == 'C' ==> (g.handles[0].at == j && g.handles[0].tether == cur &&
                          g.handles[1].at == j + 2 && g.handles[1].tether == g.end)
    ensures u == 'S' ==> g.handles[0].at == j && g.handles[0].tether == g.end
    ensures u == 'Q' ==> g.handles[0].at == j && g.handles[0].tether == cur
  {
    if u == 'H' then
      var e := Point(Coord(abs, cur.x, Arg(vs, j)), cur.y);
      Segment(e, Anchor(i, j, e, abs), [])
    else if u == 'V' then
      var e := Point(cur.x, Coord(abs, cur.y, Arg(vs, j)));
      Segment(e, Anchor(i, j, e, abs), [])
    else if u == 'C' then
      var e := PointAt(abs, cur, vs, j + 4);
      Segment(e, Anchor(i, j + 4, e, abs),
              [Handle(i, j, PointAt(abs, cur, vs, j), cur, abs),
               Handle(i, j + 2, PointAt(abs, cur, vs, j + 2), e, abs)])
    else if u == 'S' then
      var e := PointAt(abs, cur, vs, j + 2);
      Segment(e, Anchor(i, j + 2, e, abs), [Handle(i, j, PointAt(abs, cur, vs, j), e, abs)])
    else if u == 'Q' then
      var e := PointAt(abs, cur, vs, j + 2);
      Segment(e, Anchor(i, j + 2, e, abs), [Handle(i, j, PointAt(abs, cur, vs, j), cur, abs)])
    else if u == 'A' then
      var e := PointAt(abs, cur, vs, j + 5);
      Segment(e, Anchor(i, j + 5, e, abs), [])
    else
      var e := PointAt(abs, cur, vs, j);
      Segment(e, Anchor(i, j, e, abs), [])
  }

  /** The number of groups a loop `for (j = from; j < n; j += s)` visits. */
  function Rounds(n: nat, from: nat, s: nat): nat
    requires s > 0
    decreases n - from
  {
    if from < n then 1 + Rounds(n, from + s, s) else 0
  }

  /** One group as a function of its first value index and the current point. */
  type Step = (nat, Point) -> Segment

  /** The loop over a command's n values in groups of s from value j on: each group is drawn by
      step from the current point; a move (isMove) sets the subpath start at its first group. */
  function Run(step: Step, n: nat, s: nat, isMove: bool, j: nat, pen: Pen): (t: Trace)
    requires s > 0
    ensures |t.marks.anchors| == Rounds(n, j, s)
    decreases n - j
  {
    if j < n then
      var g := step(j, pen.cur);
      var start := if isMove && j == 0 then g.end else pen.start;
      var rest := Run(step, n, s, isMove, j + s, Pen(g.end, start));
      Trace(rest.pen, Marks([g.anchor] + rest.marks.anchors, g.handles + rest.marks.handles))
    else Trace(pen, NoMarks)
  }

  /** The groups of command i, letter u. */
  function GroupStep(i: nat, u: char, abs: bool, vs: seq<JsNum>): Step
    requires Stride(u) > 0
  {
    (j: nat, cur: Point) => GroupAt(i, u, abs, vs, j, cur)
  }

  /** The groups of command i from value j on. */
  function Groups(i: nat, u: char, abs: bool, vs: seq<JsNum>, j: nat, pen: Pen): Trace
    requires Stride(u) > 0
  {
    Run(GroupStep(i, u, abs, vs), |vs|, Stride(u), u == 'M', j, pen)
  }

  /** Command i: its groups for the letters with values, back to the subpath start for Z, and
      nothing for any other letter. The letter's case says whether it is absolute. */
  function CommandTrace(i: nat, c: PathCmd, pen: Pen): (t: Trace)
    ensures UpperChar(c.kind) == 'Z' ==> t.pen.cur == pen.start && t.pen.start == pen.start && t.marks == NoMarks
    ensures UpperChar(c.kind) != 'Z' && Stride(UpperChar(c.kind)) == 0 ==> t.pen == pen && t.marks == NoMarks
  {
    var u := UpperChar(c.kind);
    if u == 'Z' then Trace(Pen(pen.start, pen.start), NoMarks)
    else if Stride(u) == 0 then Trace(pen, NoMarks)
    else Groups(i, u, c.kind == u, c.values, 0, pen)
  }

  /** The commands from index i on. */
  function Walk(cs: seq<PathCmd>, i: nat, pen: Pen): (m: Marks)
    requires i <= |cs|
    decreases |cs| - i
  {
    if i == |cs| then NoMarks
    else
      var t := CommandTrace(i, cs[i], pen);
      var rest := Walk(cs, i + 1, t.pen);
      Marks(t.marks.anchors + rest.anchors, t.marks.handles + rest.handles)
  }

  /** `getPointsAndHandles`: the walk from the origin. */
  function PointsAndHandles(cs: seq<PathCmd>): Marks {
    Walk(cs, 0, Pen(Origin, Origin))
  }

  // ---- properties of one command ----
  // Each is proved once for the loop over any step with the property it needs, then for the
  // editor's groups.

  /** The anchors a of command i, the k-th of which lies at value j + k * s + off. */
  predicate Spaced(a: seq<Anchor>, i: nat, abs: bool, j: nat, s: nat, off: nat) {
    forall k :: 0 <= k < |a| ==> a[k].cmd == i && a[k].absolute == abs && a[k].at == j + k * s + off
  }

  lemma {:induction false} RunSpaced(step: Step, n: nat, s: nat, isMove: bool, j: nat, pen: Pen,
                                     i: nat, abs: bool, off: nat)
    requires s > 0
    requires forall k: nat, c: Point :: step(k, c).anchor.cmd == i && step(k, c).anchor.absolute == abs
                            && step(k, c).anchor.at == k + off
    ensures Spaced(Run(step, n, s, isMove, j, pen).marks.anchors, i, abs, j, s, off)
    decreases n - j
  {
    if j < n {
      var g := step(j, pen.cur);
      var start := if isMove && j == 0 then g.end else pen.start;
      RunSpaced(step, n, s, isMove, j + s, Pen(g.end, start), i, abs, off);
      var a := Run(step, n, s, isMove, j, pen).marks.anchors;
      var r := Run(step, n, s, isMove, j + s, Pen(g.end, start)).marks.anchors;
      assert a == [g.anchor] + r;
      forall k | 1 <= k < |a| ensures a[k].cmd == i && a[k].absolute == abs && a[k].at == j + k * s + off {
        assert a[k] == r[k - 1];
        StepProduct(k, s);
      }
    }
  }

  lemma StepProduct(k: int, s: int)
    ensures s + (k - 1) * s == k * s
  {
  }

  /** The k-th anchor of a command's groups lies at the end-point values of the k-th group
      (value j + k * stride + offset), and belongs to command i. */
  lemma GroupAnchorsAt(i: nat, u: char, abs: bool, vs: seq<JsNum>, j: nat, pen: Pen)
    requires Stride(u) > 0
    ensures Spaced(Groups(i, u, abs, vs, j, pen).marks.anchors, i, abs, j, Stride(u), AnchorOffset(u))
  {
    RunSpaced(GroupStep(i, u, abs, vs), |vs|, Stride(u), u == 'M', j, pen, i, abs, AnchorOffset(u));
  }

  lemma {:induction false} RunHandles(step: Step, n: nat, s: nat, isMove: bool, j: nat, pen: Pen, h: nat)
    requires s > 0
    requires forall k: nat, c: Point :: |step(k, c).handles| == h
    ensures |Run(step, n, s, isMove, j, pen).marks.handles| == h * Rounds(n, j, s)
    decreases n - j
  {
    if j < n {
      var g := step(j, pen.cur);
      var start := if isMove && j == 0 then g.end else pen.start;
      RunHandles(step, n, s, isMove, j + s, Pen(g.end, start), h);
      MulSucc(h, Rounds(n, j + s, s));
    }
  }

  lemma MulSucc(h: nat, r: nat)
    ensures h + h * r == h * (1 + r)
  {
  }

  /** A command draws one anchor per group, and two handles per group of C, one per group of S
      and Q, none for the others. */
  lemma GroupCounts(i: nat, u: char, abs: bool, vs: seq<JsNum>, j: nat, pen: Pen)
    requires Stride(u) > 0
    ensures |Groups(i, u, abs, vs, j, pen).marks.anchors| == Rounds(|vs|, j, Stride(u))
    ensures |Groups(i, u, abs, vs, j, pen).marks.handles| == HandleCount(u) * Rounds(|vs|, j, Stride(u))
  {
    RunHandles(GroupStep(i, u, abs, vs), |vs|, Stride(u), u == 'M', j, pen, HandleCount(u));
  }

  /** The groups of a loop whose steps keep y: the anchors and the final point keep the y of the
      point the loop starts from. */
  lemma {:induction false} RunKeepsY(step: Step, n: nat, s: nat, isMove: bool, j: nat, pen: Pen)
    requires s > 0
    requires forall k: nat, c: Point :: step(k, c).end.y == c.y && step(k, c).anchor.p == step(k, c).end
    ensures var t := Run(step, n, s, isMove, j, pen);
            t.pen.cur.y == pen.cur.y && forall k :: 0 <= k < |t.marks.anchors| ==> t.marks.anchors[k].p.y == pen.cur.y
    decreases n - j
  {
    if j < n {
      var g := step(j, pen.cur);
      var start := if isMove && j == 0 then g.end else pen.start;
      RunKeepsY(step, n, s, isMove, j + s, Pen(g.end, start));
    }
  }

  lemma {:induction false} RunKeepsX(step: Step, n: nat, s: nat, isMove: bool, j: nat, pen: Pen)
    requires s > 0
    requires forall k: nat, c: Point :: step(k, c).end.x == c.x && step(k, c).anchor.p == step(k, c).end
    ensures var t := Run(step, n, s, isMove, j, pen);
            t.pen.cur.x == pen.cur.x && forall k :: 0 <= k < |t.marks.anchors| ==> t.marks.anchors[k].p.x == pen.cur.x
    decreases n - j
  {
    if j < n {
      var g := step(j, pen.cur);
      var start := if isMove && j == 0 then g.end else pen.start;
      RunKeepsX(step, n, s, isMove, j + s, Pen(g.end, start));
    }
  }

  /** An H command moves along x only: every anchor keeps the y of the current point it starts
      from, and so does the current point after it. */
  lemma HorizontalKeepsY(i: nat, abs: bool, vs: seq<JsNum>, j: nat, pen: Pen)
    ensures var t := Groups(i, 'H', abs, vs, j, pen);
            t.pen.cur.y == pen.cur.y && forall k :: 0 <= k < |t.marks.anchors| ==> t.marks.anchors[k].p.y == pen.cur.y
  {
    RunKeepsY(GroupStep(i, 'H', abs, vs), |vs|, 1, false, j, pen);
  }

  /** A V command moves along y only. */
  lemma VerticalKeepsX(i: nat, abs: bool, vs: seq<JsNum>, j: nat, pen: Pen)
    ensures var t := Groups(i, 'V', abs, vs, j, pen);
            t.pen.cur.x == pen.cur.x && forall k :: 0 <= k < |t.marks.anchors| ==> t.marks.anchors[k].p.x == pen.cur.x
  {
    RunKeepsX(GroupStep(i, 'V', abs, vs), |vs|, 1, false, j, pen);
  }

  lemma {:induction false} RunEndsAtLast(step: Step, n: nat, s: nat, isMove: bool, j: nat, pen: Pen)
    requires s > 0
    requires forall k: nat, c: Point :: step(k, c).anchor.p == step(k, c).end
    ensures var t := Run(step, n, s, isMove, j, pen);
            if |t.marks.anchors| == 0 then t.pen == pen
            else t.pen.cur == t.marks.anchors[|t.marks.anchors| - 1].p
    decreases n - j
  {
    if j < n {
      var g := step(j, pen.cur);
      var start := if isMove && j == 0 then g.end else pen.start;
      RunEndsAtLast(step, n, s, isMove, j + s, Pen(g.end, start));
    }
  }

  /** After a command's groups the current point is its last anchor, or unchanged when there was
      no group. */
  lemma EndsAtLastAnchor(i: nat, u: char, abs: bool, vs: seq<JsNum>, j: nat, pen: Pen)
    requires Stride(u) > 0
    ensures var t := Groups(i, u, abs, vs, j, pen);
            if |t.marks.anchors| == 0 then t.pen == pen
            else t.pen.cur == t.marks.anchors[|t.marks.anchors| - 1].p
  {
    RunEndsAtLast(GroupStep(i, u, abs, vs), |vs|, Stride(u), u == 'M', j, pen);
  }

  lemma {:induction false} RunStart(step: Step, n: nat, s: nat, isMove: bool, j: nat, pen: Pen)
    requires s > 0
    requires forall k: nat, c: Point :: step(k, c).anchor.p == step(k, c).end
    ensures var t := Run(step, n, s, isMove, j, pen);
            if isMove && j == 0 && j < n then t.pen.start == t.marks.anchors[0].p
            else t.pen.start == pen.start
    decreases n - j
  {
    if j < n {
      var g := step(j, pen.cur);
      var start := if isMove && j == 0 then g.end else pen.start;
      RunStart(step, n, s, isMove, j + s, Pen(g.end, start));
    }
  }

  /** Only the first pair of an M command starts a subpath; any other group leaves the subpath
      start as it was. */
  lemma SubpathStart(i: nat, u: char, abs: bool, vs: seq<JsNum>, j: nat, pen: Pen)
    requires Stride(u) > 0
    ensures var t := Groups(i, u, abs, vs, j, pen);
            if u == 'M' && j == 0 && |vs| > 0 then t.pen.start == t.marks.anchors[0].p
            else t.pen.start == pen.start
  {
    RunStart(GroupStep(i, u, abs, vs), |vs|, Stride(u), u == 'M', j, pen);
  }

  lemma {:induction false} RunIgnoresPen(step: Step, n: nat, s: nat, isMove: bool, j: nat, p: Pen, q: Pen)
    requires s > 0
    requires forall k: nat, c: Point, c': Point :: step(k, c).anchor == step(k, c').anchor
    ensures Run(step, n, s, isMove, j, p).marks.anchors == Run(step, n, s, isMove, j, q).marks.anchors
    decreases n - j
  {
    if j < n {
      var g := step(j, p.cur);
      var h := step(j, q.cur);
      var sp := if isMove && j == 0 then g.end else p.start;
      var sq := if isMove && j == 0 then h.end else q.start;
      RunIgnoresPen(step, n, s, isMove, j + s, Pen(g.end, sp), Pen(h.end, sq));
    }
  }

  /** The anchors of an absolute command other than H and V are where its values say, wherever
      the pen was. */
  lemma AbsoluteIgnoresPen(i: nat, u: char, vs: seq<JsNum>, j: nat, p: Pen, q: Pen)
    requires Stride(u) > 0 && u != 'H' && u != 'V'
    ensures Groups(i, u, true, vs, j, p).marks.anchors == Groups(i, u, true, vs, j, q).marks.anchors
  {
    var step := GroupStep(i, u, true, vs);
    forall k: nat, c: Point, c': Point ensures step(k, c).anchor == step(k, c').anchor {
      AbsoluteGroup(i, u, vs, k, c, c');
    }
    RunIgnoresPen(step, |vs|, Stride(u), u == 'M', j, p, q);
  }

  lemma AbsoluteGroup(i: nat, u: char, vs: seq<JsNum>, j: nat, c: Point, c': Point)
    requires Stride(u) > 0 && u != 'H' && u != 'V'
    ensures GroupAt(i, u, true, vs, j, c).anchor == GroupAt(i, u, true, vs, j, c').anchor
  {
  }

  // ---- properties of the whole walk ----

  /** a comes before b: an earlier command, or the same command and an earlier value. */
  predicate Before(a: Anchor, b: Anchor) {
    a.cmd < b.cmd || (a.cmd == b.cmd && a.at < b.at)
  }

  predicate Ordered(anchors: seq<Anchor>) {
    forall a, b :: 0 <= a < b < |anchors| ==> Before(anchors[a], anchors[b])
  }

  /** The anchors of one command are in value order and belong to it. */
  lemma CommandAnchors(i: nat, c: PathCmd, pen: Pen)
    ensures var a := CommandTrace(i, c, pen).marks.anchors;
            Ordered(a) && forall k :: 0 <= k < |a| ==> a[k].cmd == i
  {
    var u := UpperChar(c.kind);
    if u != 'Z' && Stride(u) > 0 {
      GroupAnchorsAt(i, u, c.kind == u, c.values, 0, pen);
      var a := CommandTrace(i, c, pen).marks.anchors;
      assert a == Groups(i, u, c.kind == u, c.values, 0, pen).marks.anchors;
      forall x, y | 0 <= x < y < |a| ensures Before(a[x], a[y]) {
        StepOrder(x, y, Stride(u));
      }
    }
  }

  lemma StepOrder(x: nat, y: nat, s: nat)
    requires x < y && s > 0
    ensures x * s < y * s
  {
  }

  /** Anchors come out in path order, each naming a command of the path: an anchor is identified
      by its command and value index. */
  lemma {:induction false} WalkOrdered(cs: seq<PathCmd>, i: nat, pen: Pen)
    requires i <= |cs|
    ensures var a := Walk(cs, i, pen).anchors;
            Ordered(a) && forall k :: 0 <= k < |a| ==> i <= a[k].cmd < |cs|
    decreases |cs| - i
  {
    if i < |cs| {
      var t := CommandTrace(i, cs[i], pen);
      CommandAnchors(i, cs[i], pen);
      WalkOrdered(cs, i + 1, t.pen);
      OrderedAppend(t.marks.anchors, Walk(cs, i + 1, t.pen).anchors, i, |cs|);
    }
  }

  /** A command's anchors followed by the anchors of later commands. */
  lemma OrderedAppend(h: seq<Anchor>, r: seq<Anchor>, i: nat, n: nat)
    requires i < n
    requires Ordered(h) && forall k :: 0 <= k < |h| ==> h[k].cmd == i
    requires Ordered(r) && forall k :: 0 <= k < |r| ==> i + 1 <= r[k].cmd < n
    ensures Ordered(h + r) && forall k :: 0 <= k < |h + r| ==> i <= (h + r)[k].cmd < n
  {
    var a := h + r;
    forall x, y | 0 <= x < y < |a| ensures Before(a[x], a[y]) {
      if y < |h| {
        assert a[x] == h[x] && a[y] == h[y];
      } else if x >= |h| {
        assert a[x] == r[x - |h|] && a[y] == r[y - |h|];
      } else {
        assert a[x] == h[x] && a[y] == r[y - |h|];
      }
    }
    forall k | 0 <= k < |a| ensures i <= a[k].cmd < n {
      if k >= |h| {
        assert a[k] == r[k - |h|];
      }
    }
  }

  /** `getPointsAndHandles` lists anchors in path order. */
  lemma PointsOrdered(cs: seq<PathCmd>)
    ensures var a := PointsAndHandles(cs).anchors;
            Ordered(a) && forall k :: 0 <= k < |a| ==> a[k].cmd < |cs|
  {
    WalkOrdered(cs, 0, Pen(Origin, Origin));
  }
}

=== FILE: point_drag.dfy ===
/** Dragging one point of a path. A mousedown on an anchor or handle reads the path's `d` text,
    keeps the values the point had and a private copy of the commands; every pointer move writes
    the start values plus the pointer's displacement into that copy and the path gets the copy's
    text. The displacement (dx, dy) is given in document units. */
module PointDrag {
  import opened Wrappers
  import opened Text
  import opened Decimal
  import opened JsNumber
  import opened JsArray
  import opened PathCodec
  import opened PathGeometry

  /** A drag in progress: the dragged command and value index, the values the point had when the
      drag began, the commands being rewritten, and whether the command is an H or a V (which
      carry one coordinate instead of a pair). */
  datatype Session = Session(cmdIndex: nat, valueIndex: nat, origX: JsNum, origY: JsNum,
                             commands: seq<PathCmd>, horizontal: bool, vertical: bool)
  {
    predicate Valid() {
      cmdIndex < |commands|
    }
  }

  /** The mousedown on the point at value valueIndex of command cmdIndex, over the path text d.
      None when d is empty or missing (`!currentD`) and when there is no such command (reading
      the type of an undefined command throws, so no drag begins). */
  function Start(d: string, cmdIndex: nat, valueIndex: nat): (s: Option<Session>)
    ensures s.None? <==> d == "" || cmdIndex >= |Parse(d)|
    ensures s.Some? ==> s.value.Valid() && s.value.commands == Parse(d)
  {
    if d == "" then None
    else
      var cs := Parse(d);
      if cmdIndex >= |cs| then None
      else
        var c := cs[cmdIndex];
        var u := UpperChar(c.kind);
        var x := Arg(c.values, valueIndex);
        var y := if u == 'H' then Num(Zero) else if u == 'V' then x else Arg(c.values, valueIndex + 1);
        Some(Session(cmdIndex, valueIndex, x, y, cs, u == 'H', u == 'V'))
  }

  /** The values of the dragged command after writing x (H), y (V) or the pair (any other). */
  function Rewrite(vs: seq<JsNum>, i: nat, horizontal: bool, vertical: bool, x: JsNum, y: JsNum): seq<JsNum> {
    if horizontal then SetValue(vs, i, x)
    else if vertical then SetValue(vs, i, y)
    else SetPair(vs, i, x, y)
  }

  /** One pointer move, (dx, dy) away from where the drag began. */
  function Move(s: Session, dx: Dec, dy: Dec): (s': Session)
    requires s.Valid()
    ensures s'.Valid()
  {
    var c := s.commands[s.cmdIndex];
    var vs := Rewrite(c.values, s.valueIndex, s.horizontal, s.vertical,
                      Plus(s.origX, Num(dx)), Plus(s.origY, Num(dy)));
    s.(commands := s.commands[s.cmdIndex := PathCmd(c.kind, vs)])
  }

  /** The `d` text the path gets after a move. */
  function MoveText(s: Session, dx: Dec, dy: Dec): string
    requires s.Valid()
  {
    Serialize(Move(s, dx, dy).commands)
  }

  /** The values a move writes, for the point of a session that started on command c. */
  predicate WritesOf(s: Session, vs: seq<JsNum>, vs': seq<JsNum>, dx: Dec, dy: Dec) {
    var i := s.valueIndex;
    if s.horizontal || s.vertical then
      && |vs'| == (if i < |vs| then |vs| else i + 1)
      && Arg(vs', i) == (if s.horizontal then Plus(s.origX, Num(dx)) else Plus(s.origY, Num(dy)))
      && forall k :: 0 <= k < |vs'| && k != i ==> vs'[k] == Arg(vs, k)
    else
      && |vs'| == (if i + 1 < |vs| then |vs| else i + 2)
      && Arg(vs', i) == Plus(s.origX, Num(dx)) && Arg(vs', i + 1) == Plus(s.origY, Num(dy))
      && forall k :: 0 <= k < |vs'| && k != i && k != i + 1 ==> vs'[k] == Arg(vs, k)
  }

  /** A move rewrites only the dragged command, keeps its letter, and within it writes the start
      value plus dx into an H, the start value plus dy into a V, and the pair into any other
      command; every other value reads as before (a hole reads as undefined). */
  lemma MoveIsolated(s: Session, dx: Dec, dy: Dec)
    requires s.Valid()
    ensures |Move(s, dx, dy).commands| == |s.commands|
    ensures forall k :: 0 <= k < |s.commands| && k != s.cmdIndex ==>
              Move(s, dx, dy).commands[k] == s.commands[k]
    ensures Move(s, dx, dy).commands[s.cmdIndex].kind == s.commands[s.cmdIndex].kind
    ensures WritesOf(s, s.commands[s.cmdIndex].values, Move(s, dx, dy).commands[s.cmdIndex].values, dx, dy)
  {
    var c := s.commands[s.cmdIndex];
    PairWrite(c.values, s.valueIndex, Plus(s.origX, Num(dx)), Plus(s.origY, Num(dy)));
  }

  /** Started on an H, a drag writes x from dx only; on a V, y from dy only; the written value is
      the one the point had plus the displacement. */
  lemma StartedDragWrites(d: string, cmdIndex: nat, valueIndex: nat, dx: Dec, dy: Dec)
    requires Start(d, cmdIndex, valueIndex).Some?
    ensures var s := Start(d, cmdIndex, valueIndex).value;
            var c := Parse(d)[cmdIndex];
            var vs' := Move(s, dx, dy).commands[cmdIndex].values;
            && (UpperChar(c.kind) == 'H' ==> Arg(vs', valueIndex) == Plus(Arg(c.values, valueIndex), Num(dx)))
            && (UpperChar(c.kind) == 'V' ==> Arg(vs', valueIndex) == Plus(Arg(c.values, valueIndex), Num(dy)))
            && (UpperChar(c.kind) != 'H' && UpperChar(c.kind) != 'V' ==>
                  Arg(vs', valueIndex) == Plus(Arg(c.values, valueIndex), Num(dx)) &&
                  Arg(vs', valueIndex + 1) == Plus(Arg(c.values, valueIndex + 1), Num(dy)))
  {
    var s := Start(d, cmdIndex, valueIndex).value;
    MoveIsolated(s, dx, dy);
  }

  /** A move replaces whatever an earlier move of the same drag wrote. */
  lemma MoveTwice(s: Session, dx: Dec, dy: Dec, dx': Dec, dy': Dec)
    requires s.Valid()
    ensures Move(Move(s, dx, dy), dx', dy') == Move(s, dx', dy')
  {
    var c := s.commands[s.cmdIndex];
    var x, y := Plus(s.origX, Num(dx)), Plus(s.origY, Num(dy));
    var x', y' := Plus(s.origX, Num(dx')), Plus(s.origY, Num(dy'));
    if s.horizontal {
      Overwrite(c.values, s.valueIndex, x, x');
    } else if s.vertical {
      Overwrite(c.values, s.valueIndex, y, y');
    } else {
      OverwritePair(c.values, s.valueIndex, x, y, x', y');
    }
  }

  /** A pointer position relative to where the drag began. */
  datatype Delta = Delta(dx: Dec, dy: Dec)

  /** The session after the moves of a drag, in order. */
  function Moves(s: Session, ms: seq<Delta>): (s': Session)
    requires s.Valid()
    ensures s'.Valid()
    decreases |ms|
  {
    if |ms| == 0 then s else Moves(Move(s, ms[0].dx, ms[0].dy), ms[1..])
  }

  /** Because every move starts from the values the point had at mousedown, the path after a drag
      depends on the last pointer position only. */
  lemma {:induction false} LastMoveWins(s: Session, ms: seq<Delta>)
    requires s.Valid() && |ms| >= 1
    ensures Moves(s, ms) == Move(s, ms[|ms| - 1].dx, ms[|ms| - 1].dy)
    decreases |ms|
  {
    if |ms| > 1 {
      var s1 := Move(s, ms[0].dx, ms[0].dy);
      LastMoveWins(s1, ms[1..]);
      MoveTwice(s, ms[0].dx, ms[0].dy, ms[|ms| - 1].dx, ms[|ms| - 1].dy);
    }
  }

  /** When the dragged values exist, the path's new text reads back as the rewritten commands:
      the drag changes only the dragged point. */
  lemma MoveTextReadsBack(d: string, cmdIndex: nat, valueIndex: nat, dx: Dec, dy: Dec)
    requires Start(d, cmdIndex, valueIndex).Some?
    requires var c := Parse(d)[cmdIndex];
             var u := UpperChar(c.kind);
             valueIndex < |c.values| && (u == 'H' || u == 'V' || valueIndex + 1 < |c.values|)
    ensures var s := Start(d, cmdIndex, valueIndex).value;
            Parse(MoveText(s, dx, dy)) == Move(s, dx, dy).commands
  {
    var s := Start(d, cmdIndex, valueIndex).value;
    MovedWellFormed(d, cmdIndex, valueIndex, dx, dy);
    ParseSerialize(Move(s, dx, dy).commands);
  }

  /** Such a drag writes numbers only, so the commands stay well formed. */
  lemma MovedWellFormed(d: string, cmdIndex: nat, valueIndex: nat, dx: Dec, dy: Dec)
    requires Start(d, cmdIndex, valueIndex).Some?
    requires var c := Parse(d)[cmdIndex];
             var u := UpperChar(c.kind);
             valueIndex < |c.values| && (u == 'H' || u == 'V' || valueIndex + 1 < |c.values|)
    ensures WellFormed(Move(Start(d, cmdIndex, valueIndex).value, dx, dy).commands)
  {
    var s := Start(d, cmdIndex, valueIndex).value;
    var cs := Move(s, dx, dy).commands;
    MoveIsolated(s, dx, dy);
    var vs := s.commands[cmdIndex].values;
    var vs' := cs[cmdIndex].values;
    assert AllNumbers(vs);
    MovedNumbers(s, vs, vs', dx, dy);
    OneCommandChanged(s.commands, cs, cmdIndex);
  }

  /** Changing the values of one command to numbers, and nothing else, keeps commands well formed. */
  lemma OneCommandChanged(cs: seq<PathCmd>, cs': seq<PathCmd>, i: nat)
    requires WellFormed(cs) && |cs'| == |cs| && i < |cs|
    requires forall k :: 0 <= k < |cs| && k != i ==> cs'[k] == cs[k]
    requires cs'[i].kind == cs[i].kind && AllNumbers(cs'[i].values)
    ensures WellFormed(cs')
  {
  }

  /** Written over numbers, the values of the dragged command are numbers. */
  lemma MovedNumbers(s: Session, vs: seq<JsNum>, vs': seq<JsNum>, dx: Dec, dy: Dec)
    requires AllNumbers(vs) && s.origX.Num? && s.origY.Num?
    requires s.valueIndex < |vs| && (s.horizontal || s.vertical || s.valueIndex + 1 < |vs|)
    requires WritesOf(s, vs, vs', dx, dy)
    ensures AllNumbers(vs')
  {
    forall k | 0 <= k < |vs'| ensures vs'[k].Num? {
    }
  }

  // ---- the dragged point on the canvas ----

  /** Adding a displacement to a value moves the coordinate it resolves to by the same amount,
      for an absolute and for a relative command alike. */
  lemma ResolvedShift(abs: bool, base: JsNum, v: JsNum, r: JsNum, delta: Dec, r': JsNum)
    requires Resolved(abs, base, v, r) && Resolved(abs, base, Plus(v, Num(delta)), r')
    ensures Shifted(r, r', delta.Value())
  {
  }

  /** Dragging the end point of a group (value index k, the anchor the editor draws) by (dx, dy)
      moves that anchor by (dx, dy) on the canvas; an H anchor keeps its y and a V anchor its x. */
  lemma AnchorFollowsDrag(i: nat, u: char, abs: bool, vs: seq<JsNum>, j: nat, cur: Point, dx: Dec, dy: Dec)
    requires Stride(u) > 0
    ensures var k := j + AnchorOffset(u);
            var x := Arg(vs, k);
            var y := if u == 'H' then Num(Zero) else if u == 'V' then x else Arg(vs, k + 1);
            var vs' := Rewrite(vs, k, u == 'H', u == 'V', Plus(x, Num(dx)), Plus(y, Num(dy)));
            var e := GroupAt(i, u, abs, vs, j, cur).end;
            var e' := GroupAt(i, u, abs, vs', j, cur).end;
            && Shifted(e.x, e'.x, if u == 'V' then 0.0 else dx.Value())
            && Shifted(e.y, e'.y, if u == 'H' then 0.0 else dy.Value())
  {
    var k := j + AnchorOffset(u);
    var x := Arg(vs, k);
    var y := if u == 'H' then Num(Zero) else if u == 'V' then x else Arg(vs, k + 1);
    var vs' := Rewrite(vs, k, u == 'H', u == 'V', Plus(x, Num(dx)), Plus(y, Num(dy)));
    var e := GroupAt(i, u, abs, vs, j, cur).end;
    var e' := GroupAt(i, u, abs, vs', j, cur).end;
    PairWrite(vs, k, Plus(x, Num(dx)), Plus(y, Num(dy)));
    if u == 'H' {
      ResolvedShift(abs, cur.x, x, e.x, dx, e'.x);
    } else if u == 'V' {
      ResolvedShift(abs, cur.y, x, e.y, dy, e'.y);
    } else {
      ResolvedShift(abs, cur.x, x, e.x, dx, e'.x);
      ResolvedShift(abs, cur.y, y, e.y, dy, e'.y);
    }
  }
}

=== FILE: route.dfy ===
/** The generation endpoint: it reads the form, rejects malformed requests in a fixed order, asks
    the model for SVG code and answers with the document it finds in the reply. The model call, the
    image downloads and the logging are left out; the model's streamed reply, or the message of
    what it threw, is a parameter. */
module GenerateRoute {
  import opened Wrappers
  import opened Text
  import SvgText
  import JsNumber

  const MaxPromptLength := 5000
  const MaxFileSize := 10 * 1024 * 1024
  const AllowedImageTypes: seq<string> :=
    ["image/jpeg", "image/png", "image/webp", "image/gif", "image/svg+xml"]

  const TextMode := "text-to-image"
  const EditMode := "image-editing"

  lemma ModesDiffer()
    ensures TextMode != EditMode
  {
    assert TextMode[0] != EditMode[0];
  }

  // ---- aspect ratios ----

  datatype Dims = Dims(width: nat, height: nat)

  const Square := Dims(800, 800)

  /** The viewBox size each aspect-ratio name stands for. */
  const AspectRatios: map<string, Dims> := map[
    "square" := Dims(800, 800),
    "portrait" := Dims(450, 800),
    "landscape" := Dims(800, 450),
    "wide" := Dims(800, 343),
    "4:3" := Dims(800, 600),
    "3:2" := Dims(800, 533),
    "2:3" := Dims(533, 800),
    "3:4" := Dims(600, 800),
    "5:4" := Dims(800, 640),
    "4:5" := Dims(640, 800)]

  /** The names an object literal inherits from `Object.prototype`; looking one of them up in the
      table yields a function (or, for `__proto__`, the prototype itself), never a size. */
  const PrototypeKeys: set<string> := {
    "constructor", "__proto__", "toString", "toLocaleString", "valueOf", "hasOwnProperty",
    "isPrototypeOf", "propertyIsEnumerable", "__defineGetter__", "__defineSetter__",
    "__lookupGetter__", "__lookupSetter__"}

  /** `(formData.get("aspectRatio") as string) || "square"` */
  function AspectKey(field: Option<string>): (key: string)
    ensures key != ""
    ensures field.Some? && field.value != "" ==> key == field.value
  {
    if field.Some? && field.value != "" then field.value else "square"
  }

  /** `ASPECT_RATIO_DIMENSIONS[key] || ASPECT_RATIO_DIMENSIONS["square"]` as written: a listed name
      gives its size, an inherited name gives a truthy value with no size (None), and any other
      name falls back to the square. */
  function LookupAsWritten(key: string): Option<Dims> {
    if key in AspectRatios then Some(AspectRatios[key])
    else if key in PrototypeKeys then None
    else Some(Square)
  }

  /** The lookup as evidently intended: a listed name gives its size, any other name the square. */
  function Dimensions(key: string): (d: Dims)
    ensures d in AspectRatios.Values
    ensures key !in AspectRatios ==> d == Square
  {
    assert AspectRatios["square"] == Square;
    if key in AspectRatios then AspectRatios[key] else Square
  }

  /** The text of `viewBox="0 0 ${dims.width} ${dims.height}"` between the quotes. */
  function ViewBoxText(d: Dims): string {
    "0 0 " + JsNumber.DigitString(d.width) + " " + JsNumber.DigitString(d.height)
  }

  /** The same text when the lookup gave a value with no size: both numbers read `undefined`. */
  function ViewBoxAsWritten(d: Option<Dims>): string {
    if d.Some? then ViewBoxText(d.value) else "0 0 undefined undefined"
  }

  /** Every listed size is a size a viewBox can use. */
  lemma ListedSizes(key: string)
    ensures 343 <= Dimensions(key).width <= 800 && 343 <= Dimensions(key).height <= 800
  {
  }

  /** The written lookup fails for exactly the inherited names, and agrees with the intended one on
      every other name. */
  lemma LookupAgrees(key: string)
    ensures LookupAsWritten(key).None? <==> key in PrototypeKeys
    ensures key !in PrototypeKeys ==> LookupAsWritten(key) == Some(Dimensions(key))
  {
    assert forall k :: k in PrototypeKeys ==> k !in AspectRatios;
  }

  /** An aspect ratio of `constructor` reaches the model as `viewBox="0 0 undefined undefined"`. */
  lemma InheritedNameLosesSize()
    ensures AspectKey(Some("constructor")) == "constructor"
    ensures ViewBoxAsWritten(LookupAsWritten("constructor")) == "0 0 undefined undefined"
  {
  }

  /** With the intended lookup, every viewBox sent to the model is made of digits and spaces. */
  lemma ViewBoxIsNumeric(key: string)
    ensures forall i :: 0 <= i < |ViewBoxText(Dimensions(key))| ==>
              var c := ViewBoxText(Dimensions(key))[i]; IsDigit(c) || c == ' '
  {
    var d := Dimensions(key);
    var w, h := JsNumber.DigitString(d.width), JsNumber.DigitString(d.height);
    var t := ViewBoxText(d);
    assert t == "0 0 " + w + " " + h;
    forall i | 0 <= i < |t| ensures IsDigit(t[i]) || t[i] == ' ' {
      if 4 <= i < 4 + |w| {
        assert t[i] == w[i - 4];
      } else if 5 + |w| <= i {
        assert t[i] == h[i - 5 - |w|];
      }
    }
  }

  // ---- the form ----

  /** A file from the form: its size in bytes, its MIME type and its name. */
  datatype File = File(size: nat, mimeType: string, name: string)

  /** A form value: text, or an uploaded file. */
  datatype Entry = Text(text: string) | Upload(file: File)

  /** The fields the endpoint reads; None is a field the form does not have. */
  datatype Form = Form(
    mode: Option<string>,
    prompt: Option<string>,
    aspectRatio: Option<string>,
    image1: Option<Entry>,
    image2: Option<Entry>,
    image1Url: Option<string>,
    image2Url: Option<string>)

  /** JavaScript truthiness of a text field: present and not empty. */
  predicate Given(field: Option<string>) {
    field.Some? && field.value != ""
  }

  /** JavaScript truthiness of an image field: a file object always, text when not empty. */
  predicate Attached(field: Option<Entry>) {
    field.Some? && (field.value.Upload? || field.value.text != "")
  }

  /** `String.prototype.length`: UTF-16 code units, two for a character outside the Basic
      Multilingual Plane. */
  function Utf16Length(s: string): (n: nat)
    ensures |s| <= n <= 2 * |s|
  {
    if |s| == 0 then 0
    else (if s[0] as int >= 0x1_0000 then 2 else 1) + Utf16Length(s[1..])
  }

  /** The UTF-16 length equals the number of characters exactly when none lies outside the Basic
      Multilingual Plane. */
  lemma {:induction false} Utf16LengthBmp(s: string)
    ensures Utf16Length(s) == |s| <==> forall i :: 0 <= i < |s| ==> s[i] as int < 0x1_0000
  {
    if |s| > 0 {
      Utf16LengthBmp(s[1..]);
      assert forall i :: 1 <= i < |s| ==> s[i] == s[1..][i - 1];
    }
  }

  /** The UTF-16 length of a concatenation is the sum of the lengths. */
  lemma {:induction false} Utf16Append(a: string, b: string)
    ensures Utf16Length(a + b) == Utf16Length(a) + Utf16Length(b)
  {
    if |a| > 0 {
      assert (a + b)[1..] == a[1..] + b;
      Utf16Append(a[1..], b);
    } else {
      assert a + b == b;
    }
  }

  /** The UTF-16 length of a text is that of its first k characters plus that of the rest. */
  lemma {:induction false} Utf16Split(s: string, k: nat)
    requires k <= |s|
    ensures Utf16Length(s) == Utf16Length(s[..k]) + Utf16Length(s[k..])
  {
    if k == 0 {
      assert s[k..] == s;
    } else {
      Utf16Split(s[1..], k - 1);
      assert s[1..][k - 1..] == s[k..];
      assert s[..k][1..] == s[1..][..k - 1];
    }
  }

  // ---- responses ----

  datatype Body =
    | Failure(error: string, details: Option<string>)
    | Svg(svgCode: string, prompt: string)

  datatype Response = Response(status: nat, body: Body)

  function BadRequest(error: string): Response {
    Response(400, Failure(error, None))
  }

  const InvalidMode := Response(400, Failure("Invalid mode", Some("Mode must be 'text-to-image' or 'image-editing'")))

  /** The checks on one image field: a file must be at most 10 MiB and of an allowed type; text in a
      file field has neither a size nor a type, so it fails the type check. */
  function ImageProblem(n: string, field: Option<Entry>): (r: Option<Response>)
    ensures r.None? <==> ImageAcceptable(field)
    ensures r.Some? ==> r.value.body.Failure? && r.value == BadRequest(r.value.body.error)
  {
    if !Attached(field) then None
    else match field.value
      case Upload(f) =>
        if f.size > MaxFileSize then Some(BadRequest("Image " + n + " too large. Maximum 10MB allowed."))
        else if f.mimeType !in AllowedImageTypes then Some(BadRequest("Image " + n + " has invalid format. Allowed: JPEG, PNG, WebP, GIF, SVG"))
        else None
      case Text(_) => Some(BadRequest("Image " + n + " has invalid format. Allowed: JPEG, PNG, WebP, GIF, SVG"))
  }

  /** The rejections, in the order the endpoint tries them; None lets the request through. */
  function Check(form: Form): (r: Option<Response>)
    ensures r.Some? ==> r.value.status == 400 && r.value.body.Failure?
    ensures r.Some? ==> r.value == InvalidMode || r.value == BadRequest(r.value.body.error)
  {
    if !Given(form.mode) then Some(BadRequest("Mode is required"))
    else if form.prompt.None? || Trim(form.prompt.value) == "" then Some(BadRequest("Prompt is required"))
    else if Utf16Length(form.prompt.value) > MaxPromptLength then
      Some(BadRequest("Prompt too long. Maximum 5000 characters allowed."))
    else if form.mode.value == TextMode then None
    else if form.mode.value != EditMode then Some(InvalidMode)
    else if !Attached(form.image1) && !Given(form.image1Url) then
      Some(BadRequest("At least one image is required for editing mode"))
    else if ImageProblem("1", form.image1).Some? then ImageProblem("1", form.image1)
    else ImageProblem("2", form.image2)
  }

  /** What the model streams back, or the message of the error raised while asking it. */
  datatype Reply = Streamed(text: string) | Thrown(message: string)

  /** The viewBox text the prompts carry, computed with the lookup as written. */
  function Box(form: Form): string {
    ViewBoxAsWritten(LookupAsWritten(AspectKey(form.aspectRatio)))
  }

  /** The same text with the intended lookup. */
  function IntendedBox(form: Form): string {
    ViewBoxText(Dimensions(AspectKey(form.aspectRatio)))
  }

  const TextHead := "Generate an SVG graphic with viewBox=\""
  const TwoHead := "Convert and combine these two inputs into a clean SVG graphic with viewBox=\""
  const TwoTail := " with vector-friendly elements, following the instructions."
  const OneHead := "Use this input as a reference and generate a new SVG graphic with viewBox=\""
  const OneTail := " with simplified, vector-friendly elements based on the instructions."

  /** What follows the viewBox numbers: the closing quote and the aspect-ratio name. */
  function Ratio(key: string): string {
    "\" (aspect ratio: " + key + ")"
  }

  const Describe := " based on this description: "

  /** The text-mode prompt after the viewBox numbers, ending with the user's description. */
  function TextEnd(form: Form): string
    requires form.prompt.Some?
  {
    Ratio(AspectKey(form.aspectRatio)) + Describe + form.prompt.value
  }

  /** The prompt sent in text mode, around the viewBox text `box`. */
  function TextPrompt(form: Form, box: string): string
    requires form.prompt.Some?
  {
    TextHead + box + TextEnd(form)
  }

  /** Whether an editing request has a second input. */
  predicate TwoInputs(form: Form) {
    Attached(form.image2) || Given(form.image2Url)
  }

  /** The editing prompt up to the viewBox numbers: the user's prompt, then the instruction for
      one or two inputs. */
  function EditingHead(form: Form): string
    requires form.prompt.Some?
  {
    form.prompt.value + ". " + (if TwoInputs(form) then TwoHead else OneHead)
  }

  /** The editing prompt after the viewBox numbers. */
  function EditingEnd(form: Form): string {
    Ratio(AspectKey(form.aspectRatio)) + (if TwoInputs(form) then TwoTail else OneTail)
  }

  /** The prompt sent in editing mode, which is also the prompt the response carries. */
  function EditingPrompt(form: Form, box: string): string
    requires form.prompt.Some?
  {
    EditingHead(form) + box + EditingEnd(form)
  }

  /** The prompt the model is sent: none for a rejected request, else the one of its mode. */
  function Sent(form: Form): Option<string> {
    if Check(form).Some? then None
    else if form.mode.value == TextMode then Some(TextPrompt(form, Box(form)))
    else Some(EditingPrompt(form, Box(form)))
  }

  /** `POST`: the first rejection, or else the document extracted from the model's reply. */
  function Post(form: Form, reply: Reply): Response {
    match Check(form)
    case Some(rejection) => rejection
    case None =>
      match reply
      case Thrown(message) => Response(500, Failure("Failed to generate SVG", Some(message)))
      case Streamed(text) =>
        match SvgText.ExtractSvg(text)
        case None =>
          Response(500, Failure("No SVG generated", Some(
            "The model did not return valid SVG code. Raw response: " + text[..if |text| < 200 then |text| else 200])))
        case Some(svg) =>
          Response(200, Svg(svg, if form.mode.value == TextMode then form.prompt.value else EditingPrompt(form, Box(form))))
  }

  // ---- the answer as sent ----

  /** A hexadecimal digit, in lower case as `JSON.stringify` writes it. */
  function HexDigit(n: nat): (c: char)
    requires n < 16
    ensures ('0' <= c <= '9') || ('a' <= c <= 'f')
  {
    if n < 10 then ('0' as int + n) as char else ('a' as int + n - 10) as char
  }

  /** Whether `JSON.stringify` escapes a character of a string: the quote, the backslash and the
      control characters below U+0020. */
  predicate NeedsEscape(c: char) {
    c < ' ' || c == '"' || c == '\\'
  }

  /** One character of a string as `JSON.stringify` writes it: the quote and the backslash behind a
      backslash, the control characters by their short escape or as `\u00xx`, any other character
      as it is. No control character is left in what is written. */
  function EscapeChar(c: char): (r: string)
    ensures r == [c] <==> !NeedsEscape(c)
    ensures NeedsEscape(c) ==> |r| >= 2 && r[0] == '\\'
    ensures forall k :: 0 <= k < |r| ==> ' ' <= r[k]
  {
    if c == '"' then "\\\""
    else if c == '\\' then "\\\\"
    else if c == '\U{0008}' then "\\b"
    else if c == '\t' then "\\t"
    else if c == '\n' then "\\n"
    else if c == '\U{000C}' then "\\f"
    else if c == '\r' then "\\r"
    else if c < ' ' then "\\u00" + [HexDigit(c as int / 16), HexDigit(c as int % 16)]
    else [c]
  }

  /** The characters of a string, each as `JSON.stringify` writes it. */
  function Escaped(s: string): (r: string)
    ensures |s| <= |r|
    ensures forall k :: 0 <= k < |r| ==> ' ' <= r[k]
    ensures (forall k :: 0 <= k < |s| ==> !NeedsEscape(s[k])) ==> r == s
  {
    if |s| == 0 then "" else EscapeChar(s[0]) + Escaped(s[1..])
  }

  /** `JSON.stringify` of a string: its escaped characters between double quotes. */
  function Quote(s: string): (r: string)
    ensures |r| >= 2 && r[0] == '"' && r[|r| - 1] == '"'
    ensures Printable(r)
  {
    "\"" + Escaped(s) + "\""
  }

  /** No control character in s. */
  predicate Printable(s: string) {
    forall k :: 0 <= k < |s| ==> ' ' <= s[k]
  }

  lemma PrintableJoin(a: string, b: string)
    requires Printable(a) && Printable(b)
    ensures Printable(a + b)
  {
    forall k | 0 <= k < |a + b|
      ensures ' ' <= (a + b)[k]
    {
      if k >= |a| {
        assert (a + b)[k] == b[k - |a|];
      }
    }
  }

  const SvgCodeKey := "{\"svgCode\":"
  const PromptKey := ",\"prompt\":"
  const DescriptionEnd := ",\"description\":\"\"}"
  const ErrorKey := "{\"error\":"
  const DetailsKey := ",\"details\":"

  /** The body as `NextResponse.json` sends it: `JSON.stringify` of the object, with its fields in
      the order the code lists them and no spacing. */
  function JsonText(b: Body): (r: string)
    ensures |r| >= 2 && r[0] == '{' && r[|r| - 1] == '}'
  {
    match b
    case Svg(svg, prompt) => SvgCodeKey + Quote(svg) + PromptKey + Quote(prompt) + DescriptionEnd
    case Failure(error, details) =>
      ErrorKey + Quote(error) + (if details.Some? then DetailsKey + Quote(details.value) else "") + "}"
  }

  lemma KeysPrintable()
    ensures Printable(SvgCodeKey) && Printable(PromptKey) && Printable(DescriptionEnd)
    ensures Printable(ErrorKey) && Printable(DetailsKey) && Printable("}")
  {
  }

  /** Every answer is one line: no control character, so no line break, appears in it. */
  lemma JsonTextOneLine(b: Body)
    ensures Printable(JsonText(b))
  {
    KeysPrintable();
    match b
    case Svg(svg, prompt) =>
      PrintableJoin(SvgCodeKey, Quote(svg));
      PrintableJoin(SvgCodeKey + Quote(svg), PromptKey);
      PrintableJoin(SvgCodeKey + Quote(svg) + PromptKey, Quote(prompt));
      PrintableJoin(SvgCodeKey + Quote(svg) + PromptKey + Quote(prompt), DescriptionEnd);
    case Failure(error, details) =>
      var d := if details.Some? then DetailsKey + Quote(details.value) else "";
      if details.Some? {
        PrintableJoin(DetailsKey, Quote(details.value));
      }
      PrintableJoin(ErrorKey, Quote(error));
      PrintableJoin(ErrorKey + Quote(error), d);
      PrintableJoin(ErrorKey + Quote(error) + d, "}");
  }

  /** A success as the page reads it: a server-sent event whose data is the code as a JSON string,
      then the end marker, each event closed by a blank line. */
  function EventText(b: Body): string
    requires b.Svg?
  {
    "data: " + Quote(b.svgCode) + "\n\ndata: [DONE]\n\n"
  }

  // ---- properties ----

  /** An image field that passes: absent or empty, or a file of at most 10 MiB of an allowed type. */
  predicate ImageAcceptable(field: Option<Entry>) {
    !Attached(field) || (field.value.Upload? && field.value.file.size <= MaxFileSize
                         && field.value.file.mimeType in AllowedImageTypes)
  }

  /** A request the endpoint lets through, stated field by field. */
  predicate Acceptable(form: Form) {
    && Given(form.mode)
    && form.prompt.Some? && Trim(form.prompt.value) != ""
    && Utf16Length(form.prompt.value) <= MaxPromptLength
    && (|| form.mode.value == TextMode
        || (&& form.mode.value == EditMode
            && (Attached(form.image1) || Given(form.image1Url))
            && ImageAcceptable(form.image1)
            && ImageAcceptable(form.image2)))
  }

  /** The endpoint lets a request through exactly when it is acceptable; every rejection is a 400. */
  lemma CheckIs(form: Form)
    ensures Check(form).None? <==> Acceptable(form)
  {
    ModesDiffer();
    if Given(form.mode) && form.prompt.Some? && Trim(form.prompt.value) != ""
       && Utf16Length(form.prompt.value) <= MaxPromptLength && form.mode.value == EditMode {
      var p1, p2 := ImageProblem("1", form.image1), ImageProblem("2", form.image2);
      assert Check(form).None? <==> (Attached(form.image1) || Given(form.image1Url)) && p1.None? && p2.None?;
    }
  }

  /** "Invalid mode" answers exactly a request with a mode other than the two known ones and a
      prompt that passes its checks: the mode check waits for the prompt checks. */
  lemma InvalidModeIs(form: Form)
    ensures Check(form) == Some(InvalidMode) <==>
              && Given(form.mode) && form.mode.value != TextMode && form.mode.value != EditMode
              && form.prompt.Some? && Trim(form.prompt.value) != ""
              && Utf16Length(form.prompt.value) <= MaxPromptLength
  {
  }

  /** A rejected request never reaches the model: the answer does not depend on the reply. */
  lemma RejectionIgnoresReply(form: Form, r1: Reply, r2: Reply)
    requires !Acceptable(form)
    ensures Post(form, r1) == Post(form, r2) == Check(form).value
    ensures Post(form, r1).status == 400
  {
    CheckIs(form);
  }

  /** In text mode the image fields play no part. */
  lemma TextModeIgnoresImages(form: Form, reply: Reply, i1: Option<Entry>, i2: Option<Entry>,
                              u1: Option<string>, u2: Option<string>)
    requires form.mode == Some(TextMode)
    ensures Post(form, reply) == Post(form.(image1 := i1, image2 := i2, image1Url := u1, image2Url := u2), reply)
  {
  }

  /** The endpoint answers 200 exactly when the request is acceptable, the model replied, and the
      lazy `<svg…</svg>` search finds a document in the reply; the answer is that document. */
  lemma PostSucceeds(form: Form, reply: Reply)
    ensures Post(form, reply).status == 200 <==>
              Acceptable(form) && reply.Streamed? && SvgText.LazySvg(reply.text).Some?
    ensures Post(form, reply).status == 200 ==>
              && Post(form, reply).body.Svg?
              && Post(form, reply).body.svgCode == SvgText.LazySvg(reply.text).value
              && SvgText.Document(Post(form, reply).body.svgCode)
  {
    CheckIs(form);
    if Acceptable(form) && reply.Streamed? {
      SvgText.ExtractIsLazy(reply.text);
      if SvgText.LazySvg(reply.text).Some? {
        SvgText.LazyShape(reply.text);
      }
    }
  }

  /** The prompt a success carries: the user's own in text mode; in editing mode the editing
      prompt, which starts with the user's and is the prompt the model was sent. */
  lemma SuccessPrompt(form: Form, reply: Reply)
    requires Post(form, reply).status == 200
    ensures form.prompt.Some? && Given(form.mode)
    ensures form.mode.value == TextMode ==> Post(form, reply).body.prompt == form.prompt.value
    ensures form.mode.value != TextMode ==>
              && form.mode.value == EditMode
              && Post(form, reply).body.prompt == EditingPrompt(form, Box(form))
              && Sent(form) == Some(Post(form, reply).body.prompt)
              && At(Post(form, reply).body.prompt, 0, form.prompt.value + ". ")
  {
    PostSucceeded(form, reply);
    CheckIs(form);
    if form.mode.value != TextMode {
      EditingPromptStarts(form, Box(form));
    }
  }

  /** What a 200 answer implies about the request and the reply. */
  lemma PostSucceeded(form: Form, reply: Reply)
    requires Post(form, reply).status == 200
    ensures Check(form).None? && reply.Streamed? && SvgText.ExtractSvg(reply.text).Some?
    ensures form.prompt.Some? && form.mode.Some?
    ensures Post(form, reply).body == Svg(SvgText.ExtractSvg(reply.text).value,
              if form.mode.value == TextMode then form.prompt.value else EditingPrompt(form, Box(form)))
  {
  }

  lemma EditingPromptStarts(form: Form, box: string)
    requires form.prompt.Some?
    ensures At(EditingPrompt(form, box), 0, form.prompt.value + ". ")
  {
    var p := form.prompt.value + ". ";
    var head := EditingHead(form);
    var t := EditingPrompt(form, box);
    assert t == head + box + EditingEnd(form);
    assert head[..|p|] == p;
    assert t[..|p|] == p by {
      assert forall k :: 0 <= k < |p| ==> t[k] == head[k];
    }
  }

  /** The model is sent a prompt exactly for an acceptable request. In text mode the prompt names
      the viewBox and ends with the user's description; in editing mode it starts with the
      user's prompt. */
  lemma SentIs(form: Form)
    ensures Sent(form).Some? <==> Acceptable(form)
    ensures Sent(form).Some? && form.mode.value == TextMode ==>
              && At(Sent(form).value, 0, TextHead + Box(form))
              && At(Sent(form).value, |Sent(form).value| - |form.prompt.value|, form.prompt.value)
    ensures Sent(form).Some? && form.mode.value != TextMode ==>
              At(Sent(form).value, 0, form.prompt.value + ". ")
  {
    SentAcceptable(form);
    SentText(form);
    SentEditing(form);
  }

  lemma SentText(form: Form)
    ensures Sent(form).Some? && form.mode.value == TextMode ==>
              && At(Sent(form).value, 0, TextHead + Box(form))
              && At(Sent(form).value, |Sent(form).value| - |form.prompt.value|, form.prompt.value)
  {
    if Check(form).None? && form.mode.value == TextMode {
      SentOfMode(form);
      TextPromptEnds(form, Box(form));
    }
  }

  lemma SentEditing(form: Form)
    ensures Sent(form).Some? && form.mode.value != TextMode ==>
              At(Sent(form).value, 0, form.prompt.value + ". ")
  {
    if Check(form).None? && form.mode.value != TextMode {
      SentOfMode(form);
      EditingPromptStarts(form, Box(form));
    }
  }

  lemma SentAcceptable(form: Form)
    ensures Sent(form).Some? <==> Acceptable(form)
    ensures Sent(form).Some? <==> Check(form).None?
  {
    CheckIs(form);
  }

  /** An acceptable request is sent the prompt of its mode. */
  lemma SentOfMode(form: Form)
    requires Check(form).None?
    ensures form.mode.Some? && form.prompt.Some?
    ensures Sent(form) == Some(if form.mode.value == TextMode then TextPrompt(form, Box(form))
                               else EditingPrompt(form, Box(form)))
  {
  }

  lemma TextPromptEnds(form: Form, box: string)
    requires form.prompt.Some?
    ensures At(TextPrompt(form, box), 0, TextHead + box)
    ensures var t := TextPrompt(form, box);
            At(t, |t| - |form.prompt.value|, form.prompt.value)
  {
    var p := form.prompt.value;
    var front := TextHead + box + Ratio(AspectKey(form.aspectRatio)) + Describe;
    assert TextPrompt(form, box) == front + p;
    PrefixAt(TextHead + box, TextEnd(form));
    assert (front + p)[|front|..] == p;
  }

  /** Two texts that share a head and differ at the fifth character of the middle part differ. */
  lemma MiddleDiffers(a: string, x: string, y: string, b: string)
    requires |x| > 4 && |y| > 4 && x[4] != y[4]
    ensures a + x + b != a + y + b
  {
    assert (a + x + b)[|a| + 4] == x[4];
    assert (a + y + b)[|a| + 4] == y[4];
  }

  /** The viewBox text with the lookup as written is the intended one exactly for the names that
      are not inherited; for an inherited name the two differ at the fifth character, where a
      number is due. */
  lemma BoxAgrees(form: Form)
    ensures Box(form) == IntendedBox(form) <==> AspectKey(form.aspectRatio) !in PrototypeKeys
    ensures AspectKey(form.aspectRatio) in PrototypeKeys ==>
              |Box(form)| > 4 && |IntendedBox(form)| > 4 && Box(form)[4] != IntendedBox(form)[4]
  {
    var key := AspectKey(form.aspectRatio);
    LookupAgrees(key);
    var d := Dimensions(key);
    var w := JsNumber.DigitString(d.width);
    assert IntendedBox(form) == "0 0 " + w + " " + JsNumber.DigitString(d.height);
    assert IntendedBox(form)[4] == w[0];
    assert IsDigit(w[0]);
  }

  /** The prompts built with the lookup as written are the intended ones exactly for the names
      that are not inherited: every listed name, and every unknown one, which falls back to the
      square. An inherited name changes both prompts. */
  lemma PromptsAgree(form: Form)
    requires form.prompt.Some?
    ensures (TextPrompt(form, Box(form)) == TextPrompt(form, IntendedBox(form)))
              <==> AspectKey(form.aspectRatio) !in PrototypeKeys
    ensures (EditingPrompt(form, Box(form)) == EditingPrompt(form, IntendedBox(form)))
              <==> AspectKey(form.aspectRatio) !in PrototypeKeys
  {
    BoxAgrees(form);
    if AspectKey(form.aspectRatio) in PrototypeKeys {
      MiddleDiffers(TextHead, Box(form), IntendedBox(form), TextEnd(form));
      MiddleDiffers(EditingHead(form), Box(form), IntendedBox(form), EditingEnd(form));
    }
  }

  /** An editing request with the aspect ratio `constructor` that succeeds is answered with a
      prompt whose viewBox reads `0 0 undefined undefined`. */
  lemma InheritedNameAnswered(form: Form, reply: Reply)
    requires form.aspectRatio == Some("constructor")
    requires Post(form, reply).status == 200 && form.mode != Some(TextMode)
    ensures At(Post(form, reply).body.prompt, |EditingHead(form)|, "0 0 undefined undefined")
  {
    SuccessPrompt(form, reply);
    InheritedNameLosesSize();
    var box := "0 0 undefined undefined";
    assert Box(form) == box;
    var t := EditingHead(form) + box + EditingEnd(form);
    assert t[|EditingHead(form)|..|EditingHead(form)| + |box|] == box;
  }

  lemma PrefixAt(head: string, tail: string)
    ensures At(head + tail, 0, head)
  {
    assert (head + tail)[..|head|] == head;
  }
}

=== FILE: scan.dfy ===
/** Left-to-right search for the first position where a pattern matches, as a JavaScript regular
    expression without the `g` flag searches (`match`, `test`, `replace`). */
module Scan {
  import opened Wrappers

  /** The first position k in [i, n) where `at` matches, with its match. */
  function Find<M>(at: nat -> Option<M>, i: nat, n: nat): Option<(nat, M)>
    decreases n - i
  {
    if i >= n then None
    else match at(i)
      case Some(m) => Some((i, m))
      case None => Find(at, i + 1, n)
  }

  /** A position found is a match, and nothing matches before it. */
  lemma {:induction false} FindSome<M>(at: nat -> Option<M>, i: nat, n: nat)
    requires Find(at, i, n).Some?
    ensures var k := Find(at, i, n).value.0;
            && i <= k < n && at(k) == Some(Find(at, i, n).value.1)
            && forall j :: i <= j < k ==> at(j).None?
    decreases n - i
  {
    if at(i).None? {
      FindSome(at, i + 1, n);
    }
  }

  /** A match with no match before it is the one found. */
  lemma {:induction false} FindFirst<M>(at: nat -> Option<M>, i: nat, n: nat, k: nat)
    requires i <= k < n && at(k).Some?
    requires forall j :: i <= j < k ==> at(j).None?
    ensures Find(at, i, n) == Some((k, at(k).value))
    decreases k - i
  {
    if i < k {
      FindFirst(at, i + 1, n, k);
    }
  }

  /** Nothing is found exactly when nothing matches. */
  lemma {:induction false} FindNone<M>(at: nat -> Option<M>, i: nat, n: nat)
    ensures Find(at, i, n).None? <==> forall j :: i <= j < n ==> at(j).None?
    decreases n - i
  {
    if i < n && at(i).None? {
      FindNone(at, i + 1, n);
    }
  }

  /** The last position k in [i, n) where `at` matches, with its match: what a greedy pattern reaches. */
  function FindLast<M>(at: nat -> Option<M>, i: nat, n: nat): Option<(nat, M)>
    decreases n
  {
    if n <= i then None
    else match at(n - 1)
      case Some(m) => Some((n - 1, m))
      case None => FindLast(at, i, n - 1)
  }

  /** A position found last is a match, and nothing matches after it. */
  lemma {:induction false} FindLastSome<M>(at: nat -> Option<M>, i: nat, n: nat)
    requires FindLast(at, i, n).Some?
    ensures var k := FindLast(at, i, n).value.0;
            && i <= k < n && at(k) == Some(FindLast(at, i, n).value.1)
            && forall j :: k < j < n ==> at(j).None?
    decreases n
  {
    if at(n - 1).None? {
      FindLastSome(at, i, n - 1);
    }
  }

  /** Nothing is found last exactly when nothing matches. */
  lemma {:induction false} FindLastNone<M>(at: nat -> Option<M>, i: nat, n: nat)
    ensures FindLast(at, i, n).None? <==> forall j :: i <= j < n ==> at(j).None?
    decreases n
  {
    if i < n && at(n - 1).None? {
      FindLastNone(at, i, n - 1);
    }
  }

  /** Two patterns that match at the same positions are found at the same position. */
  lemma {:induction false} FindAgree<M, N>(a: nat -> Option<M>, b: nat -> Option<N>, i: nat, n: nat)
    requires forall j: nat :: i <= j < n ==> (a(j).Some? <==> b(j).Some?)
    ensures Find(a, i, n).Some? <==> Find(b, i, n).Some?
    ensures Find(a, i, n).Some? ==> Find(a, i, n).value.0 == Find(b, i, n).value.0
    decreases n - i
  {
    if i < n && a(i).None? {
      FindAgree(a, b, i + 1, n);
    }
  }
}

=== FILE: selection.dfy ===
/** Choosing the element a click selects. The element tree is seen from the click target: the
    chain of its ancestors, target first, each element followed by its `parentElement`; the chain
    ends where `parentElement` is null. The editor's root `#editable-svg` is named by its id, and is
    absent when the query for it fails. */
module Selection {
  import opened Wrappers
  import opened Text

  /** An element: an identity, its tag name as written, whether it is an `SVGElement`, its classes. */
  datatype Elem = Elem(id: nat, tag: string, svg: bool, classes: set<string>)

  type Chain = seq<Elem>

  function TagOf(e: Elem): string {
    Lower(e.tag)
  }

  /** Whether the element at position k has the root as `parentElement`. */
  predicate ParentIsRoot(path: Chain, root: nat, k: nat) {
    k + 1 < |path| && path[k + 1].id == root
  }

  /** Whether the element at position k has an `SVGElement` as `parentElement`. */
  predicate ParentIsSvg(path: Chain, k: nat) {
    k + 1 < |path| && path[k + 1].svg
  }

  // ---- the editor's own selector: the top-level element ----

  /** The tags the editor's selector refuses to select. */
  const InlineSkip: set<string> := {"defs", "style", "metadata", "title", "desc"}

  /** The walk up from position k to the first element whose parent is the root; a parent that is
      not an `SVGElement` (or no parent) ends it without a result. */
  function TopLevelFrom(path: Chain, root: nat, k: nat): (r: Option<nat>)
    requires k < |path|
    ensures r.Some? ==> k <= r.value && ParentIsRoot(path, root, r.value)
    decreases |path| - k
  {
    if ParentIsRoot(path, root, k) then Some(k)
    else if ParentIsSvg(path, k) then TopLevelFrom(path, root, k + 1)
    else None
  }

  /** The editor's `getSelectableElement`: the position in the chain of the selected element. */
  function InlineSelect(path: Chain, root: Option<nat>): Option<nat> {
    if |path| == 0 || !path[0].svg || root.None? then None
    else match TopLevelFrom(path, root.value, 0)
      case None => None
      case Some(k) => if TagOf(path[k]) in InlineSkip then None else Some(k)
  }

  /** Between the target and position k, every element is an `SVGElement` whose parent is not the root. */
  predicate ClimbsTo(path: Chain, root: nat, k: nat) {
    forall j :: 0 <= j < k ==> !ParentIsRoot(path, root, j) && ParentIsSvg(path, j)
  }

  lemma {:induction false} TopLevelFromIs(path: Chain, root: nat, i: nat, k: nat)
    requires i <= k < |path|
    requires forall j :: i <= j < k ==> !ParentIsRoot(path, root, j) && ParentIsSvg(path, j)
    ensures TopLevelFrom(path, root, i) == TopLevelFrom(path, root, k)
    decreases k - i
  {
    if i < k {
      TopLevelFromIs(path, root, i + 1, k);
    }
  }

  lemma {:induction false} TopLevelFromFound(path: Chain, root: nat, i: nat)
    requires i < |path| && TopLevelFrom(path, root, i).Some?
    ensures var k := TopLevelFrom(path, root, i).value;
            && i <= k && ParentIsRoot(path, root, k)
            && forall j :: i <= j < k ==> !ParentIsRoot(path, root, j) && ParentIsSvg(path, j)
    decreases |path| - i
  {
    if !ParentIsRoot(path, root, i) {
      TopLevelFromFound(path, root, i + 1);
    }
  }

  /** The editor's selector picks exactly the ancestor-or-self of an `SVGElement` target that is a
      direct child of the root, reached through `SVGElement`s only, unless it is a `defs`, `style`,
      `metadata`, `title` or `desc`. */
  lemma InlineSelectIs(path: Chain, root: Option<nat>, k: nat)
    ensures InlineSelect(path, root) == Some(k) <==>
      && |path| > 0 && path[0].svg && root.Some? && k < |path|
      && ClimbsTo(path, root.value, k) && ParentIsRoot(path, root.value, k)
      && TagOf(path[k]) !in InlineSkip
  {
    if |path| > 0 && path[0].svg && root.Some? {
      var r := TopLevelFrom(path, root.value, 0);
      if r.Some? {
        TopLevelFromFound(path, root.value, 0);
      }
      if k < |path| && ClimbsTo(path, root.value, k) && ParentIsRoot(path, root.value, k) {
        TopLevelFromIs(path, root.value, 0, k);
      }
    }
  }

  // ---- the leaf-preferring selector ----

  const SkipTags: set<string> :=
    {"defs", "style", "metadata", "title", "desc", "clippath", "lineargradient", "radialgradient", "stop"}

  const ShapeTags: set<string> :=
    {"path", "rect", "circle", "ellipse", "line", "polygon", "polyline", "text", "image", "use"}

  const Overlays: set<string> := {"v0-selection-overlay", "v0-point-overlay"}

  /** The element at position k is the one to select: not the root, not skipped, and a shape or a
      group directly under the root. */
  predicate Chosen(path: Chain, root: nat, k: nat)
    requires k < |path|
  {
    && path[k].id != root
    && TagOf(path[k]) !in SkipTags
    && (TagOf(path[k]) in ShapeTags || (TagOf(path[k]) == "g" && ParentIsRoot(path, root, k)))
  }

  /** The walk passes the element at position j on to its parent. */
  predicate Passes(path: Chain, root: nat, j: nat)
    requires j < |path|
  {
    && path[j].id != root
    && TagOf(path[j]) !in SkipTags
    && TagOf(path[j]) !in ShapeTags
    && !(TagOf(path[j]) == "g" && ParentIsRoot(path, root, j))
    && ParentIsSvg(path, j)
  }

  /** The walk up from position k. */
  function WalkUp(path: Chain, root: nat, k: nat): Option<nat>
    requires k < |path|
    decreases |path| - k
  {
    if path[k].id == root then None
    else
      var tag := TagOf(path[k]);
      if tag in SkipTags then None
      else if tag in ShapeTags then Some(k)
      else if tag == "g" && ParentIsRoot(path, root, k) then Some(k)
      else if ParentIsSvg(path, k) then WalkUp(path, root, k + 1)
      else None
  }

  /** `getSelectableElement(target, svgRoot)`: the position in the chain of the element selected. */
  function SelectLeaf(path: Chain, root: Option<nat>): Option<nat> {
    if |path| == 0 || !path[0].svg || root.None? then None
    else if path[0].classes * Overlays != {} then None
    else
      var tag := TagOf(path[0]);
      if tag == "svg" && path[0].id == root.value then None
      else if tag in SkipTags then None
      else if tag in ShapeTags then Some(0)
      else WalkUp(path, root.value, 0)
  }

  lemma {:induction false} WalkUpFound(path: Chain, root: nat, i: nat)
    requires i < |path| && WalkUp(path, root, i).Some?
    ensures var k := WalkUp(path, root, i).value;
            && i <= k < |path| && Chosen(path, root, k)
            && forall j :: i <= j < k ==> Passes(path, root, j)
    decreases |path| - i
  {
    var tag := TagOf(path[i]);
    if !(tag in ShapeTags || (tag == "g" && ParentIsRoot(path, root, i))) {
      WalkUpFound(path, root, i + 1);
    }
  }

  lemma {:induction false} WalkUpReaches(path: Chain, root: nat, i: nat, k: nat)
    requires i <= k < |path|
    requires forall j :: i <= j < k ==> Passes(path, root, j)
    ensures WalkUp(path, root, i) == WalkUp(path, root, k)
    decreases k - i
  {
    if i < k {
      assert Passes(path, root, i);
      WalkUpReaches(path, root, i + 1, k);
    }
  }

  /** The walk selects exactly the first element on the way up that is to be chosen, provided every
      element before it passes the walk on. */
  lemma WalkUpIs(path: Chain, root: nat, k: nat)
    requires 0 < |path|
    ensures WalkUp(path, root, 0) == Some(k) <==>
      k < |path| && Chosen(path, root, k) && forall j :: 0 <= j < k ==> Passes(path, root, j)
  {
    if WalkUp(path, root, 0).Some? {
      WalkUpFound(path, root, 0);
    }
    if k < |path| && Chosen(path, root, k) && forall j :: 0 <= j < k ==> Passes(path, root, j) {
      WalkUpReaches(path, root, 0, k);
    }
  }

  /** The root `#editable-svg` is an `<svg>` element wherever it stands in the chain. */
  predicate RootIsSvg(path: Chain, root: Option<nat>) {
    root.Some? ==> forall j :: 0 <= j < |path| && path[j].id == root.value ==> TagOf(path[j]) == "svg"
  }

  /** Clicks on the editor's own overlays select nothing. */
  lemma OverlayIgnored(path: Chain, root: Option<nat>)
    requires |path| > 0 && path[0].classes * Overlays != {}
    ensures SelectLeaf(path, root) == None
  {
  }

  /** Tags are compared in lower case, so a `clipPath` is skipped like the other definitions. */
  lemma ClipPathSkipped(id: nat, root: Option<nat>, rest: Chain)
    ensures SelectLeaf([Elem(id, "clipPath", true, {})] + rest, root) == None
  {
    var path := [Elem(id, "clipPath", true, {})] + rest;
    assert TagOf(path[0]) == "clippath";
  }

  /** The selector picks exactly the target or the first ancestor on the way up that is a shape or a
      group directly under the root, reached through elements that pass the walk on; the root, an
      overlay, a skipped element on the way and a parent that is not an `SVGElement` all give nothing. */
  lemma SelectLeafIs(path: Chain, root: Option<nat>, k: nat)
    requires RootIsSvg(path, root)
    ensures SelectLeaf(path, root) == Some(k) <==>
      && |path| > 0 && path[0].svg && root.Some? && path[0].classes * Overlays == {}
      && k < |path| && Chosen(path, root.value, k)
      && forall j :: 0 <= j < k ==> Passes(path, root.value, j)
  {
    if |path| > 0 && path[0].svg && root.Some? && path[0].classes * Overlays == {} {
      var tag := TagOf(path[0]);
      if tag == "svg" && path[0].id == root.value {
        assert !Chosen(path, root.value, 0) && !Passes(path, root.value, 0);
      } else if tag in ShapeTags {
        assert path[0].id != root.value;
        assert k > 0 ==> !Passes(path, root.value, 0);
      } else if tag !in SkipTags {
        assert path[0].id != root.value;
        WalkUpIs(path, root.value, k);
      } else {
        assert !Chosen(path, root.value, 0) && !Passes(path, root.value, 0);
      }
    }
  }

  /** A shape the user clicks on is selected itself, whatever group it lies in. */
  lemma ShapeTargetWins(path: Chain, root: nat)
    requires |path| > 0 && path[0].svg && path[0].classes * Overlays == {}
    requires TagOf(path[0]) in ShapeTags
    ensures SelectLeaf(path, Some(root)) == Some(0)
  {
  }

  /** The walk never meets the root on its way to the element it selects. */
  lemma WalkAvoidsRoot(path: Chain, root: nat, k: nat)
    requires k < |path| && Chosen(path, root, k)
    requires forall j :: 0 <= j < k ==> Passes(path, root, j)
    ensures forall j :: 0 <= j <= k ==> path[j].id != root
  {
    forall j | 0 <= j < k ensures path[j].id != root {
      assert Passes(path, root, j);
    }
  }

  /** The leaf-preferring selector never goes above the element the editor's own selector picks. */
  lemma LeafWithinTopLevel(path: Chain, root: Option<nat>)
    requires InlineSelect(path, root).Some? && SelectLeaf(path, root).Some?
    ensures SelectLeaf(path, root).value <= InlineSelect(path, root).value
  {
    var t := InlineSelect(path, root).value;
    var k := SelectLeaf(path, root).value;
    InlineSelectIs(path, root, t);
    if k != 0 {
      WalkUpFound(path, root.value, 0);
      if k > t {
        WalkAvoidsRoot(path, root.value, k);
        assert false;
      }
    }
  }
}

=== FILE: shape_edit.dfy ===
/** The handles the editor draws on a selected rect, circle, ellipse, line, polygon or polyline,
    and the attributes a drag of each handle writes. The numbers a handle edits are read with
    `parseFloat` when the handles are drawn; each pointer move, (dx, dy) away from where the drag
    began, writes those numbers plus the displacement with `String(...)`. */
module ShapeEdit {
  import opened Text
  import opened Decimal
  import opened JsNumber
  import opened JsArray
  import opened PathCodec
  import PointDrag

  /** An element's attributes by name; a missing attribute is absent. */
  type Attrs = map<string, string>

  /** `getAttribute(k) || ""` */
  function Attr(a: Attrs, k: string): string {
    if k in a then a[k] else ""
  }

  /** `parseFloat(getAttribute(k) || "0")` */
  function Captured(a: Attrs, k: string): (r: JsNum)
    ensures r.Num? || r.NaN?
  {
    ParseFloat(if Attr(a, k) == "" then "0" else Attr(a, k))
  }

  /** A missing or empty attribute reads as 0. */
  lemma MissingIsZero(a: Attrs, k: string)
    requires Attr(a, k) == ""
    ensures Captured(a, k) == Num(Zero)
  {
    NumberTextRoundTrip(Zero);
    assert NumberToString(Zero) == "0";
  }

  /** The numbers one move writes, by attribute name. */
  type Writes = map<string, JsNum>

  /** `setAttribute(k, String(v))` for every write. */
  function Apply(a: Attrs, w: Writes): Attrs {
    map k | k in a.Keys + w.Keys :: if k in w then ValueText(w[k]) else a[k]
  }

  /** `parseFloat(String(v))` gives v back for a number and for NaN. */
  lemma ReadWritten(v: JsNum)
    requires v.Num? || v.NaN?
    ensures ValueText(v) != "" && ParseFloat(ValueText(v)) == v
  {
    if v.Num? {
      NumberTextChars(v.d);
      NumberTextRoundTrip(v.d);
    } else {
      ReadNaN();
    }
  }

  lemma ReadNaN()
    ensures ValueText(NaN) == "NaN" && ParseFloat("NaN") == NaN
  {
    assert TrimStart("NaN") == "NaN";
    assert SignLength("NaN") == 0;
  }

  /** An attribute that is written reads back as the number written; every other attribute is
      left as it was. */
  lemma ApplyReadsBack(a: Attrs, w: Writes, k: string)
    ensures k !in w ==> (k in Apply(a, w) <==> k in a) && Attr(Apply(a, w), k) == Attr(a, k)
    ensures k in w && (w[k].Num? || w[k].NaN?) ==> Captured(Apply(a, w), k) == w[k]
  {
    if k in w && (w[k].Num? || w[k].NaN?) {
      ReadWritten(w[k]);
    }
  }

  /** Writes to the same attributes as an earlier move replace everything it wrote. */
  lemma ApplyTwice(a: Attrs, w: Writes, w': Writes)
    requires w.Keys <= w'.Keys
    ensures Apply(Apply(a, w), w') == Apply(a, w')
  {
  }

  // ---- the handles ----

  datatype Corner = TopLeft | TopRight | BottomLeft | BottomRight

  datatype ShapeHandle =
    | RectCorner(corner: Corner)
    | CircleCenter | CircleRadius
    | EllipseCenter | EllipseRx | EllipseRy
    | LineStart | LineEnd

  /** The numbers of an element's attributes, as read when its handles were drawn. */
  type Reading = string -> JsNum

  function ReadingOf(a: Attrs): Reading {
    k => Captured(a, k)
  }

  /** Every attribute reads as a number or NaN, as `parseFloat` gives. */
  ghost predicate Numeric(num: Reading) {
    forall k :: num(k).Num? || num(k).NaN?
  }

  lemma ReadingNumeric(a: Attrs)
    ensures Numeric(ReadingOf(a))
  {
  }

  /** A point whose coordinates are the attributes kx and ky, moved by (dx, dy). */
  function MovePoint(num: Reading, kx: string, ky: string, dx: Dec, dy: Dec): Writes {
    map[kx := Plus(num(kx), Num(dx)), ky := Plus(num(ky), Num(dy))]
  }

  /** A size attribute grown by delta, never below 1 (`Math.max(1, v + delta)`). */
  function Grow(num: Reading, k: string, delta: Dec): Writes {
    map[k := AtLeastOne(Plus(num(k), Num(delta)))]
  }

  /** A rect corner: the corner's own sides follow the pointer; a side that shrinks as the pointer
      moves (the left one for a left corner, the top one for a top corner) takes the
      displacement off the size; sizes never drop below 1. */
  function CornerWrites(num: Reading, c: Corner, dx: Dec, dy: Dec): Writes {
    var x, y := num("x"), num("y");
    var w, h := num("width"), num("height");
    match c
    case TopLeft =>
      map["x" := Plus(x, Num(dx)), "y" := Plus(y, Num(dy)),
          "width" := AtLeastOne(Minus(w, Num(dx))), "height" := AtLeastOne(Minus(h, Num(dy)))]
    case TopRight =>
      map["y" := Plus(y, Num(dy)),
          "width" := AtLeastOne(Plus(w, Num(dx))), "height" := AtLeastOne(Minus(h, Num(dy)))]
    case BottomLeft =>
      map["x" := Plus(x, Num(dx)),
          "width" := AtLeastOne(Minus(w, Num(dx))), "height" := AtLeastOne(Plus(h, Num(dy)))]
    case BottomRight =>
      map["width" := AtLeastOne(Plus(w, Num(dx))), "height" := AtLeastOne(Plus(h, Num(dy)))]
  }

  /** What one move of handle hd writes, from the numbers the handles were drawn from. */
  function Edit(num: Reading, hd: ShapeHandle, dx: Dec, dy: Dec): Writes {
    match hd
    case RectCorner(c) => CornerWrites(num, c, dx, dy)
    case CircleCenter => MovePoint(num, "cx", "cy", dx, dy)
    case CircleRadius => Grow(num, "r", dx)
    case EllipseCenter => MovePoint(num, "cx", "cy", dx, dy)
    case EllipseRx => Grow(num, "rx", dx)
    case EllipseRy => Grow(num, "ry", dy)
    case LineStart => MovePoint(num, "x1", "y1", dx, dy)
    case LineEnd => MovePoint(num, "x2", "y2", dx, dy)
  }

  /** The attributes a handle may write. */
  function Touches(hd: ShapeHandle): set<string> {
    match hd
    case RectCorner(TopLeft) => {"x", "y", "width", "height"}
    case RectCorner(TopRight) => {"y", "width", "height"}
    case RectCorner(BottomLeft) => {"x", "width", "height"}
    case RectCorner(BottomRight) => {"width", "height"}
    case CircleCenter => {"cx", "cy"}
    case CircleRadius => {"r"}
    case EllipseCenter => {"cx", "cy"}
    case EllipseRx => {"rx"}
    case EllipseRy => {"ry"}
    case LineStart => {"x1", "y1"}
    case LineEnd => {"x2", "y2"}
  }

  /** The size attributes, which a drag keeps at 1 or more. */
  predicate IsSize(k: string) {
    k == "width" || k == "height" || k == "r" || k == "rx" || k == "ry"
  }

  /** Writing v to k is proper: v is a number or NaN, and at least 1 if k is a size and v a number. */
  predicate ProperWrite(k: string, v: JsNum) {
    (v.Num? || v.NaN?) && (IsSize(k) && v.Num? ==> v.d.Value() >= 1.0)
  }

  /** Every write is proper. */
  predicate ProperWrites(w: Writes) {
    forall k :: k in w ==> ProperWrite(k, w[k])
  }

  lemma ProperAdd(w: Writes, k: string, v: JsNum)
    requires ProperWrites(w) && ProperWrite(k, v)
    ensures ProperWrites(w[k := v])
  {
  }

  /** Each handle writes exactly its own attributes, every value written is a number or NaN, and a
      size written is at least 1 unless it is NaN. */
  lemma EditWrites(num: Reading, hd: ShapeHandle, dx: Dec, dy: Dec)
    requires Numeric(num)
    ensures Edit(num, hd, dx, dy).Keys == Touches(hd)
    ensures ProperWrites(Edit(num, hd, dx, dy))
  {
    match hd
    case RectCorner(c) => CornerWritesProper(num, c, dx, dy);
    case CircleCenter => MovePointProper(num, "cx", "cy", dx, dy);
    case CircleRadius => GrowProper(num, "r", dx);
    case EllipseCenter => MovePointProper(num, "cx", "cy", dx, dy);
    case EllipseRx => GrowProper(num, "rx", dx);
    case EllipseRy => GrowProper(num, "ry", dy);
    case LineStart => MovePointProper(num, "x1", "y1", dx, dy);
    case LineEnd => MovePointProper(num, "x2", "y2", dx, dy);
  }

  lemma MovePointProper(num: Reading, kx: string, ky: string, dx: Dec, dy: Dec)
    requires Numeric(num) && !IsSize(kx) && !IsSize(ky)
    ensures MovePoint(num, kx, ky, dx, dy).Keys == {kx, ky}
    ensures ProperWrites(MovePoint(num, kx, ky, dx, dy))
  {
    assert num(kx).Num? || num(kx).NaN?;
    assert num(ky).Num? || num(ky).NaN?;
  }

  lemma GrowProper(num: Reading, k: string, delta: Dec)
    requires Numeric(num)
    ensures Grow(num, k, delta).Keys == {k}
    ensures ProperWrites(Grow(num, k, delta))
  {
    assert num(k).Num? || num(k).NaN?;
  }

  lemma CornerWritesProper(num: Reading, c: Corner, dx: Dec, dy: Dec)
    requires Numeric(num)
    ensures CornerWrites(num, c, dx, dy).Keys == Touches(RectCorner(c))
    ensures ProperWrites(CornerWrites(num, c, dx, dy))
  {
    var x, y := Plus(num("x"), Num(dx)), Plus(num("y"), Num(dy));
    var w, h := num("width"), num("height");
    assert num("x").Num? || num("x").NaN?;
    assert num("y").Num? || num("y").NaN?;
    var e: Writes := map[];
    match c
    case TopLeft =>
      ProperAdd(e, "x", x);
      ProperAdd(e["x" := x], "y", y);
      ProperAdd(e["x" := x]["y" := y], "width", AtLeastOne(Minus(w, Num(dx))));
      ProperAdd(e["x" := x]["y" := y]["width" := AtLeastOne(Minus(w, Num(dx)))], "height", AtLeastOne(Minus(h, Num(dy))));
    case TopRight =>
      ProperAdd(e, "y", y);
      ProperAdd(e["y" := y], "width", AtLeastOne(Plus(w, Num(dx))));
      ProperAdd(e["y" := y]["width" := AtLeastOne(Plus(w, Num(dx)))], "height", AtLeastOne(Minus(h, Num(dy))));
    case BottomLeft =>
      ProperAdd(e, "x", x);
      ProperAdd(e["x" := x], "width", AtLeastOne(Minus(w, Num(dx))));
      ProperAdd(e["x" := x]["width" := AtLeastOne(Minus(w, Num(dx)))], "height", AtLeastOne(Plus(h, Num(dy))));
    case BottomRight =>
      ProperAdd(e, "width", AtLeastOne(Plus(w, Num(dx))));
      ProperAdd(e["width" := AtLeastOne(Plus(w, Num(dx)))], "height", AtLeastOne(Plus(h, Num(dy))));
  }

  /** A drag of any handle leaves the attributes outside its own unchanged: in particular a
      bottom-right corner never moves x or y, a top-right corner never moves x, and a bottom-left
      corner never moves y. */
  lemma EditKeepsOthers(cur: Attrs, num: Reading, hd: ShapeHandle, dx: Dec, dy: Dec, k: string)
    requires Numeric(num) && k !in Touches(hd)
    ensures Attr(Apply(cur, Edit(num, hd, dx, dy)), k) == Attr(cur, k)
    ensures k in Apply(cur, Edit(num, hd, dx, dy)) <==> k in cur
  {
    EditWrites(num, hd, dx, dy);
    ApplyReadsBack(cur, Edit(num, hd, dx, dy), k);
  }

  /** The circle's radius handle uses dx only, the ellipse's rx handle dx only and its ry handle
      dy only. */
  lemma RadiusAxes(num: Reading, dx: Dec, dy: Dec, dx': Dec, dy': Dec)
    ensures Edit(num, CircleRadius, dx, dy) == Edit(num, CircleRadius, dx, dy')
    ensures Edit(num, EllipseRx, dx, dy) == Edit(num, EllipseRx, dx, dy')
    ensures Edit(num, EllipseRy, dx, dy) == Edit(num, EllipseRy, dx', dy)
  {
  }

  /** Every move writes the handle's attributes from the numbers read when the drag began, so the
      attributes after a drag depend on the last pointer position only. */
  lemma LastEditWins(cur: Attrs, num: Reading, hd: ShapeHandle, dx: Dec, dy: Dec, dx': Dec, dy': Dec)
    requires Numeric(num)
    ensures Apply(Apply(cur, Edit(num, hd, dx, dy)), Edit(num, hd, dx', dy')) == Apply(cur, Edit(num, hd, dx', dy'))
  {
    EditWrites(num, hd, dx, dy);
    EditWrites(num, hd, dx', dy');
    ApplyTwice(cur, Edit(num, hd, dx, dy), Edit(num, hd, dx', dy'));
  }

  // ---- rect corners on the canvas ----

  /** A rect's numbers. */
  datatype Box = Box(x: JsNum, y: JsNum, w: JsNum, h: JsNum)

  function BoxOf(a: Attrs): Box {
    Box(Captured(a, "x"), Captured(a, "y"), Captured(a, "width"), Captured(a, "height"))
  }

  /** Where the editor draws a corner's handle (`getCorner`). */
  function CornerAt(b: Box, c: Corner): (JsNum, JsNum) {
    match c
    case TopLeft => (b.x, b.y)
    case TopRight => (Plus(b.x, b.w), b.y)
    case BottomLeft => (b.x, Plus(b.y, b.h))
    case BottomRight => (Plus(b.x, b.w), Plus(b.y, b.h))
  }

  function Opposite(c: Corner): Corner {
    match c
    case TopLeft => BottomRight
    case TopRight => BottomLeft
    case BottomLeft => TopRight
    case BottomRight => TopLeft
  }

  /** The size a corner drag gives the width and the height before the clamp to 1. */
  function Unclamped(b: Box, c: Corner, dx: Dec, dy: Dec): (JsNum, JsNum) {
    (if c == TopLeft || c == BottomLeft then Minus(b.w, Num(dx)) else Plus(b.w, Num(dx)),
     if c == TopLeft || c == TopRight then Minus(b.h, Num(dy)) else Plus(b.h, Num(dy)))
  }

  /** The rect's numbers after the writes w. */
  function Updated(b: Box, w: Writes): Box {
    Box(if "x" in w then w["x"] else b.x, if "y" in w then w["y"] else b.y,
        if "width" in w then w["width"] else b.w, if "height" in w then w["height"] else b.h)
  }

  /** Reading the rect's attributes after a corner move gives the numbers written and, for the
      attributes not written, the numbers as before. */
  lemma ReadAfterCorner(cur: Attrs, c: Corner, dx: Dec, dy: Dec)
    ensures BoxOf(Apply(cur, Edit(ReadingOf(cur), RectCorner(c), dx, dy))) ==
            Updated(BoxOf(cur), Edit(ReadingOf(cur), RectCorner(c), dx, dy))
  {
    var w := Edit(ReadingOf(cur), RectCorner(c), dx, dy);
    ReadingNumeric(cur);
    EditWrites(ReadingOf(cur), RectCorner(c), dx, dy);
    ApplyReadsBack(cur, w, "x");
    ApplyReadsBack(cur, w, "y");
    ApplyReadsBack(cur, w, "width");
    ApplyReadsBack(cur, w, "height");
  }

  /** The corner arithmetic: with sizes that stay at 1 or more, the dragged corner moves by
      (dx, dy) and the opposite corner keeps its place. */
  lemma CornerArithmetic(b: Box, num: Reading, c: Corner, dx: Dec, dy: Dec)
    requires b.x.Num? && b.y.Num? && b.w.Num? && b.h.Num?
    requires num("x") == b.x && num("y") == b.y && num("width") == b.w && num("height") == b.h
    requires var s := Unclamped(b, c, dx, dy); s.0.d.Value() >= 1.0 && s.1.d.Value() >= 1.0
    ensures var b' := Updated(b, CornerWrites(num, c, dx, dy));
            && Shifted(CornerAt(b, c).0, CornerAt(b', c).0, dx.Value())
            && Shifted(CornerAt(b, c).1, CornerAt(b', c).1, dy.Value())
            && Shifted(CornerAt(b, Opposite(c)).0, CornerAt(b', Opposite(c)).0, 0.0)
            && Shifted(CornerAt(b, Opposite(c)).1, CornerAt(b', Opposite(c)).1, 0.0)
  {
  }

  /** A rect with numeric attributes whose corner is dragged so that neither size falls below 1:
      the dragged corner moves by (dx, dy) and the opposite corner stays where it was. */
  lemma CornerFollowsPointer(cur: Attrs, c: Corner, dx: Dec, dy: Dec)
    requires var b := BoxOf(cur); b.x.Num? && b.y.Num? && b.w.Num? && b.h.Num?
    requires var s := Unclamped(BoxOf(cur), c, dx, dy); s.0.d.Value() >= 1.0 && s.1.d.Value() >= 1.0
    ensures var b, b' := BoxOf(cur), BoxOf(Apply(cur, Edit(ReadingOf(cur), RectCorner(c), dx, dy)));
            && Shifted(CornerAt(b, c).0, CornerAt(b', c).0, dx.Value())
            && Shifted(CornerAt(b, c).1, CornerAt(b', c).1, dy.Value())
            && Shifted(CornerAt(b, Opposite(c)).0, CornerAt(b', Opposite(c)).0, 0.0)
            && Shifted(CornerAt(b, Opposite(c)).1, CornerAt(b', Opposite(c)).1, 0.0)
  {
    ReadAfterCorner(cur, c, dx, dy);
    CornerArithmetic(BoxOf(cur), ReadingOf(cur), c, dx, dy);
  }

  // ---- polygon and polyline vertices ----
  // The vertex texts are stated for any printer str of the values; the editor's printer is
  // template-literal interpolation, ValueText.

  /** `points.trim().split(/[\s,]+/).map(Number)`: no filter, so a token that is not a number
      stays, as NaN. */
  function Coords(points: string): seq<JsNum> {
    ToNumbers(Split(Trim(points)))
  }

  /** `${x},${y}` */
  function PairText(str: JsNum -> string, x: JsNum, y: JsNum): string {
    str(x) + "," + str(y)
  }

  /** One text per vertex, from coordinates 0, 2, 4, ...; an odd last coordinate pairs with
      `undefined`. */
  function PairTexts(str: JsNum -> string, cs: seq<JsNum>): (r: seq<string>)
    ensures |r| == (|cs| + 1) / 2
  {
    seq((|cs| + 1) / 2, k requires 0 <= k < (|cs| + 1) / 2 => PairText(str, Arg(cs, 2 * k), Arg(cs, 2 * k + 1)))
  }

  /** The `points` text the polygon gets: the vertex texts joined by single spaces. */
  function PointsText(cs: seq<JsNum>): string {
    Join(PairTexts(ValueText, cs), " ")
  }

  /** The anchor of one vertex of a polygon during a drag. All anchors of the polygon share one
      array of coordinates, read from `points` when the anchors were drawn and written in place;
      the anchor of the vertex whose x is coordinate idx keeps the pair that vertex had then. */
  datatype VertexDrag = VertexDrag(coords: seq<JsNum>, idx: nat, origX: JsNum, origY: JsNum)

  /** The anchor drawn for the vertex whose x is coordinate idx of cs. */
  function VertexAnchor(cs: seq<JsNum>, idx: nat): VertexDrag {
    VertexDrag(cs, idx, Arg(cs, idx), Arg(cs, idx + 1))
  }

  /** One pointer move, (dx, dy) away from where the drag began: the kept pair plus the
      displacement goes into the shared coordinates. */
  function MoveVertex(v: VertexDrag, dx: Dec, dy: Dec): VertexDrag {
    v.(coords := SetPair(v.coords, v.idx, Plus(v.origX, Num(dx)), Plus(v.origY, Num(dy))))
  }

  /** The first move of a vertex drag rewrites that vertex's text and no other; the number of
      vertices stays. */
  lemma VertexDragIsolated(str: JsNum -> string, cs: seq<JsNum>, idx: nat, dx: Dec, dy: Dec)
    requires idx % 2 == 0 && idx < |cs|
    ensures PairTexts(str, MoveVertex(VertexAnchor(cs, idx), dx, dy).coords) ==
            PairTexts(str, cs)[idx / 2 := PairText(str, Plus(cs[idx], Num(dx)), Plus(Arg(cs, idx + 1), Num(dy)))]
  {
    var x, y := Plus(Arg(cs, idx), Num(dx)), Plus(Arg(cs, idx + 1), Num(dy));
    var cs' := MoveVertex(VertexAnchor(cs, idx), dx, dy).coords;
    assert cs' == SetPair(cs, idx, x, y);
    PairWrite(cs, idx, x, y);
    var a := PairTexts(str, cs');
    var b := PairTexts(str, cs)[idx / 2 := PairText(str, x, y)];
    assert |a| == |b|;
    forall k | 0 <= k < |a| ensures a[k] == b[k] {
      if k != idx / 2 {
        assert Arg(cs', 2 * k) == Arg(cs, 2 * k);
        assert Arg(cs', 2 * k + 1) == Arg(cs, 2 * k + 1);
      }
    }
  }

  /** A move replaces what an earlier move of the same drag wrote, since both start from the kept
      pair. */
  lemma VertexMoveTwice(v: VertexDrag, dx: Dec, dy: Dec, dx': Dec, dy': Dec)
    ensures MoveVertex(MoveVertex(v, dx, dy), dx', dy') == MoveVertex(v, dx', dy')
  {
    OverwritePair(v.coords, v.idx, Plus(v.origX, Num(dx)), Plus(v.origY, Num(dy)),
                  Plus(v.origX, Num(dx')), Plus(v.origY, Num(dy')));
  }

  /** The anchor after the moves of a drag, in order. */
  function VertexMoves(v: VertexDrag, ms: seq<PointDrag.Delta>): VertexDrag
    decreases |ms|
  {
    if |ms| == 0 then v else VertexMoves(MoveVertex(v, ms[0].dx, ms[0].dy), ms[1..])
  }

  /** The polygon after a vertex drag depends on the last pointer position only: the moves do
      not add up. */
  lemma {:induction false} VertexLastMoveWins(v: VertexDrag, ms: seq<PointDrag.Delta>)
    requires |ms| >= 1
    ensures VertexMoves(v, ms) == MoveVertex(v, ms[|ms| - 1].dx, ms[|ms| - 1].dy)
    decreases |ms|
  {
    if |ms| > 1 {
      var v1 := MoveVertex(v, ms[0].dx, ms[0].dy);
      VertexLastMoveWins(v1, ms[1..]);
      VertexMoveTwice(v, ms[0].dx, ms[0].dy, ms[|ms| - 1].dx, ms[|ms| - 1].dy);
    }
  }

  /** Writing a vertex list and reading it back gives the coordinates back, for an even, nonempty
      list of numbers. */
  lemma PointsRoundTrip(cs: seq<JsNum>)
    requires AllNumbers(cs) && |cs| >= 2 && |cs| % 2 == 0
    ensures Coords(PointsText(cs)) == cs
  {
    forall k | 0 <= k < |cs| ensures Token(ValueText(cs[k])) {
      NumberToken(cs[k]);
    }
    SplitPrinted(ValueText, cs);
    assert Printed(ValueText, cs) == ValueTexts(cs);
    ReadNumberTexts(cs);
  }

  /** The trimmed, split text of a vertex list is the values' texts, for any printer whose texts
      are tokens. */
  lemma SplitPrinted(str: JsNum -> string, cs: seq<JsNum>)
    requires |cs| >= 2 && |cs| % 2 == 0
    requires forall k :: 0 <= k < |cs| ==> Token(str(cs[k]))
    ensures Split(Trim(Join(PairTexts(str, cs), " "))) == Printed(str, cs)
  {
    var t := Join(PairTexts(str, cs), " ");
    PointsSplit(str, cs);
    PointsEnds(str, cs);
    TrimEdges(t);
  }

  /** A nonempty text without separators or whitespace: one piece of a split. */
  predicate Token(s: string) {
    |s| >= 1 && forall i :: 0 <= i < |s| ==> !IsSeparator(s[i])
  }

  /** The text of a number is a token. */
  lemma NumberToken(v: JsNum)
    requires v.Num?
    ensures Token(ValueText(v))
  {
    NumberTextChars(v.d);
    forall i | 0 <= i < |ValueText(v)| ensures !IsSeparator(ValueText(v)[i]) {
      assert NumberChar(ValueText(v)[i]);
    }
  }

  lemma PairTextsCons(str: JsNum -> string, cs: seq<JsNum>)
    requires |cs| >= 2
    ensures PairTexts(str, cs) == [PairText(str, cs[0], cs[1])] + PairTexts(str, cs[2..])
  {
    var a := PairTexts(str, cs);
    var b := [PairText(str, cs[0], cs[1])] + PairTexts(str, cs[2..]);
    assert |a| == |b|;
    forall k | 1 <= k < |a| ensures a[k] == b[k] {
      var x, y := Arg(cs, 2 * k), Arg(cs, 2 * k + 1);
      assert x == Arg(cs[2..], 2 * (k - 1)) && y == Arg(cs[2..], 2 * (k - 1) + 1);
      assert b[k] == PairTexts(str, cs[2..])[k - 1];
    }
    assert a[0] == b[0];
  }

  /** The pieces of p, one separator c and r are p and the pieces of r. */
  lemma SplitPiece(p: string, c: char, r: string)
    requires Token(p) && IsSeparator(c) && |r| >= 1 && !IsSeparator(r[0])
    ensures Split(p + [c] + r) == [p] + Split(r)
  {
    var s := p + [c] + r;
    forall k | 0 <= k < |p| ensures IsSeparator(s[k]) == false {
      assert s[k] == p[k];
    }
    assert s[|p|] == c && s[|p| + 1] == r[0];
    RunEndOf(s, 0, |p|, IsSeparator, false);
    RunEndOf(s, |p|, 1, IsSeparator, true);
    SplitStep(s, 0, IsSeparator, |p|, |p| + 1);
    assert s[|p| + 1..] == r;
    SplitShift(s, |p| + 1, r, 0, IsSeparator);
    assert s[0..|p|] == p;
  }

  /** A token is one piece. */
  lemma SplitWhole(p: string)
    requires Token(p)
    ensures Split(p) == [p]
  {
    RunEndOf(p, 0, |p|, IsSeparator, false);
    assert p[0..] == p;
  }

  /** The pieces of `a,b` and of `a,b t`. */
  lemma SplitPair(a: string, b: string, t: string)
    requires Token(a) && Token(b)
    requires |t| == 0 || !IsSeparator(t[0])
    ensures |t| == 0 ==> Split(a + "," + b) == [a, b]
    ensures |t| > 0 ==> Split(a + "," + b + " " + t) == [a, b] + Split(t)
  {
    if |t| == 0 {
      SplitWhole(b);
      SplitPiece(a, ',', b);
    } else {
      SplitPiece(b, ' ', t);
      SplitPiece(a, ',', b + [' '] + t);
      assert a + "," + b + " " + t == a + [','] + (b + [' '] + t);
    }
  }

  /** A text that starts and ends with a character outside `[\s,]` is its own trim. */
  lemma TrimEdges(t: string)
    requires |t| >= 1 && !IsSeparator(t[0]) && !IsSeparator(t[|t| - 1])
    ensures Trim(t) == t
  {
    TrimUnchanged(t);
  }

  lemma TextEnds(a: string, b: string)
    requires |a| >= 1 && |b| >= 1
    ensures var p := a + "," + b; p[0] == a[0] && p[|p| - 1] == b[|b| - 1]
  {
  }

  /** The texts str gives the values of cs. */
  function Printed(str: JsNum -> string, cs: seq<JsNum>): (r: seq<string>)
    ensures |r| == |cs|
  {
    seq(|cs|, k requires 0 <= k < |cs| => str(cs[k]))
  }

  /** The pieces of a vertex list's text are the coordinates' texts, when each is a token. */
  lemma {:induction false} PointsSplit(str: JsNum -> string, cs: seq<JsNum>)
    requires |cs| >= 2 && |cs| % 2 == 0
    requires forall k :: 0 <= k < |cs| ==> Token(str(cs[k]))
    ensures Split(Join(PairTexts(str, cs), " ")) == Printed(str, cs)
    decreases |cs|
  {
    var a, b := str(cs[0]), str(cs[1]);
    assert Token(a) && Token(b);
    PairTextsCons(str, cs);
    var rest := cs[2..];
    if |rest| == 0 {
      assert Join(PairTexts(str, cs), " ") == a + "," + b;
      SplitPair(a, b, "");
      assert Printed(str, cs) == [a, b];
    } else {
      var t := Join(PairTexts(str, rest), " ");
      assert Join(PairTexts(str, cs), " ") == a + "," + b + " " + t;
      PairTextsCons(str, rest);
      assert Token(str(rest[0])) && Token(str(rest[1]));
      JoinFirst(PairTexts(str, rest), " ");
      SplitPair(a, b, t);
      PointsSplit(str, rest);
      assert Printed(str, cs) == [a, b] + Printed(str, rest);
    }
  }

  /** A vertex list's text starts and ends with a character of a token. */
  lemma PointsEnds(str: JsNum -> string, cs: seq<JsNum>)
    requires |cs| >= 2 && |cs| % 2 == 0
    requires forall k :: 0 <= k < |cs| ==> Token(str(cs[k]))
    ensures var t := Join(PairTexts(str, cs), " ");
            |t| >= 1 && !IsSeparator(t[0]) && !IsSeparator(t[|t| - 1])
  {
    var ps := PairTexts(str, cs);
    var n := |ps|;
    var x, y := cs[2 * (n - 1)], cs[2 * (n - 1) + 1];
    assert ps[n - 1] == PairText(str, x, y);
    assert ps[0] == PairText(str, cs[0], cs[1]);
    assert Token(str(cs[0])) && Token(str(x)) && Token(str(y));
    TextEnds(str(cs[0]), str(cs[1]));
    TextEnds(str(x), str(y));
    JoinFirst(ps, " ");
    JoinLast(ps, " ");
  }
}

=== FILE: svg_text.dfy ===
/** Finding the SVG document in a model's reply, on the server (lazy match, with a fenced-block
    fallback) and in the browser (greedy match, with a retry after removing code fences). */
module SvgText {
  import opened Wrappers
  import opened Text
  import opened Scan
  import PathCodec
  import Lists

  const OpenTag := "<svg"
  const CloseTag := "</svg>"
  const Fence := "```"

  /** The word w at position k, in any case when `ignoreCase`: the end of the occurrence. */
  function WordAt(s: string, w: string, ignoreCase: bool, k: nat): (r: Option<nat>)
    ensures r.Some? ==> r.value == k + |w| <= |s|
  {
    if (if ignoreCase then AtIgnoreCase(s, k, w) else At(s, k, w)) then Some(k + |w|) else None
  }

  function Occurrences(s: string, w: string, ignoreCase: bool): nat -> Option<nat> {
    (k: nat) => WordAt(s, w, ignoreCase, k)
  }

  function CloseTags(s: string): nat -> Option<nat> {
    Occurrences(s, CloseTag, true)
  }

  /** `<svg[\s\S]*?<\/svg>` with flag i at position i: the end of the nearest closing tag after the
      opening one. */
  function LazyAt(s: string, i: nat): (r: Option<nat>)
    ensures r.Some? ==> i + |OpenTag| + |CloseTag| <= r.value <= |s|
  {
    if !AtIgnoreCase(s, i, OpenTag) then None
    else match Find(CloseTags(s), i + |OpenTag|, |s|)
      case Some((_, e)) =>
        FindSome(CloseTags(s), i + |OpenTag|, |s|);
        Some(e)
      case None => None
  }

  /** `<svg[\s\S]*<\/svg>` with flag i at position i: the end of the last closing tag after the
      opening one. */
  function GreedyAt(s: string, i: nat): (r: Option<nat>)
    ensures r.Some? ==> i + |OpenTag| + |CloseTag| <= r.value <= |s|
  {
    if !AtIgnoreCase(s, i, OpenTag) then None
    else match FindLast(CloseTags(s), i + |OpenTag|, |s|)
      case Some((_, e)) =>
        FindLastSome(CloseTags(s), i + |OpenTag|, |s|);
        Some(e)
      case None => None
  }

  function LazyMatcher(s: string): nat -> Option<nat> {
    (i: nat) => LazyAt(s, i)
  }

  function GreedyMatcher(s: string): nat -> Option<nat> {
    (i: nat) => GreedyAt(s, i)
  }

  /** Where `text.match(/<svg[\s\S]*?<\/svg>/i)` matches. */
  function LazySpan(s: string): (r: Option<(nat, nat)>)
    ensures r.Some? ==> r.value.0 + |OpenTag| + |CloseTag| <= r.value.1 <= |s|
  {
    match Find(LazyMatcher(s), 0, |s|)
    case Some((i, e)) =>
      FindSome(LazyMatcher(s), 0, |s|);
      Some((i, e))
    case None => None
  }

  /** Where `text.match(/<svg[\s\S]*<\/svg>/i)` matches. */
  function GreedySpan(s: string): (r: Option<(nat, nat)>)
    ensures r.Some? ==> r.value.0 + |OpenTag| + |CloseTag| <= r.value.1 <= |s|
  {
    match Find(GreedyMatcher(s), 0, |s|)
    case Some((i, e)) =>
      FindSome(GreedyMatcher(s), 0, |s|);
      Some((i, e))
    case None => None
  }

  function Slice(s: string, span: Option<(nat, nat)>): Option<string>
    requires span.Some? ==> span.value.0 <= span.value.1 <= |s|
  {
    match span
    case Some((i, e)) => Some(s[i..e])
    case None => None
  }

  function LazySvg(s: string): Option<string> {
    Slice(s, LazySpan(s))
  }

  function GreedySvg(s: string): Option<string> {
    Slice(s, GreedySpan(s))
  }

  // ---- the server's fenced-block fallback ----

  /** The length of the first of the words (lower case) found at p ignoring case, or 0: an
      optional alternative `(?:svg|xml|html)?` with flag i. */
  function LangLength(s: string, p: nat, langs: seq<string>): (n: nat)
    ensures n == 0 || p + n <= |s|
  {
    if |langs| == 0 then 0
    else if AtIgnoreCase(s, p, langs[0]) then |langs[0]|
    else LangLength(s, p, langs[1..])
  }

  /** Where the code fence at p, its optional language and the whitespace after it end. */
  function FenceEnd(s: string, p: nat, langs: seq<string>): (e: nat)
    requires At(s, p, Fence)
    ensures p + |Fence| <= e <= |s|
  {
    var l := p + |Fence| + LangLength(s, p + |Fence|, langs);
    PathCodec.RunEnd(s, l, IsSpace, true)
  }

  /** `` ```(?:svg|xml|html)?\s*\n?([\s\S]*?)``` `` with flag i at position p: the bounds of the
      captured block. The optional parts take all they can, since a closing fence can start
      neither inside the language word nor inside whitespace, and the block ends at the nearest
      closing fence. */
  function FenceAt(s: string, p: nat): (r: Option<(nat, nat)>)
    ensures r.Some? ==> r.value.0 <= r.value.1 <= |s|
  {
    if !At(s, p, Fence) then None
    else
      var a := FenceEnd(s, p, ["svg", "xml", "html"]);
      match Find(Occurrences(s, Fence, false), a, |s|)
      case Some((q, _)) =>
        FindSome(Occurrences(s, Fence, false), a, |s|);
        Some((a, q))
      case None => None
  }

  function FenceMatcher(s: string): nat -> Option<(nat, nat)> {
    (p: nat) => FenceAt(s, p)
  }

  /** `extractSvg`: the lazy match, or else the lazy match inside the trimmed first fenced block. */
  function ExtractSvg(text: string): Option<string> {
    match LazySvg(text)
    case Some(svg) => Some(svg)
    case None =>
      match Find(FenceMatcher(text), 0, |text|)
      case Some((_, (a, q))) =>
        FindSome(FenceMatcher(text), 0, |text|);
        LazySvg(Trim(text[a..q]))
      case None => None
  }

  // ---- the browser's fence stripping ----

  /** `s.replace(/```(?:svg|xml)?\s*\/gi, "")` (with no language words: `/```\s*\/g`), from p. */
  function StripFences(s: string, p: nat, langs: seq<string>): string
    requires p <= |s|
    decreases |s| - p
  {
    if p == |s| then ""
    else if At(s, p, Fence) then StripFences(s, FenceEnd(s, p, langs), langs)
    else [s[p]] + StripFences(s, p + 1, langs)
  }

  /** The text the browser searches again when the first search finds nothing. */
  function Unfenced(s: string): string {
    var once := StripFences(s, 0, ["svg", "xml"]);
    StripFences(once, 0, [])
  }

  /** The client's extraction: the greedy match, or else the greedy match in the unfenced text. */
  function ClientExtract(text: string): Option<string> {
    match GreedySvg(text)
    case Some(svg) => Some(svg)
    case None => GreedySvg(Unfenced(text))
  }

  // ---- what the searches find ----

  /** A closing tag starts somewhere at or after a. */
  predicate CloseFrom(s: string, a: nat) {
    exists k: nat :: a <= k < |s| && AtIgnoreCase(s, k, CloseTag)
  }

  /** No closing tag starts in [a, b). */
  predicate NoCloseIn(s: string, a: nat, b: nat) {
    forall k: nat :: a <= k < b ==> !AtIgnoreCase(s, k, CloseTag)
  }

  /** A document can start at j: an opening tag there and a closing tag after it. */
  predicate Opens(s: string, j: nat) {
    AtIgnoreCase(s, j, OpenTag) && CloseFrom(s, j + |OpenTag|)
  }

  lemma CloseTagsAt(s: string, k: nat)
    ensures CloseTags(s)(k).Some? <==> AtIgnoreCase(s, k, CloseTag)
  {
  }

  lemma CloseTagsFind(s: string, a: nat)
    ensures Find(CloseTags(s), a, |s|).Some? <==> CloseFrom(s, a)
  {
    FindNone(CloseTags(s), a, |s|);
    if CloseFrom(s, a) {
      var k: nat :| a <= k < |s| && AtIgnoreCase(s, k, CloseTag);
      CloseTagsAt(s, k);
    }
  }

  lemma CloseTagsFindLast(s: string, a: nat)
    ensures FindLast(CloseTags(s), a, |s|).Some? <==> CloseFrom(s, a)
  {
    FindLastNone(CloseTags(s), a, |s|);
    if CloseFrom(s, a) {
      var k: nat :| a <= k < |s| && AtIgnoreCase(s, k, CloseTag);
      CloseTagsAt(s, k);
    }
  }

  /** The nearest closing tag at or after a, as the search finds it. */
  lemma NearestClose(s: string, a: nat)
    requires Find(CloseTags(s), a, |s|).Some?
    ensures var (k, e) := Find(CloseTags(s), a, |s|).value;
            && e == k + |CloseTag| && AtIgnoreCase(s, k, CloseTag) && NoCloseIn(s, a, k)
  {
    var (k, e) := Find(CloseTags(s), a, |s|).value;
    FindSome(CloseTags(s), a, |s|);
    CloseTagsAt(s, k);
    forall j: nat | a <= j < k
      ensures !AtIgnoreCase(s, j, CloseTag)
    {
      CloseTagsAt(s, j);
    }
  }

  /** The last closing tag at or after a, as the backward search finds it. */
  lemma LastClose(s: string, a: nat)
    requires FindLast(CloseTags(s), a, |s|).Some?
    ensures var (k, e) := FindLast(CloseTags(s), a, |s|).value;
            && e == k + |CloseTag| && AtIgnoreCase(s, k, CloseTag) && NoCloseIn(s, k + 1, |s|)
  {
    var (k, e) := FindLast(CloseTags(s), a, |s|).value;
    FindLastSome(CloseTags(s), a, |s|);
    CloseTagsAt(s, k);
    forall j: nat | k + 1 <= j < |s|
      ensures !AtIgnoreCase(s, j, CloseTag)
    {
      CloseTagsAt(s, j);
    }
  }

  /** The lazy search at i succeeds exactly where a document opens, and ends at the nearest closing tag. */
  lemma LazyAtIs(s: string, i: nat)
    ensures LazyAt(s, i).Some? <==> Opens(s, i)
    ensures LazyAt(s, i).Some? ==>
              var e := LazyAt(s, i).value;
              && AtIgnoreCase(s, e - |CloseTag|, CloseTag)
              && NoCloseIn(s, i + |OpenTag|, e - |CloseTag|)
  {
    if !AtIgnoreCase(s, i, OpenTag) {
      assert LazyAt(s, i).None?;
    } else {
      CloseTagsFind(s, i + |OpenTag|);
      if LazyAt(s, i).Some? {
        LazyAtEnd(s, i);
      }
    }
  }

  lemma LazyAtEnd(s: string, i: nat)
    requires AtIgnoreCase(s, i, OpenTag) && Find(CloseTags(s), i + |OpenTag|, |s|).Some?
    ensures LazyAt(s, i).Some?
    ensures AtIgnoreCase(s, LazyAt(s, i).value - |CloseTag|, CloseTag)
    ensures NoCloseIn(s, i + |OpenTag|, LazyAt(s, i).value - |CloseTag|)
  {
    var (k, e) := Find(CloseTags(s), i + |OpenTag|, |s|).value;
    assert LazyAt(s, i) == Some(e);
    NearestClose(s, i + |OpenTag|);
    assert k == e - |CloseTag|;
  }

  /** The greedy search at i succeeds exactly where a document opens, and ends at the last closing tag. */
  lemma GreedyAtIs(s: string, i: nat)
    ensures GreedyAt(s, i).Some? <==> Opens(s, i)
    ensures GreedyAt(s, i).Some? ==>
              var e := GreedyAt(s, i).value;
              && AtIgnoreCase(s, e - |CloseTag|, CloseTag)
              && NoCloseIn(s, e - |CloseTag| + 1, |s|)
  {
    if AtIgnoreCase(s, i, OpenTag) {
      CloseTagsFindLast(s, i + |OpenTag|);
      if GreedyAt(s, i).Some? {
        var (k, e) := FindLast(CloseTags(s), i + |OpenTag|, |s|).value;
        assert GreedyAt(s, i) == Some(e);
        LastClose(s, i + |OpenTag|);
        assert k == e - |CloseTag|;
      }
    }
  }

  /** Both searches can start at exactly the same positions. */
  lemma SameStarts(s: string)
    ensures forall j: nat :: LazyMatcher(s)(j).Some? <==> GreedyMatcher(s)(j).Some?
  {
    forall j: nat
      ensures LazyMatcher(s)(j).Some? <==> GreedyMatcher(s)(j).Some?
    {
      LazyAtIs(s, j);
      GreedyAtIs(s, j);
    }
  }

  /** The browser finds a document exactly when the server's pattern would, at the same place; the
      server's match is a prefix of the browser's, which runs on to the last closing tag. */
  lemma LazyPrefixOfGreedy(s: string)
    ensures LazySpan(s).Some? <==> GreedySpan(s).Some?
    ensures LazySpan(s).Some? ==>
              && LazySpan(s).value.0 == GreedySpan(s).value.0
              && LazySpan(s).value.1 <= GreedySpan(s).value.1
              && GreedySvg(s).value[..|LazySvg(s).value|] == LazySvg(s).value
  {
    SameStarts(s);
    FindAgree(LazyMatcher(s), GreedyMatcher(s), 0, |s|);
    if LazySpan(s).Some? {
      var (i, e) := LazySpan(s).value;
      var (g, f) := GreedySpan(s).value;
      LazySpanTags(s);
      GreedySpanLast(s);
      assert !(f - |CloseTag| + 1 <= e - |CloseTag| < |s|);
      assert s[g..f][..e - i] == s[i..e];
    }
  }

  // ---- the server's fallback finds nothing new ----

  lemma AtIgnoreCaseWithin(t: string, s: string, x: nat, j: nat, w: string)
    requires Within(t, s, x) && AtIgnoreCase(t, j, w)
    ensures AtIgnoreCase(s, x + j, w)
  {
    var a := t[j..j + |w|];
    var b := s[x + j..x + j + |w|];
    forall i | 0 <= i < |w|
      ensures a[i] == b[i]
    {
      assert a[i] == t[j + i];
    }
    assert a == b;
  }

  /** A document that opens inside a part of the text opens at the same place in the whole text. */
  lemma OpensWithin(t: string, s: string, x: nat, j: nat)
    requires Within(t, s, x) && Opens(t, j)
    ensures Opens(s, x + j)
  {
    AtIgnoreCaseWithin(t, s, x, j, OpenTag);
    var k: nat :| j + |OpenTag| <= k < |t| && AtIgnoreCase(t, k, CloseTag);
    AtIgnoreCaseWithin(t, s, x, k, CloseTag);
  }

  /** Where a document opens, the lazy search finds one. */
  lemma OpensFound(s: string, j: nat)
    requires Opens(s, j)
    ensures LazySpan(s).Some?
  {
    LazyAtIs(s, j);
    FindNone(LazyMatcher(s), 0, |s|);
    assert LazyMatcher(s)(j).Some?;
  }

  /** Where the lazy search finds a document, one opens. */
  lemma FoundOpens(s: string)
    requires LazySpan(s).Some?
    ensures Opens(s, LazySpan(s).value.0)
  {
    FindSome(LazyMatcher(s), 0, |s|);
    LazyAtIs(s, LazySpan(s).value.0);
  }

  /** A document found in a part of the text is a document of the whole text. */
  lemma FoundWithin(t: string, s: string, x: nat)
    requires Within(t, s, x)
    ensures LazySpan(t).Some? ==> LazySpan(s).Some?
  {
    if LazySpan(t).Some? {
      var i := LazySpan(t).value.0;
      FoundOpens(t);
      OpensWithin(t, s, x, i);
      OpensFound(s, x + i);
    }
  }

  /** A document found in a trimmed slice of the text is a document of the whole text. */
  lemma FoundInside(s: string, x: nat, y: nat)
    requires x <= y <= |s|
    ensures LazySpan(Trim(s[x..y])).Some? ==> LazySpan(s).Some?
  {
    var d := TrimmedSliceWithin(s, x, y);
    FoundWithin(Trim(s[x..y]), s, x + d);
  }

  /** A trimmed slice lies in the text, d characters after the slice's start. */
  lemma TrimmedSliceWithin(s: string, x: nat, y: nat) returns (d: nat)
    requires x <= y <= |s|
    ensures Within(Trim(s[x..y]), s, x + d)
  {
    var t := s[x..y];
    d := |t| - |TrimStart(t)|;
    TrimWithin(t);
    assert Within(t, s, x);
    WithinTrans(Trim(t), t, s, d, x);
  }

  /** `extractSvg` answers exactly what its first search answers: a document inside the first fenced
      block would already have been found by the search over the whole reply. */
  lemma ExtractIsLazy(text: string)
    ensures ExtractSvg(text) == LazySvg(text)
  {
    if LazySvg(text).None? {
      match Find(FenceMatcher(text), 0, |text|)
      case Some((_, (a, q))) =>
        FindSome(FenceMatcher(text), 0, |text|);
        FoundInside(text, a, q);
      case None =>
    }
  }

  // ---- the shape of what is found ----

  /** An SVG document as both patterns match it: an opening tag, then a closing tag at the end. */
  predicate Document(m: string) {
    |OpenTag| + |CloseTag| <= |m| && AtIgnoreCase(m, 0, OpenTag) && AtIgnoreCase(m, |m| - |CloseTag|, CloseTag)
  }

  /** A word of the text that lies inside a slice is a word of the slice. */
  lemma AtIgnoreCaseInSlice(s: string, i: nat, e: nat, j: nat, w: string)
    requires i <= j && j + |w| <= e <= |s| && AtIgnoreCase(s, j, w)
    ensures AtIgnoreCase(s[i..e], j - i, w)
  {
    var a := s[i..e][j - i..j - i + |w|];
    var b := s[j..j + |w|];
    forall k | 0 <= k < |w|
      ensures a[k] == b[k]
    {
      assert a[k] == s[i..e][j - i + k];
    }
    assert a == b;
  }

  /** The slice from a document's opening tag to a closing tag after it is a document. */
  lemma DocumentSlice(s: string, i: nat, e: nat)
    requires i + |OpenTag| + |CloseTag| <= e <= |s|
    requires AtIgnoreCase(s, i, OpenTag) && AtIgnoreCase(s, e - |CloseTag|, CloseTag)
    ensures Document(s[i..e])
  {
    AtIgnoreCaseInSlice(s, i, e, i, OpenTag);
    AtIgnoreCaseInSlice(s, i, e, e - |CloseTag|, CloseTag);
  }

  lemma LazySpanAt(s: string)
    requires LazySpan(s).Some?
    ensures LazyAt(s, LazySpan(s).value.0) == Some(LazySpan(s).value.1)
  {
    FindSome(LazyMatcher(s), 0, |s|);
  }

  lemma GreedySpanAt(s: string)
    requires GreedySpan(s).Some?
    ensures GreedyAt(s, GreedySpan(s).value.0) == Some(GreedySpan(s).value.1)
  {
    FindSome(GreedyMatcher(s), 0, |s|);
  }

  lemma LazySpanTags(s: string)
    requires LazySpan(s).Some?
    ensures var (i, e) := LazySpan(s).value;
            && i + |OpenTag| + |CloseTag| <= e <= |s|
            && AtIgnoreCase(s, i, OpenTag) && AtIgnoreCase(s, e - |CloseTag|, CloseTag)
  {
    LazySpanAt(s);
    LazyAtIs(s, LazySpan(s).value.0);
  }

  lemma GreedySpanLast(s: string)
    requires GreedySpan(s).Some?
    ensures NoCloseIn(s, GreedySpan(s).value.1 - |CloseTag| + 1, |s|)
  {
    GreedySpanAt(s);
    GreedyAtIs(s, GreedySpan(s).value.0);
  }

  /** The server's match is a document. */
  lemma LazyShape(s: string)
    requires LazySvg(s).Some?
    ensures Document(LazySvg(s).value)
  {
    var (i, e) := LazySpan(s).value;
    LazySpanTags(s);
    DocumentSlice(s, i, e);
  }

  /** The browser's match is a document. */
  lemma GreedyShape(s: string)
    requires GreedySvg(s).Some?
    ensures Document(GreedySvg(s).value)
  {
    var (i, e) := GreedySpan(s).value;
    GreedySpanTags(s);
    DocumentSlice(s, i, e);
  }

  lemma GreedySpanTags(s: string)
    requires GreedySpan(s).Some?
    ensures var (i, e) := GreedySpan(s).value;
            && i + |OpenTag| + |CloseTag| <= e <= |s|
            && AtIgnoreCase(s, i, OpenTag) && AtIgnoreCase(s, e - |CloseTag|, CloseTag)
  {
    GreedySpanAt(s);
    GreedyAtIs(s, GreedySpan(s).value.0);
  }

  /** Whatever the browser extracts is a document; and whenever the server's pattern finds a
      document in a reply, the browser finds one that starts with it. */
  lemma ClientExtractIs(text: string)
    ensures ClientExtract(text).Some? ==> Document(ClientExtract(text).value)
    ensures LazySvg(text).Some? ==>
              && ClientExtract(text).Some?
              && |LazySvg(text).value| <= |ClientExtract(text).value|
              && ClientExtract(text).value[..|LazySvg(text).value|] == LazySvg(text).value
  {
    LazyPrefixOfGreedy(text);
    if GreedySvg(text).Some? {
      GreedyShape(text);
    } else if GreedySvg(Unfenced(text)).Some? {
      GreedyShape(Unfenced(text));
    }
  }

  /** Given a whole document, the browser finds all of it. */
  lemma DocumentFound(d: string)
    requires Document(d)
    ensures ClientExtract(d) == Some(d)
  {
    assert Opens(d, 0) by {
      assert 0 + |OpenTag| <= |d| - |CloseTag| < |d| && AtIgnoreCase(d, |d| - |CloseTag|, CloseTag);
    }
    GreedyAtIs(d, 0);
    var k: nat := |d| - |CloseTag|;
    assert AtIgnoreCase(d, k, CloseTag);
    assert GreedyAt(d, 0) == Some(|d|);
    assert GreedySpan(d) == Some((0, |d|));
    assert d[0..|d|] == d;
  }

  /** Removing fences only deletes characters: what remains is in order in the original. */
  lemma {:induction false} StripFencesKeeps(s: string, p: nat, langs: seq<string>)
    requires p <= |s|
    ensures Lists.Subsequence(StripFences(s, p, langs), s[p..])
    decreases |s| - p
  {
    if p < |s| {
      if At(s, p, Fence) {
        var q := FenceEnd(s, p, langs);
        StripFencesKeeps(s, q, langs);
        assert s[p..][q - p..] == s[q..];
        Lists.SubsequenceSuffix(StripFences(s, q, langs), s[p..], q - p);
      } else {
        StripFencesKeeps(s, p + 1, langs);
        var r := StripFences(s, p + 1, langs);
        assert ([s[p]] + r)[1..] == r;
        assert s[p..][1..] == s[p + 1..];
      }
    }
  }

  /** Text without a code fence is left as it is. */
  lemma {:induction false} StripFencesNone(s: string, p: nat, langs: seq<string>)
    requires p <= |s|
    requires forall k: nat :: p <= k ==> !At(s, k, Fence)
    ensures StripFences(s, p, langs) == s[p..]
    decreases |s| - p
  {
    if p < |s| {
      StripFencesNone(s, p + 1, langs);
      assert s[p..] == [s[p]] + s[p + 1..];
    }
  }

  // ---- clipping to the view box ----

  const OverflowWord := "overflow"
  const Hidden := "overflow=\"hidden\""

  predicate IsQuote(c: char) {
    c == '"' || c == '\''
  }

  /** `overflow\s*=\s*["'][^"']*["']` at i: the end of the match. Each repetition takes all it can,
      since none can give a character back to what follows it. */
  function AttributeAt(s: string, i: nat): (r: Option<nat>)
    ensures r.Some? ==> i + |OverflowWord| < r.value <= |s| && IsQuote(s[r.value - 1])
  {
    if !At(s, i, OverflowWord) then None
    else
      var a := PathCodec.RunEnd(s, i + |OverflowWord|, IsSpace, true);
      if a == |s| || s[a] != '=' then None
      else
        var b := PathCodec.RunEnd(s, a + 1, IsSpace, true);
        if b == |s| || !IsQuote(s[b]) then None
        else
          var c := PathCodec.RunEnd(s, b + 1, IsQuote, false);
          if c == |s| then None else Some(c + 1)
  }

  function Attributes(s: string): nat -> Option<nat> {
    (i: nat) => AttributeAt(s, i)
  }

  /** `<svg(\s)` at i: the position of the whitespace. */
  function TagSpaceAt(s: string, i: nat): (r: Option<nat>)
    ensures r.Some? ==> r.value == i + |OpenTag| < |s|
  {
    if At(s, i, OpenTag) && i + |OpenTag| < |s| && IsSpace(s[i + |OpenTag|]) then Some(i + |OpenTag|) else None
  }

  function TagSpaces(s: string): nat -> Option<nat> {
    (i: nat) => TagSpaceAt(s, i)
  }

  /** The first step of the browser's clean-up: the first overflow attribute becomes
      `overflow="hidden"`; without one, that attribute goes in after the first `<svg` that
      whitespace follows; without either, the text stays as it is. */
  function ForceHidden(svg: string): string {
    var first := Find(Attributes(svg), 0, |svg|);
    var tag := Find(TagSpaces(svg), 0, |svg|);
    if first.Some? then
      FindSome(Attributes(svg), 0, |svg|);
      svg[..first.value.0] + Hidden + svg[first.value.1..]
    else if tag.Some? then
      FindSome(TagSpaces(svg), 0, |svg|);
      svg[..tag.value.1] + " " + Hidden + svg[tag.value.1..]
    else svg
  }

  /** `overflow="hidden"` is an overflow attribute, and the match ends with it. */
  lemma HiddenAttribute(r: string, i: nat)
    requires At(r, i, Hidden)
    ensures AttributeAt(r, i) == Some(i + |Hidden|)
  {
    forall k | 0 <= k < |Hidden|
      ensures r[i + k] == Hidden[k]
    {
      assert r[i + k] == r[i..i + |Hidden|][k];
    }
    assert r[i..i + |OverflowWord|] == r[i..i + |Hidden|][..8];
    assert Hidden[..8] == OverflowWord;
    PathCodec.RunEndOf(r, i + 8, 0, IsSpace, true);
    PathCodec.RunEndOf(r, i + 9, 0, IsSpace, true);
    PathCodec.RunEndOf(r, i + 10, 6, IsQuote, false);
  }

  /** No proper suffix of the word `overflow` begins it. */
  lemma WordBorders()
    ensures forall d :: 1 <= d < |OverflowWord| ==> OverflowWord[d..] != OverflowWord[..|OverflowWord| - d]
  {
    forall d | 1 <= d < |OverflowWord|
      ensures OverflowWord[d..] != OverflowWord[..|OverflowWord| - d]
    {
      var j := if d == 6 then 1 else 0;
      assert OverflowWord[d..][j] != OverflowWord[..|OverflowWord| - d][j];
    }
  }

  /** Two occurrences of the word `overflow` cannot overlap. */
  lemma WordsApart(s: string, k: nat, i: nat)
    requires At(s, k, OverflowWord) && At(s, i, OverflowWord) && k < i
    ensures k + |OverflowWord| <= i
  {
    if i < k + |OverflowWord| {
      var d := i - k;
      assert s[i..k + 8] == s[k..k + 8][d..];
      assert s[i..k + 8] == s[i..i + 8][..8 - d];
      WordBorders();
      assert false;
    }
  }

  /** The stages of an overflow attribute match: the word, the equals sign after optional
      whitespace, the opening quote after optional whitespace. */
  lemma AttributeParts(s: string, k: nat) returns (a: nat, b: nat)
    requires AttributeAt(s, k).Some?
    ensures At(s, k, OverflowWord)
    ensures k + |OverflowWord| <= a < |s| && a == PathCodec.RunEnd(s, k + |OverflowWord|, IsSpace, true) && s[a] == '='
    ensures a < b < |s| && b == PathCodec.RunEnd(s, a + 1, IsSpace, true) && IsQuote(s[b])
  {
    a := PathCodec.RunEnd(s, k + |OverflowWord|, IsSpace, true);
    b := PathCodec.RunEnd(s, a + 1, IsSpace, true);
  }

  /** The stages of a match, and a quote to close it, make a match. */
  lemma AttributeFrom(s: string, k: nat, a: nat, b: nat, q: nat)
    requires At(s, k, OverflowWord)
    requires k + |OverflowWord| <= a < |s| && a == PathCodec.RunEnd(s, k + |OverflowWord|, IsSpace, true) && s[a] == '='
    requires a < b < |s| && b == PathCodec.RunEnd(s, a + 1, IsSpace, true) && IsQuote(s[b])
    requires b < q < |s| && IsQuote(s[q])
    ensures AttributeAt(s, k).Some?
  {
    PathCodec.RunEndBefore(s, b + 1, IsQuote, false, q);
  }

  lemma WordAgree(r: string, svg: string, k: nat, i: nat)
    requires i < |svg| && i < |r| && forall x :: 0 <= x <= i ==> svg[x] == r[x]
    requires At(r, k, OverflowWord) && k + |OverflowWord| <= i
    ensures At(svg, k, OverflowWord)
  {
    assert svg[k..k + 8] == r[k..k + 8];
  }

  /** The word `overflow` starts with a character that is neither whitespace, a quote nor `=`. */
  lemma WordStart(r: string, i: nat)
    requires At(r, i, OverflowWord)
    ensures !IsSpace(r[i]) && !IsQuote(r[i]) && r[i] != '='
  {
    assert r[i] == r[i..i + 8][0];
  }

  /** The stages of a match that starts before i end before i, so they are the same in svg; sp is
      the whitespace class. */
  lemma EarlierStages(svg: string, r: string, i: nat, k: nat, a: nat, b: nat, sp: char -> bool)
    requires i < |svg| && i < |r| && forall x :: 0 <= x <= i ==> svg[x] == r[x]
    requires !sp(r[i]) && !IsQuote(r[i]) && r[i] != '='
    requires k + |OverflowWord| <= i
    requires k + |OverflowWord| <= a < |r| && a == PathCodec.RunEnd(r, k + |OverflowWord|, sp, true) && r[a] == '='
    requires a < b < |r| && b == PathCodec.RunEnd(r, a + 1, sp, true) && IsQuote(r[b])
    ensures b < i
    ensures a == PathCodec.RunEnd(svg, k + |OverflowWord|, sp, true) && svg[a] == '='
    ensures b == PathCodec.RunEnd(svg, a + 1, sp, true) && IsQuote(svg[b])
  {
    PathCodec.RunEndAgreeBefore(r, svg, k + 8, i, sp, true);
    PathCodec.RunEndAgreeBefore(r, svg, a + 1, i, sp, true);
  }

  /** An overflow attribute that starts before i in a text that agrees with svg up to position i,
      where both hold the word `overflow`, starts there in svg too, provided svg has an overflow
      attribute at i: the scan before i depends only on the characters up to i and on a quote after it. */
  lemma EarlierAttribute(svg: string, r: string, i: nat, k: nat)
    requires i < |svg| && i < |r| && forall x :: 0 <= x <= i ==> svg[x] == r[x]
    requires At(r, i, OverflowWord) && AttributeAt(svg, i).Some? && k < i
    ensures AttributeAt(r, k).Some? ==> AttributeAt(svg, k).Some?
  {
    if AttributeAt(r, k).Some? {
      var a, b := AttributeParts(r, k);
      WordsApart(r, k, i);
      WordAgree(r, svg, k, i);
      WordStart(r, i);
      EarlierStages(svg, r, i, k, a, b, IsSpace);
      AttributeFrom(svg, k, a, b, AttributeAt(svg, i).value - 1);
    }
  }

  lemma ForceHiddenReplaces(svg: string, i: nat, e: nat)
    requires Find(Attributes(svg), 0, |svg|) == Some((i, e))
    ensures AttributeAt(svg, i) == Some(e) && i < e <= |svg|
    ensures ForceHidden(svg) == svg[..i] + Hidden + svg[e..]
  {
    AttributeFound(svg, i, e);
    ReplacedText(svg, i, e);
  }

  lemma AttributeFound(svg: string, i: nat, e: nat)
    requires Find(Attributes(svg), 0, |svg|) == Some((i, e))
    ensures AttributeAt(svg, i) == Some(e) && i < e <= |svg|
  {
    FindSome(Attributes(svg), 0, |svg|);
    assert Attributes(svg)(i) == AttributeAt(svg, i);
  }

  lemma ReplacedText(svg: string, i: nat, e: nat)
    requires Find(Attributes(svg), 0, |svg|) == Some((i, e)) && i <= e <= |svg|
    ensures ForceHidden(svg) == svg[..i] + Hidden + svg[e..]
  {
  }

  lemma ForceHiddenAdds(svg: string, i: nat, w: nat)
    requires Find(Attributes(svg), 0, |svg|).None? && Find(TagSpaces(svg), 0, |svg|) == Some((i, w))
    ensures TagSpaceAt(svg, i) == Some(w) && w < |svg|
    ensures ForceHidden(svg) == svg[..w] + " " + Hidden + svg[w..]
  {
    FindSome(TagSpaces(svg), 0, |svg|);
  }

  /** The text written in place of the first attribute starts with the word `overflow` too. */
  lemma ReplacedStart(svg: string, i: nat, e: nat)
    requires AttributeAt(svg, i) == Some(e)
    ensures var r := svg[..i] + Hidden + svg[e..];
            && At(r, i, Hidden) && At(r, i, OverflowWord)
            && forall x :: 0 <= x <= i ==> svg[x] == r[x]
  {
    var r := svg[..i] + Hidden + svg[e..];
    assert r[i..i + |Hidden|] == Hidden;
    assert r[i..i + 8] == OverflowWord;
    assert svg[i] == svg[i..i + 8][0];
    assert r[..i] == svg[..i];
  }

  /** After the rewrite, the first overflow attribute is the one written, and it reads hidden. */
  lemma ForceHiddenFirst(svg: string)
    requires Find(Attributes(svg), 0, |svg|).Some?
    ensures var i := Find(Attributes(svg), 0, |svg|).value.0;
            var r := ForceHidden(svg);
            && At(r, i, Hidden)
            && Find(Attributes(r), 0, |r|) == Some((i, i + |Hidden|))
  {
    var (i, e) := Find(Attributes(svg), 0, |svg|).value;
    FindSome(Attributes(svg), 0, |svg|);
    ForceHiddenReplaces(svg, i, e);
    var r := ForceHidden(svg);
    ReplacedStart(svg, i, e);
    HiddenAttribute(r, i);
    forall k: nat | k < i
      ensures Attributes(r)(k).None?
    {
      EarlierAttribute(svg, r, i, k);
      assert Attributes(svg)(k).None?;
    }
    assert Attributes(r)(i) == Some(i + |Hidden|);
    FindFirst(Attributes(r), 0, |r|, i);
  }

  /** When the model wrote an overflow attribute, running the rewrite again changes nothing. */
  lemma ForceHiddenTwice(svg: string)
    requires Find(Attributes(svg), 0, |svg|).Some?
    ensures ForceHidden(ForceHidden(svg)) == ForceHidden(svg)
  {
    ForceHiddenFirst(svg);
    HiddenFixed(ForceHidden(svg), Find(Attributes(svg), 0, |svg|).value.0);
  }

  lemma HiddenFixed(r: string, i: nat)
    requires At(r, i, Hidden) && Find(Attributes(r), 0, |r|) == Some((i, i + |Hidden|))
    ensures ForceHidden(r) == r
  {
    ForceHiddenReplaces(r, i, i + |Hidden|);
    KeepsReplaced(r, i, i + |Hidden|);
  }

  /** Without an overflow attribute, `overflow="hidden"` goes in after the first `<svg` that whitespace
      follows, and is an overflow attribute there; the text around it is kept. */
  lemma ForceHiddenInserts(svg: string)
    requires Find(Attributes(svg), 0, |svg|).None? && Find(TagSpaces(svg), 0, |svg|).Some?
    ensures var (i, w) := Find(TagSpaces(svg), 0, |svg|).value;
            var r := ForceHidden(svg);
            && At(svg, i, OpenTag) && w == i + |OpenTag| < |svg| && IsSpace(svg[w])
            && AttributeAt(r, w + 1) == Some(w + 1 + |Hidden|)
            && r[..w] == svg[..w] && r[w + 1 + |Hidden|..] == svg[w..]
  {
    var (i, w) := Find(TagSpaces(svg), 0, |svg|).value;
    InsertedAt(svg, i, w);
  }

  lemma InsertedAt(svg: string, i: nat, w: nat)
    requires Find(Attributes(svg), 0, |svg|).None? && Find(TagSpaces(svg), 0, |svg|) == Some((i, w))
    ensures At(svg, i, OpenTag) && w == i + |OpenTag| < |svg| && IsSpace(svg[w])
    ensures var r := ForceHidden(svg);
            && AttributeAt(r, w + 1) == Some(w + 1 + |Hidden|)
            && r[..w] == svg[..w] && r[w + 1 + |Hidden|..] == svg[w..]
  {
    ForceHiddenAdds(svg, i, w);
    var r := svg[..w] + " " + Hidden + svg[w..];
    InsertParts(svg, w, Hidden);
    HiddenAttribute(r, w + 1);
  }

  lemma InsertParts(s: string, w: nat, t: string)
    requires w <= |s|
    ensures var r := s[..w] + " " + t + s[w..];
            && At(r, w + 1, t) && r[..w] == s[..w] && r[w + 1 + |t|..] == s[w..]
  {
    var r := s[..w] + " " + t + s[w..];
    assert r[w + 1..w + 1 + |t|] == t;
  }

  /** The rewrite leaves the text as it is exactly when there is nothing to rewrite, or when the
      first overflow attribute already reads `overflow="hidden"`. */
  lemma ForceHiddenKeeps(svg: string)
    ensures ForceHidden(svg) == svg <==>
              var first := Find(Attributes(svg), 0, |svg|);
              if first.Some? then At(svg, first.value.0, Hidden) && first.value.1 == first.value.0 + |Hidden|
              else Find(TagSpaces(svg), 0, |svg|).None?
  {
    match Find(Attributes(svg), 0, |svg|)
    case Some((i, e)) =>
      ForceHiddenReplaces(svg, i, e);
      KeepsReplaced(svg, i, e);
    case None =>
      match Find(TagSpaces(svg), 0, |svg|)
      case Some((i, w)) =>
        ForceHiddenAdds(svg, i, w);
      case None =>
  }

  lemma KeepsReplaced(svg: string, i: nat, e: nat)
    requires i < e <= |svg|
    ensures svg[..i] + Hidden + svg[e..] == svg <==> At(svg, i, Hidden) && e == i + |Hidden|
  {
    var r := svg[..i] + Hidden + svg[e..];
    if r == svg {
      assert |r| == |svg|;
      assert svg[i..i + |Hidden|] == r[i..i + |Hidden|] == Hidden;
    }
    if At(svg, i, Hidden) && e == i + |Hidden| {
      assert svg[..i] + svg[i..e] + svg[e..] == svg;
    }
  }

  // ---- inline style ----

  const StyleWord := "style"

  /** The characters a `[^;"']` run stops at. */
  predicate EndsValue(c: char) {
    c == ';' || IsQuote(c)
  }

  /** `overflow\s*:\s*[^;"']+;?\s*` at j, ignoring case: the end of the match. The two runs
      around the colon need one character outside `;"'` between them; the value then runs to
      the first of `;"'`, takes one `;` and the whitespace after it. */
  function DeclarationAt(s: string, j: nat): (r: Option<nat>)
    ensures r.Some? ==> j + |OverflowWord| + 2 <= r.value <= |s|
  {
    if !AtIgnoreCase(s, j, OverflowWord) then None
    else
      var a := PathCodec.RunEnd(s, j + |OverflowWord|, IsSpace, true);
      if a == |s| || s[a] != ':' || a + 1 == |s| || EndsValue(s[a + 1]) then None
      else
        var d := PathCodec.RunEnd(s, a + 1, EndsValue, false);
        var e := if d < |s| && s[d] == ';' then d + 1 else d;
        Some(PathCodec.RunEnd(s, e, IsSpace, true))
  }

  function Declarations(s: string): nat -> Option<nat> {
    (j: nat) => DeclarationAt(s, j)
  }

  /** `(style\s*=\s*["'][^"']*)overflow...` at p, ignoring case: where the captured group ends and
      where the match ends. The group's run backs off from the next quote to the last position
      where a declaration matches. */
  function StyleAt(s: string, p: nat): (r: Option<(nat, nat)>)
    ensures r.Some? ==> p + |StyleWord| < r.value.0 && r.value.0 + |OverflowWord| + 2 <= r.value.1 <= |s|
  {
    if !AtIgnoreCase(s, p, StyleWord) then None
    else
      var a := PathCodec.RunEnd(s, p + |StyleWord|, IsSpace, true);
      if a == |s| || s[a] != '=' then None
      else
        var b := PathCodec.RunEnd(s, a + 1, IsSpace, true);
        if b == |s| || !IsQuote(s[b]) then None
        else
          var q := PathCodec.RunEnd(s, b + 1, IsQuote, false);
          match FindLast(Declarations(s), b + 1, q)
          case Some((j, e)) =>
            FindLastSome(Declarations(s), b + 1, q);
            Some((j, e))
          case None => None
  }

  function Styles(s: string): nat -> Option<(nat, nat)> {
    (p: nat) => StyleAt(s, p)
  }

  /** The second step of the browser's clean-up: in the first style attribute whose value holds
      an overflow declaration, the last such declaration goes. */
  function StripStyleOverflow(s: string): string {
    match Find(Styles(s), 0, |s|)
    case Some((_, (j, e))) =>
      FindSome(Styles(s), 0, |s|);
      s[..j] + s[e..]
    case None => s
  }

  /** The whole clean-up the browser applies to an extracted document. */
  function ClipOverflow(svg: string): string {
    StripStyleOverflow(ForceHidden(svg))
  }

  /** No quote character in s[a..b]. */
  predicate QuoteFree(s: string, a: nat, b: nat)
    requires a <= b <= |s|
  {
    forall m :: a <= m < b ==> !IsQuote(s[m])
  }

  /** The stages of a style attribute match: the opening quote at b, the next quote (or the end)
      at q, and the declaration found last between them. */
  lemma StyleParts(s: string, p: nat) returns (b: nat, q: nat)
    requires StyleAt(s, p).Some?
    ensures AtIgnoreCase(s, p, StyleWord)
    ensures p + |StyleWord| <= b < StyleAt(s, p).value.0 && IsQuote(s[b])
    ensures q == PathCodec.RunEnd(s, b + 1, IsQuote, false)
    ensures StyleAt(s, p).value.0 < q
    ensures FindLast(Declarations(s), b + 1, q) == Some(StyleAt(s, p).value)
  {
    var a := PathCodec.RunEnd(s, p + |StyleWord|, IsSpace, true);
    b := PathCodec.RunEnd(s, a + 1, IsSpace, true);
    q := PathCodec.RunEnd(s, b + 1, IsQuote, false);
    FindLastSome(Declarations(s), b + 1, q);
  }

  /** The stages of a declaration match: the colon at a, the value up to d, the optional `;`
      up to e. */
  lemma DeclarationParts(s: string, j: nat) returns (a: nat, d: nat, e: nat)
    requires DeclarationAt(s, j).Some?
    ensures AtIgnoreCase(s, j, OverflowWord)
    ensures a == PathCodec.RunEnd(s, j + |OverflowWord|, IsSpace, true) && a < |s| && s[a] == ':'
    ensures d == PathCodec.RunEnd(s, a + 1, EndsValue, false)
    ensures d <= e <= |s| && (e == d || s[d] == ';') && e <= d + 1
    ensures DeclarationAt(s, j).value == PathCodec.RunEnd(s, e, IsSpace, true)
  {
    a := PathCodec.RunEnd(s, j + |OverflowWord|, IsSpace, true);
    d := PathCodec.RunEnd(s, a + 1, EndsValue, false);
    e := if d < |s| && s[d] == ';' then d + 1 else d;
  }

  /** A declaration holds no quote. */
  lemma DeclarationQuoteFree(s: string, j: nat)
    requires DeclarationAt(s, j).Some?
    ensures QuoteFree(s, j, DeclarationAt(s, j).value)
  {
    var a, d, e := DeclarationParts(s, j);
    StagesQuoteFree(s, j, a, d, e);
  }

  lemma StagesQuoteFree(s: string, j: nat, a: nat, d: nat, e: nat)
    requires AtIgnoreCase(s, j, OverflowWord)
    requires a == PathCodec.RunEnd(s, j + |OverflowWord|, IsSpace, true) && a < |s| && s[a] == ':'
    requires d == PathCodec.RunEnd(s, a + 1, EndsValue, false)
    requires d <= e <= |s| && (e == d || s[d] == ';') && e <= d + 1
    ensures QuoteFree(s, j, PathCodec.RunEnd(s, e, IsSpace, true))
  {
    var f := PathCodec.RunEnd(s, e, IsSpace, true);
    OverflowNoQuote();
    WordQuoteFree(s, j, OverflowWord);
    SpaceNoQuote();
    RunQuoteFree(s, j + |OverflowWord|, IsSpace, true);
    RunQuoteFree(s, a + 1, EndsValue, false);
    RunQuoteFree(s, e, IsSpace, true);
    forall m | j <= m < f ensures !IsQuote(s[m]) {
      if m < j + |OverflowWord| {
      } else if m < a {
      } else if m == a {
      } else if m < d {
      } else if m < e {
      } else {
      }
    }
  }

  lemma OverflowNoQuote()
    ensures forall k :: 0 <= k < |OverflowWord| ==> !IsQuote(OverflowWord[k])
  {
  }

  lemma SpaceNoQuote()
    ensures forall c :: IsSpace(c) == true ==> !IsQuote(c)
  {
  }

  /** A word without quotes, matched ignoring case, holds no quote: a quote lower-cases to itself. */
  lemma WordQuoteFree(s: string, j: nat, w: string)
    requires AtIgnoreCase(s, j, w) && forall k :: 0 <= k < |w| ==> !IsQuote(w[k])
    ensures QuoteFree(s, j, j + |w|)
  {
    forall m | j <= m < j + |w| ensures !IsQuote(s[m]) {
      assert Lower(s[j..j + |w|])[m - j] == LowerChar(s[m]);
    }
  }

  /** A run of a class without quotes holds no quote. */
  lemma RunQuoteFree(s: string, i: nat, p: char -> bool, b: bool)
    requires i <= |s| && forall c :: p(c) == b ==> !IsQuote(c)
    ensures QuoteFree(s, i, PathCodec.RunEnd(s, i, p, b))
  {
    PathCodec.RunEndAll(s, i, p, b);
  }

  lemma QuoteFreeJoin(s: string, a: nat, b: nat, c: nat)
    requires a <= b <= c <= |s|
    requires QuoteFree(s, a, b) && (b == c || QuoteFree(s, b, c))
    ensures QuoteFree(s, a, c)
  {
  }

  /** The first style attribute whose value holds an overflow declaration: where it starts, and
      the declaration's span. */
  lemma StyleFound(s: string) returns (p: nat, j: nat, e: nat)
    requires Find(Styles(s), 0, |s|).Some?
    ensures Find(Styles(s), 0, |s|) == Some((p, (j, e))) && StyleAt(s, p) == Some((j, e))
    ensures forall k :: 0 <= k < p ==> StyleAt(s, k).None?
  {
    p := Find(Styles(s), 0, |s|).value.0;
    j, e := Find(Styles(s), 0, |s|).value.1.0, Find(Styles(s), 0, |s|).value.1.1;
    FindSome(Styles(s), 0, |s|);
    forall k | 0 <= k < p ensures StyleAt(s, k).None? {
      assert Styles(s)(k).None?;
    }
  }

  /** A style match removes an overflow declaration that holds no quote and lies inside the
      attribute's quoted value. */
  lemma StyleSpan(s: string, p: nat, j: nat, e: nat)
    requires StyleAt(s, p) == Some((j, e))
    ensures AtIgnoreCase(s, p, StyleWord) && DeclarationAt(s, j) == Some(e) && QuoteFree(s, j, e)
    ensures exists b :: p + |StyleWord| <= b < j && IsQuote(s[b]) && QuoteFree(s, b + 1, j)
  {
    var b, q := StyleParts(s, p);
    LastInRun(s, b, q, j, e);
    assert DeclarationAt(s, j) == Some(e) by {
      FindLastSome(Declarations(s), b + 1, q);
      assert Declarations(s)(j) == DeclarationAt(s, j);
    }
    DeclarationQuoteFree(s, j);
    assert p + |StyleWord| <= b < j && IsQuote(s[b]) && QuoteFree(s, b + 1, j);
  }

  /** The declaration a style match removes is the last one in the attribute's quoted value. */
  lemma StyleLast(s: string, p: nat, j: nat, e: nat)
    requires StyleAt(s, p) == Some((j, e))
    ensures forall k :: j < k < |s| && QuoteFree(s, j, k + 1) ==> DeclarationAt(s, k).None?
  {
    var b, q := StyleParts(s, p);
    LastInRun(s, b, q, j, e);
    NoneLaterInRun(s, b, j, q);
  }

  /** The declaration found last in a quote run starts inside it, after a quote-free stretch,
      and none starts after it in the run. */
  lemma LastInRun(s: string, b: nat, q: nat, j: nat, e: nat)
    requires b + 1 <= |s| && q == PathCodec.RunEnd(s, b + 1, IsQuote, false)
    requires FindLast(Declarations(s), b + 1, q) == Some((j, e))
    ensures b + 1 <= j < q <= |s| && QuoteFree(s, b + 1, j)
    ensures forall k :: j < k < q ==> DeclarationAt(s, k).None?
  {
    FindLastSome(Declarations(s), b + 1, q);
    PathCodec.RunEndAll(s, b + 1, IsQuote, false);
    forall k | j < k < q ensures DeclarationAt(s, k).None? {
      assert Declarations(s)(k).None?;
    }
  }

  /** No declaration starts after j in a quote run that holds none after j. */
  lemma NoneLaterInRun(s: string, b: nat, j: nat, q: nat)
    requires b + 1 <= j < |s| && q == PathCodec.RunEnd(s, b + 1, IsQuote, false)
    requires QuoteFree(s, b + 1, j)
    requires forall k :: j < k < q ==> DeclarationAt(s, k).None?
    ensures forall k :: j < k < |s| && QuoteFree(s, j, k + 1) ==> DeclarationAt(s, k).None?
  {
    forall k | j < k < |s| && QuoteFree(s, j, k + 1)
      ensures DeclarationAt(s, k).None?
    {
      LaterInRun(s, b, j, k);
    }
  }

  /** A position that a quote-free stretch joins to the start of a run lies inside the run. */
  lemma LaterInRun(s: string, b: nat, j: nat, k: nat)
    requires b + 1 <= j <= k < |s|
    requires QuoteFree(s, b + 1, j) && QuoteFree(s, j, k + 1)
    ensures k < PathCodec.RunEnd(s, b + 1, IsQuote, false)
  {
    forall m | b + 1 <= m < k + 1 ensures !IsQuote(s[m]) {
      if m < j {
        assert !IsQuote(s[m]);
      }
    }
    PathCodec.RunEndSkip(s, b + 1, k - b, IsQuote, false);
  }

  /** What the style clean-up removes: in the first style attribute whose quoted value holds an
      overflow declaration, the last declaration of that value, which holds no quote; the text
      before and after it is kept. */
  lemma StripStyleRemoves(s: string)
    requires Find(Styles(s), 0, |s|).Some?
    ensures var p, j, e := Find(Styles(s), 0, |s|).value.0, Find(Styles(s), 0, |s|).value.1.0,
                           Find(Styles(s), 0, |s|).value.1.1;
            && p < j < e <= |s|
            && StripStyleOverflow(s) == s[..j] + s[e..]
            && AtIgnoreCase(s, p, StyleWord) && DeclarationAt(s, j) == Some(e)
            && (exists b :: p + |StyleWord| <= b < j && IsQuote(s[b]) && QuoteFree(s, b + 1, j))
            && QuoteFree(s, j, e)
            && (forall k :: j < k < |s| && QuoteFree(s, j, k + 1) ==> DeclarationAt(s, k).None?)
            && (forall k :: 0 <= k < p ==> StyleAt(s, k).None?)
  {
    var p, j, e := StyleFound(s);
    StyleSpan(s, p, j, e);
    StyleLast(s, p, j, e);
  }

  /** The style clean-up changes the text exactly when some style attribute's quoted value holds
      an overflow declaration. */
  lemma StripStyleKeeps(s: string)
    ensures StripStyleOverflow(s) == s <==> Find(Styles(s), 0, |s|).None?
  {
    if Find(Styles(s), 0, |s|).Some? {
      var p, j, e := StyleFound(s);
      assert StripStyleOverflow(s) == s[..j] + s[e..];
    }
  }

  /** The style clean-up removes no quote, so every attribute value keeps its delimiters. */
  lemma StripStyleKeepsQuotes(s: string)
    ensures Lists.Filter(StripStyleOverflow(s), IsQuote) == Lists.Filter(s, IsQuote)
  {
    if Find(Styles(s), 0, |s|).Some? {
      var p, j, e := StyleFound(s);
      StyleSpan(s, p, j, e);
      assert StripStyleOverflow(s) == s[..j] + s[e..];
      Lists.FilterCut(s, j, e, IsQuote);
    }
  }

  /** The whole clean-up keeps the quotes the attribute rewrite leaves; when no style value holds
      an overflow declaration it is the attribute rewrite alone. */
  lemma ClipOverflowIs(svg: string)
    ensures Lists.Filter(ClipOverflow(svg), IsQuote) == Lists.Filter(ForceHidden(svg), IsQuote)
    ensures Find(Styles(ForceHidden(svg)), 0, |ForceHidden(svg)|).None? ==> ClipOverflow(svg) == ForceHidden(svg)
  {
    StripStyleKeepsQuotes(ForceHidden(svg));
    StripStyleKeeps(ForceHidden(svg));
  }
}

=== FILE: text.dfy ===
/** Character classes and string helpers shared by the JavaScript string and regular-expression
    operations the editor relies on (`trim`, `split`, `toLowerCase`, `indexOf`, `join`). */
module Text {

  /** The characters `\s` matches in a JavaScript regular expression, which are also the ones
      `String.prototype.trim` removes: WhiteSpace and LineTerminator of ECMA-262 (sections 12.2, 12.3). */
  predicate IsSpace(c: char) {
    || c == ' ' || c == '\t' || c == '\n' || c == '\r' || c == '\U{000B}' || c == '\U{000C}'
    || c == '\U{00A0}' || c == '\U{1680}' || ('\U{2000}' <= c <= '\U{200A}')
    || c == '\U{2028}' || c == '\U{2029}' || c == '\U{202F}' || c == '\U{205F}'
    || c == '\U{3000}' || c == '\U{FEFF}'
  }

  predicate IsDigit(c: char) {
    '0' <= c <= '9'
  }

  predicate NoSpace(s: string) {
    forall i :: 0 <= i < |s| ==> !IsSpace(s[i])
  }

  /** ASCII lower-casing of one character. */
  function LowerChar(c: char): (r: char)
    ensures 'A' <= c <= 'Z' ==> r as int == c as int + 32
    ensures !('A' <= c <= 'Z') ==> r == c
  {
    if 'A' <= c <= 'Z' then (c as int + 32) as char else c
  }

  /** ASCII upper-casing of one character. */
  function UpperChar(c: char): (r: char)
    ensures 'a' <= c <= 'z' ==> r as int == c as int - 32
    ensures !('a' <= c <= 'z') ==> r == c
  {
    if 'a' <= c <= 'z' then (c as int - 32) as char else c
  }

  /** `toLowerCase`, restricted to ASCII letters (every tag name compared against is ASCII). */
  function Lower(s: string): (r: string)
    ensures |r| == |s|
    ensures forall i :: 0 <= i < |s| ==> r[i] == LowerChar(s[i])
  {
    if |s| == 0 then "" else [LowerChar(s[0])] + Lower(s[1..])
  }

  /** Case-insensitive equality of `s` with an all-lower-case word, as the regular-expression flag `i` does it. */
  predicate EqualsIgnoreCase(s: string, lowerWord: string) {
    Lower(s) == lowerWord
  }

  /** `s` holds `w` at position `i`. */
  predicate At(s: string, i: nat, w: string) {
    i + |w| <= |s| && s[i..i + |w|] == w
  }

  /** `s` holds `w` at position `i`, ignoring ASCII case; `w` is lower case. */
  predicate AtIgnoreCase(s: string, i: nat, w: string) {
    i + |w| <= |s| && Lower(s[i..i + |w|]) == w
  }

  // ---- trim ----

  function TrimStart(s: string): (r: string)
    ensures |r| <= |s| && r == s[|s| - |r|..]
    ensures |r| > 0 ==> !IsSpace(r[0])
    ensures forall i :: 0 <= i < |s| - |r| ==> IsSpace(s[i])
  {
    if |s| > 0 && IsSpace(s[0]) then TrimStart(s[1..]) else s
  }

  function TrimEnd(s: string): (r: string)
    ensures |r| <= |s| && r == s[..|r|]
    ensures |r| > 0 ==> !IsSpace(r[|r| - 1])
    ensures forall i :: |r| <= i < |s| ==> IsSpace(s[i])
  {
    if |s| > 0 && IsSpace(s[|s| - 1]) then TrimEnd(s[..|s| - 1]) else s
  }

  /** `String.prototype.trim`: `s` without its leading and trailing whitespace. */
  function Trim(s: string): (r: string)
    ensures |r| <= |s|
    ensures |r| == 0 || (!IsSpace(r[0]) && !IsSpace(r[|r| - 1]))
  {
    TrimEnd(TrimStart(s))
  }

  /** Trimming a string with no whitespace at either end leaves it as it is. */
  lemma TrimUnchanged(s: string)
    requires |s| == 0 || (!IsSpace(s[0]) && !IsSpace(s[|s| - 1]))
    ensures Trim(s) == s
  {
  }

  /** Whitespace added at the end of a string is removed again by trim. */
  lemma {:induction false} TrimTrailingSpace(s: string, pad: string)
    requires |s| == 0 || (!IsSpace(s[0]) && !IsSpace(s[|s| - 1]))
    requires forall i :: 0 <= i < |pad| ==> IsSpace(pad[i])
    ensures Trim(s + pad) == s
  {
    if |s| == 0 {
      assert s + pad == pad;
      TrimAllSpace(pad);
    } else {
      assert TrimStart(s + pad) == s + pad;
      TrimEndPad(s, pad);
    }
  }

  lemma {:induction false} TrimAllSpace(pad: string)
    requires forall i :: 0 <= i < |pad| ==> IsSpace(pad[i])
    ensures Trim(pad) == ""
  {
    if |pad| > 0 {
      TrimAllSpace(pad[1..]);
    }
  }

  lemma {:induction false} TrimEndPad(s: string, pad: string)
    requires |s| > 0 && !IsSpace(s[|s| - 1])
    requires forall i :: 0 <= i < |pad| ==> IsSpace(pad[i])
    ensures TrimEnd(s + pad) == s
    decreases |pad|
  {
    if |pad| == 0 {
      assert s + pad == s;
    } else {
      assert (s + pad)[..|s + pad| - 1] == s + pad[..|pad| - 1];
      TrimEndPad(s, pad[..|pad| - 1]);
    }
  }

  /** Trimming the end of a text that follows a word ending in non-whitespace stops at the word. */
  lemma {:induction false} TrimEndAfter(w: string, r: string)
    requires |w| > 0 && !IsSpace(w[|w| - 1])
    ensures TrimEnd(w + r) == w + TrimEnd(r)
    decreases |r|
  {
    if |r| > 0 && IsSpace(r[|r| - 1]) {
      assert (w + r)[..|w + r| - 1] == w + r[..|r| - 1];
      TrimEndAfter(w, r[..|r| - 1]);
    }
  }

  /** Trimming a text that starts with a word bounded by non-whitespace keeps the word whole. */
  lemma TrimAfter(w: string, r: string)
    requires |w| > 0 && !IsSpace(w[0]) && !IsSpace(w[|w| - 1])
    ensures Trim(w + r) == w + TrimEnd(r)
  {
    assert TrimStart(w + r) == w + r;
    TrimEndAfter(w, r);
  }

  /** t occurs in s at position x. */
  predicate Within(t: string, s: string, x: nat) {
    x + |t| <= |s| && forall k :: 0 <= k < |t| ==> t[k] == s[x + k]
  }

  lemma WithinTrans(r: string, t: string, s: string, x: nat, y: nat)
    requires Within(r, t, x) && Within(t, s, y)
    ensures Within(r, s, y + x)
  {
    forall k | 0 <= k < |r|
      ensures r[k] == s[y + x + k]
    {
      assert r[k] == t[x + k];
    }
  }

  /** Trimming keeps a contiguous part of the string. */
  lemma TrimWithin(t: string)
    ensures Within(Trim(t), t, |t| - |TrimStart(t)|)
  {
    var u := TrimStart(t);
    var r := TrimEnd(u);
    var d := |t| - |u|;
    forall k | 0 <= k < |r|
      ensures r[k] == t[d + k]
    {
      assert r[k] == u[k];
      assert u[k] == t[d..][k];
    }
  }

  // ---- join ----

  /** `Array.prototype.join(sep)` over strings. */
  function Join(parts: seq<string>, sep: string): string {
    if |parts| == 0 then ""
    else if |parts| == 1 then parts[0]
    else parts[0] + sep + Join(parts[1..], sep)
  }

  /** Every character of a join satisfies p when those of the parts and the separator do. */
  lemma {:induction false} JoinChars(parts: seq<string>, sep: string, p: char -> bool)
    requires forall k, i :: 0 <= k < |parts| && 0 <= i < |parts[k]| ==> p(parts[k][i])
    requires forall i :: 0 <= i < |sep| ==> p(sep[i])
    ensures forall i :: 0 <= i < |Join(parts, sep)| ==> p(Join(parts, sep)[i])
  {
    if |parts| > 1 {
      JoinChars(parts[1..], sep, p);
      var j := Join(parts[1..], sep);
      forall i | 0 <= i < |parts[0] + sep + j| ensures p((parts[0] + sep + j)[i]) {
        if i < |parts[0]| {
          assert (parts[0] + sep + j)[i] == parts[0][i];
        } else if i < |parts[0]| + |sep| {
          assert (parts[0] + sep + j)[i] == sep[i - |parts[0]|];
        } else {
          assert (parts[0] + sep + j)[i] == j[i - |parts[0]| - |sep|];
        }
      }
    }
  }

  /** A join starts with its first part. */
  lemma JoinFirst(parts: seq<string>, sep: string)
    requires |parts| >= 1 && |parts[0]| >= 1
    ensures |Join(parts, sep)| >= 1 && Join(parts, sep)[0] == parts[0][0]
  {
  }

  /** A join ends with its last part. */
  lemma {:induction false} JoinLast(parts: seq<string>, sep: string)
    requires |parts| >= 1 && |parts[|parts| - 1]| >= 1
    ensures |Join(parts, sep)| >= 1
    ensures Join(parts, sep)[|Join(parts, sep)| - 1] == parts[|parts| - 1][|parts[|parts| - 1]| - 1]
  {
    if |parts| > 1 {
      JoinLast(parts[1..], sep);
    }
  }
}

=== FILE: transform.dfy ===
/** The `transform` attribute of an element dragged as a whole: reading its translation with the
    editor's regular expression, writing a new translation in place of the first `translate(...)`
    or in front of the other transforms, and the element drag that does both. */
module Transform {
  import opened Wrappers
  import opened Text
  import opened Decimal
  import opened JsNumber
  import opened Scan
  import PathCodec

  const Keyword := "translate("

  /** The class `[-\d.]` of a captured translation number. */
  predicate IsNumeral(c: char) {
    c == '-' || IsDigit(c) || c == '.'
  }

  predicate Numerals(s: string) {
    forall i :: 0 <= i < |s| ==> IsNumeral(s[i])
  }

  predicate IsClose(c: char) {
    c == ')'
  }

  /** The two captured groups of a translation. */
  datatype Captures = Captures(x: string, y: string)

  /** `translate\(\s*([-\d.]+)[,\s]+([-\d.]+)\s*\)` tried at position i. Each part's character
      class is disjoint from the next part's, so a match can only use the longest run of every part. */
  function TranslateAt(t: string, i: nat): (r: Option<Captures>)
    ensures r.Some? ==> |r.value.x| >= 1 && |r.value.y| >= 1 && Numerals(r.value.x) && Numerals(r.value.y)
  {
    if !At(t, i, Keyword) then None
    else
      var a := PathCodec.RunEnd(t, i + |Keyword|, IsSpace, true);
      var b := PathCodec.RunEnd(t, a, IsNumeral, true);
      var c := PathCodec.RunEnd(t, b, PathCodec.IsSeparator, true);
      var d := PathCodec.RunEnd(t, c, IsNumeral, true);
      var e := PathCodec.RunEnd(t, d, IsSpace, true);
      if a < b && b < c && c < d && e < |t| && t[e] == ')' then
        PathCodec.RunEndAll(t, a, IsNumeral, true);
        PathCodec.RunEndAll(t, c, IsNumeral, true);
        Some(Captures(t[a..b], t[c..d]))
      else None
  }

  function TranslateMatcher(t: string): nat -> Option<Captures> {
    (k: nat) => TranslateAt(t, k)
  }

  /** The captures of the first translation match. */
  function FirstTranslate(t: string): Option<Captures> {
    match Find(TranslateMatcher(t), 0, |t|)
    case Some((_, m)) => Some(m)
    case None => None
  }

  /** `getTranslate`: the numbers of the first translation match, or (0, 0) when there is none. */
  function GetTranslate(t: string): (JsNum, JsNum) {
    match FirstTranslate(t)
    case Some(m) => (ParseFloat(m.x), ParseFloat(m.y))
    case None => (Num(Zero), Num(Zero))
  }

  /** `translate\([^)]*\)` at position i: the end of the match. */
  function BracketAt(t: string, i: nat): (r: Option<nat>)
    ensures r.Some? ==> i + |Keyword| < r.value <= |t|
  {
    if !At(t, i, Keyword) then None
    else
      var p := PathCodec.RunEnd(t, i + |Keyword|, IsClose, false);
      if p < |t| then Some(p + 1) else None
  }

  function BracketMatcher(t: string): nat -> Option<nat> {
    (k: nat) => BracketAt(t, k)
  }

  /** A translation of the texts X and Y. */
  function Written(X: string, Y: string): string {
    Keyword + X + ", " + Y + ")"
  }

  /** The translation the editor writes, through template-literal interpolation. */
  function TranslateText(tx: JsNum, ty: JsNum): string {
    Written(ValueText(tx), ValueText(ty))
  }

  /** The text w in place of the first `translate(...)`, or, when there is none, in front of the
      attribute with the result trimmed. */
  function Place(t: string, w: string): string {
    match Find(BracketMatcher(t), 0, |t|)
    case Some((i, e)) =>
      FindSome(BracketMatcher(t), 0, |t|);
      t[..i] + w + t[e..]
    case None => Trim(w + " " + t)
  }

  /** `setTranslateOnEl`. */
  function SetTranslate(t: string, tx: JsNum, ty: JsNum): string {
    Place(t, TranslateText(tx, ty))
  }

  // ---- the written translation ----

  lemma NumeralsAppend(a: string, b: string)
    requires Numerals(a) && Numerals(b)
    ensures Numerals(a + b)
  {
    forall i | 0 <= i < |a + b| ensures IsNumeral((a + b)[i]) {
      if i >= |a| { assert (a + b)[i] == b[i - |a|]; }
    }
  }

  lemma LiteralNumerals(I: string, F: string)
    requires AllDigits(I) && AllDigits(F)
    ensures Numerals(LiteralText(I, F, ""))
  {
    assert Numerals(I) && Numerals(F) && Numerals(".");
    NumeralsAppend(".", F);
    var P := if |F| > 0 then "." + F else "";
    NumeralsAppend(I, P);
    assert LiteralText(I, F, "") == I + P;
  }

  lemma MagnitudeNumerals(s: nat, e: int)
    requires s > 0 && -6 < |DigitString(s)| + e <= 21
    ensures Numerals(MagnitudeToString(s, e))
  {
    var ds := DigitString(s);
    var k := |ds|;
    var n := k + e;
    if k <= n <= 21 {
      AllDigitsAppend(ds, Zeros(n - k));
      LiteralNumerals(ds + Zeros(n - k), "");
    } else if 0 < n <= 21 {
      LiteralNumerals(ds[..n], ds[n..]);
    } else {
      AllDigitsAppend(Zeros(-n), ds);
      LiteralNumerals("0", Zeros(-n) + ds);
    }
  }

  /** A number written without an exponent is a nonempty run of `[-\d.]`. */
  lemma NumberNumerals(d: Dec)
    requires ExponentFree(d)
    ensures |NumberToString(d)| >= 1 && Numerals(NumberToString(d))
  {
    NumberTextChars(d);
    if d.m != 0 {
      MagnitudeNumerals(Abs(d.m), d.exp);
      NumeralsAppend(SignText(d.m < 0), MagnitudeToString(Abs(d.m), d.exp));
    }
  }

  /** s holds no closing parenthesis. */
  predicate Open(s: string) {
    forall i :: 0 <= i < |s| ==> !IsClose(s[i])
  }

  /** No value the editor writes holds a closing parenthesis. */
  lemma ValueTextOpen(v: JsNum)
    ensures Open(ValueText(v))
  {
    if v.Num? {
      NumberTextChars(v.d);
      forall i | 0 <= i < |ValueText(v)| ensures !IsClose(ValueText(v)[i]) {
        assert NumberChar(ValueText(v)[i]);
      }
    }
  }

  // ---- where the written translation stands ----

  /** Position by position, the text around a written translation. */
  lemma TranslateLayout(P: string, X: string, Y: string, R: string)
    ensures var s := P + Written(X, Y) + R;
            var a := |P| + |Keyword|;
            && |s| == a + |X| + 3 + |Y| + |R|
            && s[|P|..a] == Keyword
            && s[a..a + |X|] == X
            && s[a + |X|] == ',' && s[a + |X| + 1] == ' '
            && s[a + |X| + 2..a + |X| + 2 + |Y|] == Y
            && s[a + |X| + 2 + |Y|] == ')'
  {
    var w := Written(X, Y);
    var s := P + w + R;
    assert s[|P|..|P| + |w|] == w;
    assert w[..|Keyword|] == Keyword;
    assert w[|Keyword|..|Keyword| + |X|] == X;
    assert w[|Keyword| + |X| + 2..|Keyword| + |X| + 2 + |Y|] == Y;
  }

  /** A run of numerals X that stands at position a and is followed by a non-numeral ends there. */
  lemma NumeralRun(s: string, a: nat, X: string)
    requires Numerals(X) && a + |X| < |s| && s[a..a + |X|] == X && !IsNumeral(s[a + |X|])
    ensures PathCodec.RunEnd(s, a, IsNumeral, true) == a + |X|
  {
    forall k | a <= k < a + |X| ensures IsNumeral(s[k]) {
      assert s[k] == s[a..a + |X|][k - a];
    }
    PathCodec.RunEndOf(s, a, |X|, IsNumeral, true);
  }

  /** The translation pattern at o, given what stands where. */
  lemma TranslateAtRuns(s: string, o: nat, X: string, Y: string)
    requires |X| >= 1 && |Y| >= 1 && Numerals(X) && Numerals(Y)
    requires var a := o + |Keyword|;
             && a + |X| + 2 + |Y| < |s|
             && s[o..a] == Keyword && s[a..a + |X|] == X
             && s[a + |X|] == ',' && s[a + |X| + 1] == ' '
             && s[a + |X| + 2..a + |X| + 2 + |Y|] == Y && s[a + |X| + 2 + |Y|] == ')'
    ensures TranslateAt(s, o) == Some(Captures(X, Y))
  {
    var a := o + |Keyword|;
    var b := a + |X|;
    var c := b + 2;
    var d := c + |Y|;
    assert s[a] == s[a..b][0] == X[0] && IsNumeral(X[0]);
    assert s[c] == s[c..d][0] == Y[0] && IsNumeral(Y[0]);
    PathCodec.RunEndOf(s, a, 0, IsSpace, true);
    NumeralRun(s, a, X);
    PathCodec.RunEndOf(s, b, 2, PathCodec.IsSeparator, true);
    NumeralRun(s, c, Y);
    PathCodec.RunEndOf(s, d, 0, IsSpace, true);
    TranslateAtStages(s, o, a, b, c, d, d);
  }

  /** The translation pattern at i, from where each of its stages ends. */
  lemma TranslateAtStages(t: string, i: nat, a: nat, b: nat, c: nat, d: nat, e: nat)
    requires At(t, i, Keyword)
    requires a == PathCodec.RunEnd(t, i + |Keyword|, IsSpace, true)
    requires b == PathCodec.RunEnd(t, a, IsNumeral, true)
    requires c == PathCodec.RunEnd(t, b, PathCodec.IsSeparator, true)
    requires d == PathCodec.RunEnd(t, c, IsNumeral, true)
    requires e == PathCodec.RunEnd(t, d, IsSpace, true)
    requires a < b < c < d && e < |t| && t[e] == ')'
    ensures TranslateAt(t, i) == Some(Captures(t[a..b], t[c..d]))
  {
  }

  /** Two numeral texts written as a translation are what the translation pattern captures there. */
  lemma TranslateAtText(P: string, X: string, Y: string, R: string)
    requires |X| >= 1 && |Y| >= 1 && Numerals(X) && Numerals(Y)
    ensures TranslateAt(P + Written(X, Y) + R, |P|) == Some(Captures(X, Y))
  {
    TranslateLayout(P, X, Y, R);
    TranslateAtRuns(P + Written(X, Y) + R, |P|, X, Y);
  }

  /** A written translation is where the `translate(...)` pattern matches, up to its own parenthesis. */
  lemma BracketAtText(P: string, X: string, Y: string, R: string)
    requires Open(X) && Open(Y)
    ensures var w := Written(X, Y);
            BracketAt(P + w + R, |P|) == Some(|P| + |w|)
  {
    var s := P + Written(X, Y) + R;
    var a := |P| + |Keyword|;
    var n := |X| + 2 + |Y|;
    TranslateLayout(P, X, Y, R);
    forall k | a <= k < a + n ensures !IsClose(s[k]) {
      if k < a + |X| {
        assert s[k] == s[a..a + |X|][k - a];
      } else if k >= a + |X| + 2 {
        assert s[k] == s[a + |X| + 2..a + |X| + 2 + |Y|][k - a - |X| - 2];
      }
    }
    PathCodec.RunEndOf(s, a, n, IsClose, false);
  }

  /** Positions before the first `translate(...)` keep what they hold when that match is replaced
      by another translation, so no match starts there afterwards either. */
  lemma NothingBefore(t: string, w: string, i: nat, e: nat, k: nat)
    requires BracketAt(t, i) == Some(e)
    requires forall j :: 0 <= j < i ==> BracketAt(t, j).None?
    requires At(w, 0, Keyword) && k < i
    ensures !At(t[..i] + w + t[e..], k, Keyword)
  {
    var s := t[..i] + w + t[e..];
    if At(s, k, Keyword) {
      forall j | k <= j < k + |Keyword| ensures s[j] == t[j] {
        if j >= i {
          assert s[j] == w[j - i] == w[..|Keyword|][j - i];
          assert t[j] == t[i..i + |Keyword|][j - i];
        }
      }
      assert t[k..k + |Keyword|] == s[k..k + |Keyword|];
      PathCodec.RunEndAll(t, k + |Keyword|, IsClose, false);
      var earlier := BracketAt(t, k);
      assert false;
    }
  }

  /** With no translation in the attribute, the written one goes in front of the rest, whose
      trailing whitespace trim removes. */
  lemma Prepended(t: string, X: string, Y: string)
    ensures Trim(Written(X, Y) + " " + t) == "" + Written(X, Y) + TrimEnd(" " + t)
  {
    var w := Written(X, Y);
    assert w + " " + t == w + (" " + t);
    TrimAfter(w, " " + t);
  }

  /** The first `translate(...)` of t and nothing before it, as `Find` reports it. */
  predicate FirstBracket(t: string, i: nat, e: nat) {
    BracketAt(t, i) == Some(e) && forall j :: 0 <= j < i ==> BracketAt(t, j).None?
  }

  lemma FoundBracket(t: string)
    requires Find(BracketMatcher(t), 0, |t|).Some?
    ensures FirstBracket(t, Find(BracketMatcher(t), 0, |t|).value.0, Find(BracketMatcher(t), 0, |t|).value.1)
  {
    FindSome(BracketMatcher(t), 0, |t|);
    var i := Find(BracketMatcher(t), 0, |t|).value.0;
    forall j | 0 <= j < i ensures BracketAt(t, j).None? {
      assert BracketMatcher(t)(j).None?;
    }
  }

  /** A translation put in place of the first `translate(...)` is the first one read. */
  lemma ReplacedCaptures(t: string, i: nat, e: nat, X: string, Y: string)
    requires FirstBracket(t, i, e)
    requires |X| >= 1 && |Y| >= 1 && Numerals(X) && Numerals(Y)
    ensures FirstTranslate(t[..i] + Written(X, Y) + t[e..]) == Some(Captures(X, Y))
  {
    var s := t[..i] + Written(X, Y) + t[e..];
    TranslateAtText(t[..i], X, Y, t[e..]);
    forall k | 0 <= k < i ensures TranslateMatcher(s)(k).None? {
      NothingBefore(t, Written(X, Y), i, e, k);
    }
    FindFirst(TranslateMatcher(s), 0, |s|, i);
  }

  /** A translation put in front is the first one read. */
  lemma PrependedCaptures(R: string, X: string, Y: string)
    requires |X| >= 1 && |Y| >= 1 && Numerals(X) && Numerals(Y)
    ensures FirstTranslate("" + Written(X, Y) + R) == Some(Captures(X, Y))
  {
    TranslateAtText("", X, Y, R);
    FindFirst(TranslateMatcher("" + Written(X, Y) + R), 0, |"" + Written(X, Y) + R|, 0);
  }

  /** A translation placed in an attribute is the first one read from it. */
  lemma PlaceCaptures(t: string, X: string, Y: string)
    requires |X| >= 1 && |Y| >= 1 && Numerals(X) && Numerals(Y)
    ensures FirstTranslate(Place(t, Written(X, Y))) == Some(Captures(X, Y))
  {
    match Find(BracketMatcher(t), 0, |t|)
    case Some((i, e)) =>
      FoundBracket(t);
      ReplacedCaptures(t, i, e, X, Y);
    case None =>
      Prepended(t, X, Y);
      PrependedCaptures(TrimEnd(" " + t), X, Y);
  }

  /** `getTranslate` reads back what `setTranslateOnEl` wrote, for numbers that are written without
      an exponent. */
  lemma GetSetTranslate(t: string, tx: JsNum, ty: JsNum)
    requires tx.Num? && ty.Num? && ExponentFree(tx.d) && ExponentFree(ty.d)
    ensures GetTranslate(SetTranslate(t, tx, ty)) == (tx, ty)
  {
    NumberNumerals(tx.d);
    NumberNumerals(ty.d);
    NumberTextRoundTrip(tx.d);
    NumberTextRoundTrip(ty.d);
    PlaceCaptures(t, ValueText(tx), ValueText(ty));
  }

  /** An attribute without `translate(` reads as no translation. */
  lemma NoTranslateReadsZero(t: string)
    requires forall k :: !At(t, k, Keyword)
    ensures GetTranslate(t) == (Num(Zero), Num(Zero))
  {
    FindNone(TranslateMatcher(t), 0, |t|);
  }

  /** A translation put in place of the first `translate(...)` is where the next one goes. */
  lemma ReplacedBracket(t: string, i: nat, e: nat, X: string, Y: string)
    requires FirstBracket(t, i, e)
    requires Open(X) && Open(Y)
    ensures Find(BracketMatcher(t[..i] + Written(X, Y) + t[e..]), 0, |t[..i] + Written(X, Y) + t[e..]|)
            == Some((i, i + |Written(X, Y)|))
  {
    var s := t[..i] + Written(X, Y) + t[e..];
    BracketAtText(t[..i], X, Y, t[e..]);
    forall k | 0 <= k < i ensures BracketMatcher(s)(k).None? {
      NothingBefore(t, Written(X, Y), i, e, k);
    }
    FindFirst(BracketMatcher(s), 0, |s|, i);
  }

  /** A translation put in front is where the next one goes. */
  lemma PrependedBracket(R: string, X: string, Y: string)
    requires Open(X) && Open(Y)
    ensures Find(BracketMatcher("" + Written(X, Y) + R), 0, |"" + Written(X, Y) + R|) == Some((0, |Written(X, Y)|))
  {
    BracketAtText("", X, Y, R);
    FindFirst(BracketMatcher("" + Written(X, Y) + R), 0, |"" + Written(X, Y) + R|, 0);
  }

  /** A translation placed over a placed translation replaces it. */
  lemma PlaceTwice(t: string, X: string, Y: string, X': string, Y': string)
    requires Open(X) && Open(Y)
    ensures Place(Place(t, Written(X, Y)), Written(X', Y')) == Place(t, Written(X', Y'))
  {
    var w := Written(X, Y);
    var w' := Written(X', Y');
    match Find(BracketMatcher(t), 0, |t|)
    case Some((i, e)) =>
      FoundBracket(t);
      var s := t[..i] + w + t[e..];
      ReplacedBracket(t, i, e, X, Y);
      assert s[..i] == t[..i] && s[i + |w|..] == t[e..];
    case None =>
      var R := TrimEnd(" " + t);
      Prepended(t, X, Y);
      Prepended(t, X', Y');
      var s := "" + w + R;
      PrependedBracket(R, X, Y);
      assert s[..0] == "" && s[|w|..] == R;
  }

  /** A second `setTranslateOnEl` replaces the first one's translation: only the last one counts. */
  lemma SetTranslateTwice(t: string, a: JsNum, b: JsNum, c: JsNum, d: JsNum)
    ensures SetTranslate(SetTranslate(t, a, b), c, d) == SetTranslate(t, c, d)
  {
    ValueTextOpen(a);
    ValueTextOpen(b);
    PlaceTwice(t, ValueText(a), ValueText(b), ValueText(c), ValueText(d));
  }

  // ---- dragging an element ----

  /** `dragStartRef`: the pointer at mousedown, in SVG coordinates, and the translation read then. */
  datatype ElementDrag = ElementDrag(x: Dec, y: Dec, origTx: JsNum, origTy: JsNum)

  function StartElementDrag(t: string, x: Dec, y: Dec): ElementDrag {
    ElementDrag(x, y, GetTranslate(t).0, GetTranslate(t).1)
  }

  /** `orig + p - start`: the translation at mousedown moved by the pointer's travel. */
  function Moved(orig: JsNum, start: Dec, p: Dec): (r: JsNum)
    ensures Shifted(orig, r, p.Value() - start.Value())
  {
    Minus(Plus(orig, Num(p)), Num(start))
  }

  /** The transform attribute after a mousemove to (px, py). */
  function DragTransform(g: ElementDrag, t: string, px: Dec, py: Dec): string {
    SetTranslate(t, Moved(g.origTx, g.x, px), Moved(g.origTy, g.y, py))
  }

  predicate PlainNumber(v: JsNum) {
    v.Num? && ExponentFree(v.d)
  }

  /** The element follows the pointer: the translation read after a move is the one read at
      mousedown shifted by the pointer's travel. */
  lemma ElementFollowsPointer(t0: string, x: Dec, y: Dec, t: string, px: Dec, py: Dec)
    requires var g := StartElementDrag(t0, x, y);
             PlainNumber(Moved(g.origTx, x, px)) && PlainNumber(Moved(g.origTy, y, py))
    ensures var g := StartElementDrag(t0, x, y);
            var (tx, ty) := GetTranslate(DragTransform(g, t, px, py));
            && Shifted(GetTranslate(t0).0, tx, px.Value() - x.Value())
            && Shifted(GetTranslate(t0).1, ty, py.Value() - y.Value())
  {
    var g := StartElementDrag(t0, x, y);
    GetSetTranslate(t, Moved(g.origTx, x, px), Moved(g.origTy, y, py));
  }

  /** Within one drag, only the last mousemove decides the transform attribute. */
  lemma LastDragWins(g: ElementDrag, t: string, px: Dec, py: Dec, qx: Dec, qy: Dec)
    ensures DragTransform(g, DragTransform(g, t, px, py), qx, qy) == DragTransform(g, t, qx, qy)
  {
    SetTranslateTwice(t, Moved(g.origTx, g.x, px), Moved(g.origTy, g.y, py), Moved(g.origTx, g.x, qx), Moved(g.origTy, g.y, qy));
  }
}

=== FILE: workspace.dfy ===
/** The page around the generator: which generation is shown and with which code, the
    full-screen browsing of finished images, the split between the two panes, whether the
    generate button is enabled, and where a pasted image or image URL goes. Rendering, focus,
    timers and the clipboard itself are left out; what the clipboard holds is a parameter. */
module Workspace {
  import opened Wrappers
  import opened Text
  import opened Lists
  import Scan
  import History
  import GenerationHook

  type Generation = History.Generation

  /** A JavaScript string in a truthiness test: `null` and `""` are both false. */
  predicate Truthy(s: Option<string>) {
    s.Some? && s.value != ""
  }

  // ---- the generation shown ----

  /** The entries carrying an id, by position. */
  function WithId(gs: seq<Generation>, id: Option<string>): nat -> Option<Generation> {
    (k: nat) => if k < |gs| && Some(gs[k].id) == id then Some(gs[k]) else None
  }

  /** The entry with the selected id, else the newest one: `find(...) || generations[0]`. */
  function Selected(gs: seq<Generation>, id: Option<string>): (r: Option<Generation>)
    ensures r.Some? <==> |gs| > 0
  {
    match Scan.Find(WithId(gs, id), 0, |gs|)
    case Some((_, g)) => Some(g)
    case None => if |gs| > 0 then Some(gs[0]) else None
  }

  /** The selected entry is the first one carrying the id when some entry does, and otherwise the
      newest entry. */
  lemma SelectedIs(gs: seq<Generation>, id: Option<string>)
    ensures forall k :: 0 <= k < |gs| && Some(gs[k].id) == id && (forall j :: 0 <= j < k ==> Some(gs[j].id) != id) ==>
              Selected(gs, id) == Some(gs[k])
    ensures (forall k :: 0 <= k < |gs| ==> Some(gs[k].id) != id) && |gs| > 0 ==> Selected(gs, id) == Some(gs[0])
  {
    var at := WithId(gs, id);
    forall k | 0 <= k < |gs| && Some(gs[k].id) == id && (forall j :: 0 <= j < k ==> Some(gs[j].id) != id)
      ensures Selected(gs, id) == Some(gs[k])
    {
      Scan.FindFirst(at, 0, |gs|, k);
    }
    Scan.FindNone(at, 0, |gs|);
  }

  /** The page's view: the history, the selected id, and the code as edited in the editor, if any. */
  datatype View = View(generations: seq<Generation>, selectedId: Option<string>, edited: Option<string>)

  /** `currentSvgCode`: the edited code, else the selected entry's code, else none; an empty
      string counts as none. */
  function CurrentSvgCode(v: View): (r: Option<string>)
    ensures r.None? || Truthy(r)
    ensures Truthy(v.edited) ==> r == v.edited
    ensures !Truthy(v.edited) ==>
              var sel := Selected(v.generations, v.selectedId);
              r == if sel.Some? && Truthy(sel.value.svgCode) then sel.value.svgCode else None
  {
    var sel := Selected(v.generations, v.selectedId);
    if Truthy(v.edited) then v.edited
    else if sel.Some? && Truthy(sel.value.svgCode) then sel.value.svgCode
    else None
  }

  /** The image URL of the selected entry, none when there is no entry or it has no URL. */
  function SelectedUrl(v: View): Option<string> {
    var sel := Selected(v.generations, v.selectedId);
    if sel.Some? then sel.value.imageUrl else None
  }

  /** The effect that runs after a render: when the selected id or the selected entry's image URL
      differs from the previous render, the edits are thrown away. */
  function AfterRender(before: View, after: View): (r: View)
    ensures r.generations == after.generations && r.selectedId == after.selectedId
    ensures (r.edited == after.edited)
              <==> (after.edited.None? || (after.selectedId == before.selectedId && SelectedUrl(after) == SelectedUrl(before)))
  {
    if after.selectedId != before.selectedId || SelectedUrl(after) != SelectedUrl(before) then after.(edited := None)
    else after
  }

  /** Choosing a generation, followed by the effect. */
  function Select(v: View, id: string): View {
    AfterRender(v, v.(selectedId := Some(id)))
  }

  /** The editor reporting new code. */
  function Edit(v: View, code: string): View {
    v.(edited := Some(code))
  }

  /** Selecting another generation shows the chosen entry's own code, whatever was edited before;
      editing shows the edit until then. */
  lemma SelectDropsEdits(v: View, id: string, code: string)
    ensures v.selectedId != Some(id) ==>
              var sel := Selected(v.generations, Some(id));
              CurrentSvgCode(Select(v, id)) == if sel.Some? && Truthy(sel.value.svgCode) then sel.value.svgCode else None
    ensures code != "" ==> CurrentSvgCode(Edit(v, code)) == Some(code)
    ensures v.selectedId != Some(id) ==> CurrentSvgCode(Select(Edit(v, code), id)) == CurrentSvgCode(Select(v, id))
  {
  }

  /** Selecting the generation already selected changes nothing: the edits stay. */
  lemma ReselectKeepsEdits(v: View, id: string, code: string)
    requires v.selectedId == Some(id)
    ensures Select(v, id) == v
    ensures CurrentSvgCode(Select(Edit(v, code), id)) == CurrentSvgCode(Edit(v, code))
  {
  }

  /** The image shown in the result pane. */
  datatype Shown = Shown(url: Option<string>, prompt: string, svgCode: Option<string>)

  /** `generatedImage`: shown when the selected entry is complete and has a URL or code. */
  function GeneratedImage(v: View): (r: Option<Shown>)
    ensures r.Some? ==> r.value.svgCode == CurrentSvgCode(v)
    ensures r.Some? ==> && Selected(v.generations, v.selectedId).Some?
                        && r.value.url == Selected(v.generations, v.selectedId).value.imageUrl
                        && r.value.prompt == Selected(v.generations, v.selectedId).value.prompt
    ensures r.Some? <==>
              var sel := Selected(v.generations, v.selectedId);
              sel.Some? && sel.value.status == History.Complete && (Truthy(sel.value.imageUrl) || Truthy(sel.value.svgCode))
  {
    var sel := Selected(v.generations, v.selectedId);
    if sel.Some? && sel.value.status == History.Complete && (Truthy(sel.value.imageUrl) || Truthy(sel.value.svgCode)) then
      Some(Shown(sel.value.imageUrl, sel.value.prompt, CurrentSvgCode(v)))
    else None
  }

  // ---- full-screen browsing ----

  /** A finished generation with an image URL. */
  predicate IsFinished(g: Generation) {
    g.status == History.Complete && Truthy(g.imageUrl)
  }

  /** The finished generations with an image URL, in history order, each as often as it occurs. */
  function Finished(gs: seq<Generation>): (r: seq<Generation>)
    ensures forall i :: 0 <= i < |r| ==> r[i] in gs && r[i].status == History.Complete && Truthy(r[i].imageUrl)
    ensures forall g :: g in gs && g.status == History.Complete && Truthy(g.imageUrl) ==> g in r
    ensures forall g :: multiset(r)[g] == if IsFinished(g) then multiset(gs)[g] else 0
    ensures Subsequence(r, gs)
  {
    FilterSubsequence(gs, IsFinished);
    FilterCount(gs, IsFinished);
    Filter(gs, IsFinished)
  }

  datatype Direction = Prev | Next

  /** One step through `n` images, wrapping around at both ends. */
  function Wrap(i: nat, n: nat, d: Direction): (r: nat)
    requires i < n
    ensures r < n
    ensures d == Next ==> r == (i + 1) % n
    ensures d == Prev ==> (r + 1) % n == i
  {
    match d
    case Prev => if i == 0 then n - 1 else i - 1
    case Next => if i == n - 1 then 0 else i + 1
  }

  /** A step back undoes a step forward, and the other way round. */
  lemma WrapInverse(i: nat, n: nat)
    requires i < n
    ensures Wrap(Wrap(i, n, Next), n, Prev) == i
    ensures Wrap(Wrap(i, n, Prev), n, Next) == i
  {
  }

  /** The image full screen moves to and the generation selected with it. */
  datatype Target = Target(url: string, id: string)

  /** The finished entries showing a URL, by position. */
  function WithUrl(cs: seq<Generation>, url: Option<string>): nat -> Option<nat> {
    (k: nat) => if k < |cs| && cs[k].imageUrl == url then Some(k) else None
  }

  /** `findIndex` of the image shown among the finished ones. */
  function Position(cs: seq<Generation>, url: Option<string>): Option<nat> {
    match Scan.Find<nat>(WithUrl(cs, url), 0, |cs|)
    case Some((k, _)) => Some(k)
    case None => None
  }

  /** The image found is the first finished one with the URL shown. */
  lemma PositionIs(cs: seq<Generation>, url: Option<string>)
    ensures Position(cs, url).None? <==> forall k :: 0 <= k < |cs| ==> cs[k].imageUrl != url
    ensures Position(cs, url).Some? ==>
              var k := Position(cs, url).value;
              k < |cs| && cs[k].imageUrl == url && forall j :: 0 <= j < k ==> cs[j].imageUrl != url
  {
    var at := WithUrl(cs, url);
    assert forall k :: 0 <= k < |cs| ==> (at(k).None? <==> cs[k].imageUrl != url);
    Scan.FindNone<nat>(at, 0, |cs|);
    if Scan.Find<nat>(at, 0, |cs|).Some? {
      Scan.FindSome<nat>(at, 0, |cs|);
    }
  }

  /** `handleFullscreenNavigate`: nothing when the image shown is not among the finished ones;
      otherwise the previous or next one, wrapping around. */
  function Navigate(gs: seq<Generation>, url: Option<string>, d: Direction): (r: Option<Target>)
    ensures r.Some? <==> exists k :: 0 <= k < |Finished(gs)| && Finished(gs)[k].imageUrl == url
  {
    var cs := Finished(gs);
    PositionIs(cs, url);
    match Position(cs, url)
    case None => None
    case Some(k) =>
      var j := Wrap(k, |cs|, d);
      Some(Target(cs[j].imageUrl.GetOr(""), cs[j].id))
  }

  /** The arrow keys in full screen: the same, except that with one finished image or none they
      do nothing. */
  function ArrowKey(gs: seq<Generation>, url: Option<string>, d: Direction): Option<Target> {
    if |Finished(gs)| <= 1 then None else Navigate(gs, url, d)
  }

  /** Every finished generation keeps a distinct image URL. */
  predicate DistinctUrls(cs: seq<Generation>) {
    forall a, b :: 0 <= a < b < |cs| ==> cs[a].imageUrl != cs[b].imageUrl
  }

  /** Browsing moves to a finished generation of the history, with its own URL; with distinct
      URLs, a step back after a step forward returns to the image shown and its generation. */
  lemma NavigateIs(gs: seq<Generation>, url: Option<string>, d: Direction)
    ensures var r := Navigate(gs, url, d);
            r.Some? ==> exists g :: g in gs && g.status == History.Complete && g.imageUrl == Some(r.value.url) &&
                                    r.value.url != "" && g.id == r.value.id
    ensures var cs, r := Finished(gs), Navigate(gs, url, Next);
            r.Some? && DistinctUrls(cs) ==>
              && url.Some? && Position(cs, url).Some?
              && Navigate(gs, Some(r.value.url), Prev) == Some(Target(url.value, cs[Position(cs, url).value].id))
  {
    var cs := Finished(gs);
    PositionIs(cs, url);
    if Position(cs, url).Some? {
      var k := Position(cs, url).value;
      var j := Wrap(k, |cs|, d);
      assert cs[j] in gs;
      var n := Wrap(k, |cs|, Next);
      var back := Some(cs[n].imageUrl.value);
      assert back == cs[n].imageUrl;
      if DistinctUrls(cs) {
        PositionIs(cs, back);
        assert Position(cs, back) == Some(n);
        WrapInverse(k, |cs|);
      }
    }
  }

  /** With a single finished image the buttons stay on it, and the keys do nothing at all: the
      two agree on what is shown. */
  lemma SingleImage(gs: seq<Generation>, url: Option<string>, d: Direction)
    requires |Finished(gs)| == 1 && Finished(gs)[0].imageUrl == url
    ensures ArrowKey(gs, url, d).None?
    ensures Navigate(gs, url, d) == Some(Target(url.value, Finished(gs)[0].id))
  {
    PositionIs(Finished(gs), url);
  }

  // ---- the two panes ----

  const InitialSplit := 50.0
  const MinSplit := 30.0
  const MaxSplit := 70.0

  /** The left pane's width while dragging, as a percentage, kept between 30 and 70. */
  function ClampSplit(pct: real): (r: real)
    ensures MinSplit <= r <= MaxSplit
    ensures MinSplit <= pct <= MaxSplit ==> r == pct
  {
    if pct < MinSplit then MinSplit else if pct > MaxSplit then MaxSplit else pct
  }

  /** Dragging past either end stops at it; clamping again changes nothing; a pointer further
      right never gives a narrower left pane. */
  lemma ClampSplitIs(p: real, q: real)
    ensures p <= MinSplit ==> ClampSplit(p) == MinSplit
    ensures p >= MaxSplit ==> ClampSplit(p) == MaxSplit
    ensures ClampSplit(ClampSplit(p)) == ClampSplit(p)
    ensures p <= q ==> ClampSplit(p) <= ClampSplit(q)
  {
  }

  /** The right pane takes the rest of the width. */
  function RightPane(left: real): real {
    100.0 - left
  }

  /** The panes fill the width between them, each keeping at least 30%, from the start, after
      every drag and after a double click. */
  lemma PanesFit(pct: real)
    ensures var left := ClampSplit(pct);
            left + RightPane(left) == 100.0 && MinSplit <= RightPane(left) <= MaxSplit
    ensures MinSplit <= InitialSplit <= MaxSplit && RightPane(InitialSplit) == InitialSplit
  {
  }

  // ---- the generate button ----

  /** `canGenerate`: a prompt that is not blank, and the first image (or URL) when editing. */
  predicate CanGenerate(inputs: GenerationHook.Inputs) {
    && |Trim(inputs.prompt)| > 0
    && (|| GenerationHook.Mode(inputs) == GenerationHook.GenerateRoute.TextMode
        || (if inputs.useUrls then inputs.image1Url != "" else inputs.image1.Some?))
  }

  /** The button is enabled exactly when the generation would pass its own checks. */
  lemma CanGenerateIs(inputs: GenerationHook.Inputs)
    ensures CanGenerate(inputs) <==> GenerationHook.PreCheck(inputs).None?
  {
    GenerationHook.PreCheckIs(inputs);
    GenerationHook.GenerateRoute.ModesDiffer();
  }

  // ---- pasting ----

  /** The slot a pasted image or image URL goes to: the first when it is free, else the second
      when that is free, else the first again. */
  function PasteSlot(firstTaken: bool, secondTaken: bool): (slot: nat)
    ensures slot == 1 || slot == 2
    ensures slot == 2 <==> firstTaken && !secondTaken
  {
    if !firstTaken then 1 else if !secondTaken then 2 else 1
  }

  /** A paste never overwrites an image while a slot is free, and replaces the first when both are
      taken. */
  lemma PasteSlotIs(firstTaken: bool, secondTaken: bool)
    ensures var slot := PasteSlot(firstTaken, secondTaken);
            && (!(firstTaken && secondTaken) ==> !(if slot == 1 then firstTaken else secondTaken))
            && (firstTaken && secondTaken ==> slot == 1)
  {
  }

  /** The message after pasting an image. */
  function PasteImageToast(firstTaken: bool, secondTaken: bool): string {
    if !firstTaken then "Image pasted successfully"
    else if !secondTaken then "Image pasted to second slot"
    else "Image replaced first slot"
  }

  /** The message names what happened to the slot chosen. */
  lemma PasteImageToastIs(firstTaken: bool, secondTaken: bool)
    ensures PasteSlot(firstTaken, secondTaken) == 2 <==> PasteImageToast(firstTaken, secondTaken) == "Image pasted to second slot"
    ensures PasteImageToast(firstTaken, secondTaken) == "Image replaced first slot" <==> firstTaken && secondTaken
  {
  }

  /** The end of the run of non-space characters starting at `j`: what greedy `[^\s]+` reaches. */
  function SpanEnd(s: string, j: nat): (e: nat)
    requires j <= |s|
    ensures j <= e <= |s|
    ensures forall k :: j <= k < e ==> !IsSpace(s[k])
    ensures e == |s| || IsSpace(s[e])
    decreases |s| - j
  {
    if j == |s| || IsSpace(s[j]) then j else SpanEnd(s, j + 1)
  }

  /** A case-insensitive match of a word without spaces covers no space. */
  lemma MatchHasNoSpace(s: string, i: nat, w: string)
    requires AtIgnoreCase(s, i, w) && NoSpace(w)
    ensures forall k :: i <= k < i + |w| ==> !IsSpace(s[k])
  {
    forall k | i <= k < i + |w| ensures !IsSpace(s[k]) {
      assert Lower(s[i..i + |w|])[k - i] == LowerChar(s[k]);
    }
  }

  lemma SchemesHaveNoSpace()
    ensures NoSpace("https://") && NoSpace("http://")
  {
  }

  /** Where `https?:\/\/[^\s]+` (case-insensitive) matching at `i` ends, if it does: the scheme,
      then the longest run of non-space characters, at least one. */
  function UrlAt(s: string, i: nat): (r: Option<nat>)
    ensures r.Some? ==>
              && i < r.value <= |s|
              && (AtIgnoreCase(s, i, "https://") || AtIgnoreCase(s, i, "http://"))
              && (forall k :: i <= k < r.value ==> !IsSpace(s[k]))
              && (r.value == |s| || IsSpace(s[r.value]))
  {
    if AtIgnoreCase(s, i, "https://") && i + 8 < |s| && !IsSpace(s[i + 8]) then
      SchemesHaveNoSpace();
      MatchHasNoSpace(s, i, "https://");
      Some(SpanEnd(s, i + 9))
    else if AtIgnoreCase(s, i, "http://") && i + 7 < |s| && !IsSpace(s[i + 7]) then
      SchemesHaveNoSpace();
      MatchHasNoSpace(s, i, "http://");
      Some(SpanEnd(s, i + 8))
    else None
  }

  /** The URLs starting in `s`, by position. */
  function Urls(s: string): nat -> Option<nat> {
    (i: nat) => UrlAt(s, i)
  }

  /** `pastedText.match(urlPattern)`: the leftmost URL in the pasted text. */
  function FirstUrl(s: string): Option<string> {
    var found := Scan.Find<nat>(Urls(s), 0, |s|);
    if found.Some? && found.value.0 <= found.value.1 <= |s| then Some(s[found.value.0..found.value.1]) else None
  }

  lemma SliceNoSpace(s: string, i: nat, e: nat)
    requires i <= e <= |s|
    requires forall k :: i <= k < e ==> !IsSpace(s[k])
    ensures NoSpace(s[i..e])
  {
    forall k | 0 <= k < e - i ensures !IsSpace(s[i..e][k]) { assert s[i..e][k] == s[i + k]; }
  }

  /** The URL found runs from `i` to `e`: it starts with a web scheme, holds no space, is followed
      by a space or the end, and no URL starts further left; none is found exactly when no
      position starts one. */
  lemma FirstUrlIs(s: string) returns (i: nat, e: nat)
    ensures FirstUrl(s).None? <==> forall j :: 0 <= j < |s| ==> UrlAt(s, j).None?
    ensures FirstUrl(s).Some? ==>
              && UrlAt(s, i) == Some(e) && i < e <= |s| && FirstUrl(s).value == s[i..e]
              && NoSpace(FirstUrl(s).value)
              && forall j :: 0 <= j < i ==> UrlAt(s, j).None?
  {
    i, e := 0, 0;
    var at := Urls(s);
    var found := Scan.Find<nat>(at, 0, |s|);
    Scan.FindNone(at, 0, |s|);
    if found.None? {
      forall j | 0 <= j < |s| ensures UrlAt(s, j).None? { assert at(j).None?; }
    } else {
      Scan.FindSome(at, 0, |s|);
      i, e := found.value.0, found.value.1;
      assert UrlAt(s, i) == at(i) == Some(e);
      assert FirstUrl(s) == Some(s[i..e]);
      forall j | 0 <= j < i ensures UrlAt(s, j).None? { assert at(j).None?; }
      SliceNoSpace(s, i, e);
    }
  }


  const ImageExtensions := ["jpg", "jpeg", "png", "gif", "webp", "bmp", "svg"]
  const FormatExtensions := ["jpg", "jpeg", "png", "gif", "webp"]

  /** `imagePattern` matches at `i`: a dot and an image extension, or `format=` and one. */
  predicate ImagePatternAt(url: string, i: nat) {
    || (exists k :: 0 <= k < |ImageExtensions| && AtIgnoreCase(url, i, "." + ImageExtensions[k]))
    || (exists k :: 0 <= k < |FormatExtensions| && AtIgnoreCase(url, i, "format=" + FormatExtensions[k]))
  }

  /** A URL taken for an image: it matches `imagePattern`, or has a `/media/` or `/images/` part. */
  predicate ImageLike(url: string) {
    exists i :: 0 <= i <= |url| && (ImagePatternAt(url, i) || At(url, i, "/media/") || At(url, i, "/images/"))
  }

  /** What a text paste does: the image URL and the slot it goes to, or nothing. */
  function PasteUrl(text: string, firstUrl: string, secondUrl: string): (r: Option<(string, nat)>)
    ensures r.Some? ==> r.value.1 == PasteSlot(firstUrl != "", secondUrl != "")
  {
    match FirstUrl(text)
    case Some(url) => if ImageLike(url) then Some((url, PasteSlot(firstUrl != "", secondUrl != ""))) else None
    case None => None
  }

  /** A pasted text is used exactly when its leftmost URL looks like an image; the URL then goes
      in whole, and never where a URL is already set while another slot is free. */
  lemma PasteUrlIs(text: string, firstUrl: string, secondUrl: string)
    ensures PasteUrl(text, firstUrl, secondUrl).Some? <==> FirstUrl(text).Some? && ImageLike(FirstUrl(text).value)
    ensures PasteUrl(text, firstUrl, secondUrl).Some? ==>
              var (url, slot) := PasteUrl(text, firstUrl, secondUrl).value;
              && url == FirstUrl(text).value && NoSpace(url)
              && (firstUrl == "" || secondUrl == "" ==> (if slot == 1 then firstUrl else secondUrl) == "")
  {
    var _, _ := FirstUrlIs(text);
  }
}

=== FILE: wrappers.dfy ===
/** Optional values: JavaScript `null`/`undefined` results and absent form fields. */
module Wrappers {

  datatype Option<+T> = None | Some(value: T) {

    /** Returns the value in Some, or `default` for None. */
    function GetOr(default: T): T {
      match this
      case Some(v) => v
      case None => default
    }
  }
}
